=== FILE: README.md ===
# std-signals: the signal/slot core in Dafny

A model of the core of `signals.hpp`, a header-only C++ implementation
of the Observer pattern. It covers the following parts:

- **The ring of connections.** A signal keeps its connections in an
  intrusive, circular, doubly-linked ring rooted at a sentinel node. The
  first `connect` creates the sentinel lazily.
- **Connect, disconnect and connected.** `connect` appends a node before
  the sentinel. `disconnect` and `connected` find a connection by walking
  the ring.
- **Emission.** `emit` calls every connected slot in registration order
  and hands each result to a *controller* (go on or stop) and to an
  *aggregation* (what `emit` returns).
- **Reentrancy.** Slots may connect, disconnect or emit again while an
  emission runs:
  - a recursion depth counter is raised around every loop step, and
    lowered again even when a slot raises;
  - a disconnect made while that depth is non-zero only *deactivates*
    the node (its function becomes null) and sets a flag;
  - the outermost emission sweeps the deactivated nodes out of the ring
    once its loop has finished.

## How the model is organised

| module | file | what it holds |
|---|---|---|
| `Ring` | ring.dfy | the ring as an arena `map<nat, Node>` with the sentinel at identity 0; `node_base::insert`, `extract`, `next`, `node::deactivate`, the scans, the sweep; the ghost predicate `Shape(a, o)` saying that the ring in arena `a` holds the nodes `o`, first to last |
| `Strategy` | strategy.dfy | the controllers (`condition_all`, `condition_while`), the four aggregations, `ConnectionInvoker::invoke`, and `Reduce`, a whole-sequence reference for what an aggregation computes |
| `Registry` | registry.dfy | the signal record (ring, recursion depth, deactivation flag), `connect` (with the null-receiver overload), `disconnect`, `connected`, the sweep, the destructor, `connection` and `scoped_connection` |
| `Emission` | emission.dfy | `emit` as a mutually recursive interpreter: `Emit`, `Walk`, `CallStep`, `SlotCall` and `Perform`, over slot *scripts* |
| `Traversal` | traversal.dfy | the reference behaviour of an emission whose slots change nothing: a plain loop over the list of active connections, and the proof that `Emit` agrees with it |
| `Scenarios` | scenarios.dfy | signals built by a run of connects, and the emissions of the library's test and example programs |
| `Delivery` | delivery.dfy | the two promises about changes during an emission, for every program of slots: a disconnected connection is not called after its disconnection, and every connection still live when an emission under `condition_all` finishes was called by that emission's own loop |
| `Reentrancy` | reentrancy.dfy | emissions whose slots connect, disconnect, raise or emit again while the emission runs |

### Modelling choices

- **Slots.** A slot is a label. What a call of slot `l` with argument
  `x` does is given by a `Program`, a function from `(l, x)` to a
  `Script`. A script is a list of changes the slot makes to its own
  signal, followed by how the call ends:
  - the changes are connect, disconnect, and emit again with some
    argument and strategy;
  - the call ends with a value or an error.
- **Slot results.** Results are integers. A `bool` result is 1 or 0, as
  C++ promotes it.
- **Controllers.** `condition_while` compares as the code does, `result
  == T` with `T` promoted to an integer (see "Findings").
- **Emission state.** An emission yields a `Run` holding four things:
  - the signal afterwards;
  - the slot calls in the order they began, nested calls included, each
    with the recursion depth while its slot ran (one more than the depth of
    the emission whose loop made it);
  - the status, which is `Finished`, `Raised` or `OutOfFuel`;
  - the aggregation state, which is what `get()` returns.
- **Fuel.** Emission is interpreted with a fuel bound, because a slot
  may connect further slots indefinitely. Each proved property either
  states a sufficient fuel or holds for any fuel.
- **Handles.** A `connection_handler` is `Handle(signal, node)`, or
  `NoHandle` for the empty handler. Node identities are positive and
  never reused, so a handle to a removed connection cannot name a later
  one.
- **Value signatures.** In the code, a value signature defaults to
  `aggregation_last`, whose value-initialised state is `Latest(0)`.

## Model

| member | source | states |
|---|---|---|
| Ring.InsertShape | signals.hpp:130-141 | inserting a fresh node before the sentinel of a well-formed ring gives a well-formed ring whose order is the old order with the new node appended last |
| Ring.ExtractShape | signals.hpp:143-151 | extracting the i-th node of a well-formed ring gives a well-formed ring whose order is the old one without that node, every other node relinked to its new neighbours |
| Ring.DeactivateShape | signals.hpp:216-220 | deactivating a node (clearing its function) leaves the ring's shape and order untouched |
| Ring.ScanFinds | signals.hpp:168-172 | the scan from the i-th node of a well-formed ring finds a node exactly when it lies in the order from position i on |
| Ring.ReachableIff | signals.hpp:189-201 | the scan from the sentinel's successor finds exactly the nodes of the order: never the sentinel, never a stale identity |
| Ring.ActiveSpec | signals.hpp:624-630 | the connections the sweep keeps are exactly the nodes of the order whose function is still set |
| Ring.SweepAll | signals.hpp:623-630 | the sweep leaves a well-formed ring over the active nodes, in their original order, with every surviving node's function unchanged |
| Registry.NewSignal | signals.hpp:84-88 | a new signal is well formed with no connections, at depth 0 and with no deactivation pending |
| Registry.Sentinel | signals.hpp:469-474 | the sentinel the first connect creates is a ring on its own: linked to itself, holding no connection |
| Registry.ConnectAppends | signals.hpp:468-480 | connect hands out a handle naming this signal and the new node, appends the node last in the order holding the slot, makes the handle connected, and leaves whether every other handle is connected unchanged |
| Registry.ConnectValid | signals.hpp:468-480 | after a connect, the signal is well formed with the new identity, which was not yet in use, added last |
| Registry.NullReceiver | signals.hpp:501-512 | connecting a member function through a null pointer changes nothing and yields the empty handler, which is never connected and whose disconnect answers false and changes nothing |
| Registry.ConnectedIff | signals.hpp:189-201 | connected answers true exactly for a handle of this signal whose node is in the ring, whether or not it has been deactivated |
| Registry.ForeignHandle | signals.hpp:91-97 | a handle of another signal is not connected here, and disconnecting it answers false and changes nothing |
| Registry.Disconnect | signals.hpp:166-187 | disconnect answers whether the handle was connected; when it was not, the signal is unchanged; identity, depth and next identity never change |
| Registry.DisconnectIdle | signals.hpp:176-177 | outside emission, disconnecting a connected handle answers true and removes its node from the order, leaving the rest in order; the handle is then not connected, and a second disconnect answers false and changes nothing |
| Registry.DisconnectDuringEmission | signals.hpp:178-181 | during emission, disconnecting a connected handle answers true, clears the node's function, sets the deactivations flag, keeps the order and every other node, and keeps every handle connected exactly as before |
| Registry.Sweep | signals.hpp:619-632 | the sweep clears the deactivations flag and keeps the signal's identity, depth and next identity |
| Registry.SweepKeepsActive | signals.hpp:619-632 | after the sweep, the signal is well formed over exactly the active connections in registration order, and every surviving node keeps its function |
| Registry.DestroyEmpties | signals.hpp:455-461 | the destructor, at depth 0, disconnects the connections first to last, leaves only the sentinel, and leaves no handle connected |
| Registry.DestroyOrder | signals.hpp:457-459 | the destructor's loop, which repeatedly disconnects the sentinel's successor, removes exactly the connections of the order, in that order |
| Registry.DestroyStalls | signals.hpp:455-461 | the destructor run during an emission of the same signal never ends: disconnecting the sentinel's successor only deactivates it, so the successor stays the same, and from the second round on a round changes nothing |
| Registry.DestroyFirst | signals.hpp:457-458 | the sentinel's successor is the first connection, and disconnecting it at depth 0 leaves a well-formed ring over the rest of the order |
| Registry.ConnectionConnected | signals.hpp:364 | `connection::connected` answers exactly what its signal's connected answers for the handler it holds |
| Registry.ConnectionDisconnect | signals.hpp:366 | `connection::disconnect` has exactly the effect and answer of its signal's disconnect of the handler it holds |
| Registry.EndScope | signals.hpp:379 | the end of a scoped connection's scope changes nothing when its handler is no longer connected |
| Registry.ScopeEnd | signals.hpp:379 | the end of a scoped connection's scope leaves its handler disconnected outside emission, and its node deactivated during emission |
| Emission.Emit | signals.hpp:595-635 | an emission, whether it finished or an error propagated out of it, leaves the recursion depth as it found it; it keeps the signal's identity and never lowers the next identity to hand out; an outermost emission that finished leaves no deactivation pending |
| Emission.SlotCall | signals.hpp:227-244 | after a slot call the depth is what it was before the call, whether the slot returned or raised, and the signal's identity is kept |
| Emission.EmitKeeps | signals.hpp:595-635 | an emission with any slots keeps the signal well formed; a nested emission, and an emission an error ended, never sweeps: it only appends connections, never reactivates or removes a deactivated node, and leaves a pending deactivation pending for the next outermost emission |
| Emission.WalkKeeps | signals.hpp:604-617 | the emission loop, from any position of the order, keeps the signal well formed, only appends to the order, and never gives a function back to a deactivated node |
| Emission.PerformKeeps | signals.hpp:524-526 | the connects, disconnects and nested emissions a slot makes while its emission runs keep the signal well formed and the order extended, and never reactivate a deactivated node |
| Emission.SlotKeeps | signals.hpp:611-613 | a slot call, with the depth raised around it, keeps the signal well formed, only appends to the order, and never gives a function back to a deactivated node |
| Traversal.CallsActive | signals.hpp:612-613 | the calls the loop owes are one per active node, in order, each with that node's slot |
| Traversal.PureWalk | signals.hpp:604-617 | when slots change nothing, the emission loop from position i is exactly the plain loop over the calls owed from i on: same calls, same status, same aggregation state, signal unchanged |
| Traversal.PureEmit | signals.hpp:595-635 | when slots change nothing, emit makes the prefix of the owed calls that the plain loop makes, ends as it ends, returns its aggregation state, and sweeps only when it is outermost, finished and a deactivation is pending |
| Traversal.SerialDispatch | signals.hpp:606-614 | when no slot raises, the plain loop is the invoker fed the slots' results: as many calls as results consumed, and the same state |
| Traversal.PureEmitReduces | signals.hpp:606-614 | when slots change nothing and return, the emission calls a prefix of the active connections: every result but the last was accepted by the controller, the last was rejected unless the prefix is all of them, and the result is the aggregation of exactly the prefix's results |
| Traversal.PureEmitAll | signals.hpp:250-260 | with `condition_all` (or a void signature), every active connection is called, in order, and the result aggregates all their results |
| Strategy.InvokeExtends | signals.hpp:46-57 | invoking after result v asks the controller about v and aggregates v whatever the verdict: the state goes from the aggregation of a prefix to that of the prefix followed by v |
| Strategy.DispatchReduces | signals.hpp:606-614 | feeding results through the invoker stops right after the first rejected result (which is still aggregated) or at the end, and the state is the aggregation of exactly the results consumed |
| Strategy.InitIsEmptyReduce | signals.hpp:271-351 | every aggregation starts in its state for no results: nothing, a value-initialised 0, an empty container, or a count of 0 |
| Strategy.WhileAgreesOnBooleans | signals.hpp:262-267 | for boolean results, `condition_while` as written and as documented give the same verdict |
| Strategy.WhileAsWrittenStopsOnTwo | signals.hpp:262-267 | for the integer result 2, `condition_while<int, true>` as written stops, while the documented conversion to bool would go on |
| Scenarios.ConnectAllHolds | signals.hpp:468-480 | connecting n slots to a new signal gives a well-formed signal whose connections 1..n hold the slots in connection order |
| Scenarios.CallsInOrder | signals.hpp:517-520 | the calls owed to connections holding slots are those slots, in connection order |
| Scenarios.EmitInOrder | signals.hpp:517-520 | with slots that change nothing and `condition_all`, emission calls the connections' slots in their order and aggregates all their results |
| Scenarios.EmitInConnectOrder | signals.hpp:517-520 | emitting on a new signal given slots ls calls exactly ls, in the order they were connected, and aggregates all their results |
| Scenarios.EmitConnected | signals.hpp:595-635 | emitting with slots that change nothing on a new signal given slots ls is the plain loop over ls in connection order |
| Scenarios.CollationVector | test.cpp:138-147 | the collation of slots returning 777, 42, 1, 42, 777 is exactly that vector |
| Scenarios.DefaultIsLast | example.cpp:115-126 | by default a value signature returns the last slot's result |
| Scenarios.CollationOfTwo | example.cpp:127-142 | the collation of two slots returning 0 and 1 is [0, 1] |
| Scenarios.DefaultVoid | example.cpp:87-98 | by default a void signature calls both slots and returns nothing |
| Scenarios.Until0 | test.cpp:204-216 | with `aggregation_last` and `condition_while<bool, true>` over slots returning true, false and aborting: the first two are called, the aborting one never, and the result is false |
| Scenarios.While0 | test.cpp:227-239 | with `aggregation_last` and `condition_while<bool, false>` over slots returning false, true and aborting: the first two are called, the aborting one never, and the result is true |
| Reentrancy.ConnectDuringEmission | signals.hpp:528-529 | in the emission over a single slot 0 that connects slot 1, the new connection is called in the same emission, right after slot 0, and the collation holds both results |
| Reentrancy.DisconnectAhead | signals.hpp:531-533 | in the emission over slots 0 and 1 where slot 0 disconnects slot 1's connection, slot 1 is not called, and the outermost emission sweeps its node away once its loop is done |
| Reentrancy.RaiseLeavesPending | signals.hpp:604-632 | when a slot deactivates a connection and then raises, the error propagates with the depth restored and no sweep: the node stays in the ring, deactivated and still connected |
| Reentrancy.NextEmissionSweeps | signals.hpp:619-632 | the next emission that finishes skips the deactivated connection and, being outermost, sweeps it away |
| Reentrancy.SweptPair | signals.hpp:619-632 | sweeping a pair of connections whose second was deactivated leaves the first, still connected, and the second disconnected |
| Reentrancy.SlotEmits | signals.hpp:524-526 | a slot whose only change is a nested emission leaves what that emission, made one level deeper, leaves, with the slot's depth restored |
| Reentrancy.NestedEmissionDefers | signals.hpp:619-620 | a slot that emits its signal again, where the nested emission disconnects a later connection: the nested calls come in ring order, and since the nested emission is not outermost it does not sweep, so the connection is still in the ring, deactivated and connected, when the slot returns |
| Reentrancy.RecursiveEmission | signals.hpp:524-533 | the whole recursive emission: the outer call of slot 0, then the nested calls, then the outer call of slot 1; the connection disconnected in the nested emission is called by neither emission; the outermost one sweeps it; the outer collation holds the outer results only |
| Reentrancy.SweptTriple | signals.hpp:619-632 | sweeping three connections whose third was deactivated keeps the first two connected and disconnects the third |
| Delivery.ConnectDead | signals.hpp:468-480 | a connect never brings back a disconnected connection: it hands out a fresh identity and leaves every other node's function as it was |
| Delivery.DisconnectDead | signals.hpp:166-187 | a disconnect never brings back a disconnected connection: it only discards a node or clears its function |
| Delivery.DisconnectKills | signals.hpp:176-181 | disconnecting a connected handle leaves its connection dead, whether its node is discarded (depth 0) or only deactivated |
| Delivery.ClearedIsDead | signals.hpp:178-181 | a connection still in the ring whose function was cleared is dead |
| Delivery.EmitAvoids | signals.hpp:531-533 | for every program of slots, an emission never calls a dead connection, nested emissions included, and a nested emission leaves it dead |
| Delivery.WalkAvoids | signals.hpp:604-617 | for every program of slots, the emission loop from any node never calls a dead connection and leaves it dead |
| Delivery.CallAvoids | signals.hpp:611-616 | a loop step at a live connection: neither the call, nor the slot's changes, nor the rest of the loop calls a dead connection |
| Delivery.SlotAvoids | signals.hpp:611-613 | a slot call never calls a dead connection and leaves it dead |
| Delivery.PerformAvoids | signals.hpp:524-526 | the connects, disconnects and nested emissions a slot makes never call a dead connection and leave it dead |
| Delivery.SlotKills | signals.hpp:531-533 | a slot that disconnects a still-connected connection as any one of its changes leaves it dead, and nothing after that disconnect in the slot's calls (its later changes and their nested emissions) calls it; the calls before it are those of the slot's earlier changes |
| Delivery.PerformSplit | signals.hpp:524-526 | a slot's changes are made one after another: if the first k finish, the rest start from the signal they left, and the calls are theirs followed by the rest's; if they do not, nothing after them happens |
| Delivery.DisconnectedNotCalledAfter | signals.hpp:531-533 | for every program of slots, once a slot has disconnected a still-connected connection, by any one of its changes, nothing after that disconnect in the loop step calls it: not the slot's later changes or nested emissions, and not the rest of the loop; before it come only the slot's own call and its earlier changes' calls |
| Delivery.WalkReaches | signals.hpp:528-529 | under a controller that never stops, the emission loop from position i that reaches the sentinel has itself called (at its own depth, not through a nested emission) every connection from position i on of the order it leaves, including connections made by its slots, whose function is still set |
| Delivery.SlotReaches | signals.hpp:612-613 | the loop at a node with a function is the call step there, so it reaches what that step reaches |
| Delivery.SkipReaches | signals.hpp:611-616 | stepping over a node without a function, the loop itself still calls every live connection after it |
| Delivery.StepReaches | signals.hpp:611-616 | a step at a node with a function calls it at the loop's own depth, and the rest of the loop itself calls every live connection after it |
| Delivery.GoOnReaches | signals.hpp:611-616 | after a slot call that returned, the loop goes on from the node's successor, and the step's own calls, at the loop's depth, reach every live connection from that node on |
| Delivery.ReachesAfter | signals.hpp:614-616 | a loop's own call of the node at position i, followed by a rest of the loop that calls every live connection after i, calls every live connection from i on |
| Delivery.EmitReaches | signals.hpp:528-529 | for every program of slots, an emission under `condition_all` or a void signature that runs to its end has itself called, at one more than its depth and so not merely through a nested emission, every connection still connected with a function afterwards, whether it was there before or connected during the emission |
| Delivery.EmitDeeper | signals.hpp:604-613 | every call an emission makes, its own loop's and its slots' nested emissions', runs deeper than the depth the emission started at |
| Delivery.WalkDeeper | signals.hpp:604-617 | the same for the emission loop from any node |
| Delivery.CallDeeper | signals.hpp:611-616 | the same for one loop step: its own call, the slot's nested calls and the rest of the loop |
| Delivery.SlotDeeper | signals.hpp:611-613 | every call made while a slot runs, which only its nested emissions make, runs deeper than the slot's own call, so an emission's own calls are exactly those at one more than its depth |
| Delivery.PerformDeeper | signals.hpp:524-526 | the nested emissions among a slot's changes call only deeper than the depth the changes are made at |
| Scenarios.WhileOnTwo | signals.hpp:262-267 | with `aggregation_last` and `condition_while<int, true>` over slots returning 2 and 5, the emission stops after the first call and returns 2, because `2 == true` compares 2 with 1 |

## Left out

- `std::function` and the member-function adapters of `connect` (lines 482-496) are not modelled. A slot is a label whose behaviour is a `Program`. Only the null-receiver rule of the pointer overloads is kept.
- Connecting an empty `std::function` is not modelled. It would create a node with no function without setting the deactivations flag. Every modelled connect stores a slot.
- `disconnect(void*)` and `connected(void*)` with a raw node pointer are modelled only through handles. A pointer to the sentinel or to freed memory has no counterpart.
- `valid()` (lines 100-102) is an alias of `connected` and has no separate member.
- The move constructor, the single-slot constructor (lines 443-447), and `operator()` (lines 637-652) are not modelled. `operator()` only forwards to `emit`.
- The destructor is modelled at depth 0 only. At a non-zero depth its loop would never end (`Registry.DestroyStalls`): a signal destroyed from one of its own slots is a lifetime error of the caller, whose emission goes on using it.
- `Emission.Emit`: the model gives up after `fuel` loop steps and slot calls, with status `OutOfFuel`. Every property about a particular emission states a fuel that is enough for it.
- `Emission.Emit`: every emission starts from its aggregation's fresh state, and its controller holds no state. User-defined aggregations and controllers (lines 552-583), and ones passed to `emit` already filled or carrying state (lines 597-598), are not modelled. The model has the library's four aggregations and two controllers only.
- `Emission.Emit`: a slot's changes reach only its own signal, and a nested emission runs the same `Program`. Slots that act on other signals, or that change other state, are not modelled.
- `Emission.Emit`: a slot cannot catch an error raised by its own nested emission: `Perform` always passes it out of the slot, which then raises too. A slot that wraps its nested `emit` in `try`/`catch` and goes on (the case `ScopedIncrement`, lines 227-244, keeps the depth right for) is not modelled. So the properties stated for every program (`Delivery.EmitAvoids`, `Delivery.EmitReaches`, `Emission.EmitKeeps`, the `Deeper` lemmas) cover slots that do not catch.
- `std::size_t` depth and counter overflow is not modelled: both are unbounded naturals. Neither can wrap in practice.
- `abort()` in the `condition_while` tests is modelled as a slot that raises. The scenarios show that it is never called.
- The re-entrancy test of test.cpp (lines 348-439) is not transcribed as a whole. Its ingredients are modelled separately in `Reentrancy`:
  - connect during emission;
  - disconnect ahead of the cursor;
  - a raise with a pending deactivation;
  - the next emission's sweep;
  - a recursive emission that disconnects a later connection.
- Threads are not modelled: the library is not thread-safe and makes no promise about them.
- Memory management, templates and macros are not modelled: `unique_ptr` deleters, `std::conditional` for the default aggregation, and the namespace macros.
- Slot results are integers. Other result types, and `unique_ptr` results (test.cpp lines 151-191), are not modelled. Moving a result into an aggregation does not change its value.

## Findings

| source | as written | input that shows it | evidently intended | confidence | as-written member | corrected member |
|---|---|---|---|---|---|---|
| signals.hpp:262-267 | `condition_while` compares `result == T`, which promotes `T` to the integer 1 or 0 | an `int` slot returning 2 under `condition_while<int, true>`: the comparison is `2 == 1`, and the emission stops | the result converted to a boolean equals `T`, as the comment above the struct says; then 2 converts to `true` and the emission goes on | not executed; read from the code, the two agree on every `bool` result | Strategy.WhileAsWritten, Strategy.WhileAsWrittenStopsOnTwo, Scenarios.WhileOnTwo | Strategy.Continue, Strategy.WhileAgreesOnBooleans |

Emission follows the code as written: `Strategy.Invoke` asks `Strategy.Verdict`, which compares with `Strategy.WhileAsWritten`. `Scenarios.WhileOnTwo` shows the early stop in a whole emission. `Strategy.Continue` is the documented reading. `Strategy.WhileAgreesOnBooleans` proves that the two give the same verdict on every boolean result. So the library's own tests, which use `bool` results only, behave the same under both.

=== FILE: delivery.dfy ===
/** The two promises `emit` makes about changes during an emission, for
    every program of slots: a connection disconnected during an emission is
    not called after its disconnection, and a connection made during an
    emission is called in it (once the emission runs to the sentinel). */
module Delivery {
  import opened Ring
  import opened Strategy
  import opened Registry
  import opened Emission

  /** Some call in `trace` came through connection `x`. */
  ghost predicate Called(trace: seq<Call>, x: nat)
  {
    exists k :: 0 <= k < |trace| && trace[k].node == x
  }

  /** Some call in `trace` came through connection `x` at recursion depth
      `depth`: the loop of an emission made at depth `depth - 1` called `x`
      itself.  The calls its slots' nested emissions make run deeper. */
  ghost predicate CalledAt(trace: seq<Call>, x: nat, depth: nat)
  {
    exists k :: 0 <= k < |trace| && trace[k].node == x && trace[k].depth == depth
  }

  /** Every call in `trace` ran deeper than `depth`. */
  ghost predicate Deeper(trace: seq<Call>, depth: nat)
  {
    forall k :: 0 <= k < |trace| ==> trace[k].depth > depth
  }

  /** Connection `x` is gone for good: its identity was handed out, and its
      node is either discarded or has lost its slot.  Identities are never
      handed out twice, so nothing brings it back. */
  ghost predicate Dead(s: Signal, x: nat)
  {
    x != Head && x < s.nextId && (x in s.nodes ==> s.nodes[x].slot.None?)
  }

  /** A controller that never stops an emission: `condition_all`, or any
      `void` signature. */
  predicate AlwaysGoes(strat: Strategy)
  {
    strat.VoidStrategy? || strat.ctl == All
  }

  lemma CalledAppend(a: seq<Call>, b: seq<Call>, x: nat)
    ensures Called(a + b, x) <==> Called(a, x) || Called(b, x)
  {
    if Called(a, x) {
      var k :| 0 <= k < |a| && a[k].node == x;
      assert (a + b)[k] == a[k];
    }
    if Called(b, x) {
      var k :| 0 <= k < |b| && b[k].node == x;
      assert (a + b)[|a| + k] == b[k];
    }
    if Called(a + b, x) {
      var k :| 0 <= k < |a + b| && (a + b)[k].node == x;
      if k < |a| {
        assert a[k] == (a + b)[k];
      } else {
        assert b[k - |a|] == (a + b)[k];
      }
    }
  }

  lemma CalledAtAppend(a: seq<Call>, b: seq<Call>, x: nat, depth: nat)
    ensures CalledAt(a + b, x, depth) <==> CalledAt(a, x, depth) || CalledAt(b, x, depth)
  {
    if CalledAt(a, x, depth) {
      var k :| 0 <= k < |a| && a[k].node == x && a[k].depth == depth;
      assert (a + b)[k] == a[k];
    }
    if CalledAt(b, x, depth) {
      var k :| 0 <= k < |b| && b[k].node == x && b[k].depth == depth;
      assert (a + b)[|a| + k] == b[k];
    }
    if CalledAt(a + b, x, depth) {
      var k :| 0 <= k < |a + b| && (a + b)[k].node == x && (a + b)[k].depth == depth;
      if k < |a| {
        assert a[k] == (a + b)[k];
      } else {
        assert b[k - |a|] == (a + b)[k];
      }
    }
  }

  lemma DeeperAppend(a: seq<Call>, b: seq<Call>, depth: nat)
    requires Deeper(a, depth) && Deeper(b, depth)
    ensures Deeper(a + b, depth)
  {
    forall k | 0 <= k < |a + b|
      ensures (a + b)[k].depth > depth
    {
      if k < |a| {
        assert (a + b)[k] == a[k];
      } else {
        assert (a + b)[k] == b[k - |a|];
      }
    }
  }

  // ---------------------------------------------------------------------
  // The calls a slot's nested emissions make run deeper than the loop's own

  /** Every call an emission makes, its own and its slots' nested ones,
      runs deeper than the depth the emission started at. */
  lemma {:induction false} EmitDeeper(p: Program, s: Signal, arg: int, strat: Strategy, fuel: nat)
    ensures Deeper(Emit(p, s, arg, strat, fuel).trace, s.depth)
    decreases fuel, 1
  {
    if Head in s.nodes {
      WalkDeeper(p, s, s.nodes[Head].next, arg, strat, Init(strat), fuel);
    }
  }

  /** The same for the loop from any node. */
  lemma {:induction false} WalkDeeper(p: Program, s: Signal, cur: nat, arg: int, strat: Strategy, st: AggState, fuel: nat)
    ensures Deeper(Walk(p, s, cur, arg, strat, st, fuel).trace, s.depth)
    decreases fuel, 0
  {
    if cur != Head && cur in s.nodes && fuel > 0 {
      if s.nodes[cur].slot.None? {
        WalkSkip(p, s, cur, arg, strat, st, fuel);
        WalkDeeper(p, s, s.nodes[cur].next, arg, strat, st, fuel - 1);
      } else {
        WalkStep(p, s, cur, arg, strat, st, fuel);
        CallDeeper(p, s, cur, s.nodes[cur].slot.value, arg, strat, st, fuel - 1);
      }
    }
  }

  /** The loop step at `cur`: its own call runs at one more than the
      loop's depth, the slot's nested calls deeper still. */
  lemma {:induction false} CallDeeper(p: Program, s: Signal, cur: nat, l: Label, arg: int, strat: Strategy, st: AggState, fuel: nat)
    requires cur != Head
    ensures Deeper(CallStep(p, s, cur, l, arg, strat, st, fuel).trace, s.depth)
    decreases fuel, 5
  {
    var q := SlotCall(p, s, l, arg, fuel);
    var calls := [Call(cur as NodeId, l, arg, s.depth + 1)] + q.trace;
    SlotDeeper(p, s, l, arg, fuel);
    DeeperAppend([Call(cur as NodeId, l, arg, s.depth + 1)], q.trace, s.depth);
    if q.status == Finished && p(l, arg).ending.Return? {
      var st' := Invoke(strat, st, p(l, arg).ending.value).1;
      var nxt := Get(q.signal.nodes, cur).next;
      WalkDeeper(p, q.signal, nxt, arg, strat, st', fuel);
      DeeperAppend(calls, Walk(p, q.signal, nxt, arg, strat, st', fuel).trace, s.depth);
    }
  }

  /** Every call made while a slot runs, which only its nested emissions
      make, runs deeper than the slot's own call: so an emission's own calls
      are exactly those at one more than its depth. */
  lemma SlotDeeper(p: Program, s: Signal, l: Label, arg: int, fuel: nat)
    ensures Deeper(SlotCall(p, s, l, arg, fuel).trace, s.depth + 1)
    decreases fuel, 4
  {
    PerformDeeper(p, s.(depth := s.depth + 1), p(l, arg).effects, fuel);
  }

  /** A slot's changes, made at depth `s.depth`, call only deeper. */
  lemma {:induction false} PerformDeeper(p: Program, s: Signal, effects: seq<Effect>, fuel: nat)
    ensures Deeper(Perform(p, s, effects, fuel).trace, s.depth)
    decreases fuel, 2, |effects|
  {
    if |effects| > 0 {
      var t: Signal;
      var trace: seq<Call> := [];
      var stopped := false;
      match effects[0] {
        case ConnectSlot(l) =>
          t := Connect(s, l).0;
        case DisconnectHandle(h) =>
          t := Disconnect(s, h).0;
        case EmitAgain(y, strat) =>
          EmitDeeper(p, s, y, strat, fuel);
          t := Emit(p, s, y, strat, fuel).signal;
          trace := Emit(p, s, y, strat, fuel).trace;
          stopped := Emit(p, s, y, strat, fuel).status != Finished;
      }
      if !stopped {
        PerformDeeper(p, t, effects[1..], fuel);
        DeeperAppend(trace, Perform(p, t, effects[1..], fuel).trace, s.depth);
      }
    }
  }

  // ---------------------------------------------------------------------
  // A dead connection stays dead

  /** A connect hands out a fresh identity and leaves every other slot as
      it was. */
  lemma ConnectDead(s: Signal, l: Label, x: nat)
    requires Dead(s, x)
    ensures Dead(Connect(s, l).0, x)
  {
    var a := if Head in s.nodes then s.nodes else Sentinel();
    var p := Get(a, Head).prev;
    var a1 := a[s.nextId := Node(Head, p, Some(l))];
    assert x in a1 ==> a1[x].slot.None?;
    var a2 := a1[p := Get(a1, p).(next := s.nextId)];
    assert x in a2 ==> a2[x].slot.None?;
  }

  /** A disconnect only ever discards a node or clears its slot. */
  lemma DisconnectDead(s: Signal, h: Handle, x: nat)
    requires Dead(s, x)
    ensures Dead(Disconnect(s, h).0, x)
  {
    if Disconnect(s, h).1 && s.depth == 0 {
      var a := s.nodes;
      var nx := Get(a, h.node).next;
      var pv := Get(a, h.node).prev;
      var a1 := a[nx := Get(a, nx).(prev := pv)];
      assert x in a1 ==> a1[x].slot.None?;
      var a2 := a1[pv := Get(a1, pv).(next := nx)];
      assert x in a2 ==> a2[x].slot.None?;
    }
  }

  /** Disconnecting a connection of the signal leaves it dead, whether the
      node is discarded (outside any emission) or loses its slot. */
  lemma DisconnectKills(s: Signal, o: seq<nat>, h: Handle)
    requires Valid(s, o) && Connected(s, h)
    ensures Dead(Disconnect(s, h).0, h.node)
  {
    assert h.node in s.nodes && h.node != Head;
    ShapeMembers(s.nodes, o);
    var k :| 0 <= k < |o| && o[k] == h.node;
    assert h.node < s.nextId;
  }

  /** A connection in the ring whose slot is cleared is dead. */
  lemma ClearedIsDead(s: Signal, o: seq<nat>, x: nat)
    requires Valid(s, o) && x in o && x in s.nodes && s.nodes[x].slot.None?
    ensures Dead(s, x)
  {
    var k :| 0 <= k < |o| && o[k] == x;
    assert o[k] < s.nextId;
  }

  // ---------------------------------------------------------------------
  // Nothing calls a dead connection

  /** An emission never calls a dead connection, and a nested one (depth
      above zero) leaves it dead. */
  lemma {:induction false} EmitAvoids(p: Program, s: Signal, x: nat, arg: int, strat: Strategy, fuel: nat)
    requires Dead(s, x)
    ensures !Called(Emit(p, s, arg, strat, fuel).trace, x)
    ensures s.depth > 0 ==> Dead(Emit(p, s, arg, strat, fuel).signal, x)
    decreases fuel, 1
  {
    if Head in s.nodes {
      WalkAvoids(p, s, x, s.nodes[Head].next, arg, strat, Init(strat), fuel);
    }
  }

  /** The walk from any node never calls a dead connection and leaves it
      dead. */
  lemma {:induction false} WalkAvoids(p: Program, s: Signal, x: nat, cur: nat, arg: int, strat: Strategy, st: AggState, fuel: nat)
    requires Dead(s, x)
    ensures !Called(Walk(p, s, cur, arg, strat, st, fuel).trace, x)
    ensures Dead(Walk(p, s, cur, arg, strat, st, fuel).signal, x)
    decreases fuel, 0
  {
    if cur != Head && cur in s.nodes && fuel > 0 {
      if s.nodes[cur].slot.None? {
        WalkSkip(p, s, cur, arg, strat, st, fuel);
        WalkAvoids(p, s, x, s.nodes[cur].next, arg, strat, st, fuel - 1);
      } else {
        WalkStep(p, s, cur, arg, strat, st, fuel);
        CallAvoids(p, s, x, cur, s.nodes[cur].slot.value, arg, strat, st, fuel - 1);
      }
    }
  }

  /** The step at a live connection calls it, never the dead one, and
      neither do the slot's changes nor the rest of the walk. */
  lemma {:induction false} CallAvoids(p: Program, s: Signal, x: nat, cur: nat, l: Label, arg: int, strat: Strategy, st: AggState, fuel: nat)
    requires Dead(s, x) && cur != Head && cur != x
    ensures !Called(CallStep(p, s, cur, l, arg, strat, st, fuel).trace, x)
    ensures Dead(CallStep(p, s, cur, l, arg, strat, st, fuel).signal, x)
    decreases fuel, 5
  {
    var q := SlotCall(p, s, l, arg, fuel);
    var calls := [Call(cur as NodeId, l, arg, s.depth + 1)] + q.trace;
    SlotAvoids(p, s, x, l, arg, fuel);
    CalledAppend([Call(cur as NodeId, l, arg, s.depth + 1)], q.trace, x);
    if q.status == Finished && p(l, arg).ending.Return? {
      var st' := Invoke(strat, st, p(l, arg).ending.value).1;
      var nxt := Get(q.signal.nodes, cur).next;
      WalkAvoids(p, q.signal, x, nxt, arg, strat, st', fuel);
      CalledAppend(calls, Walk(p, q.signal, nxt, arg, strat, st', fuel).trace, x);
    }
  }

  /** A slot's changes never call a dead connection and leave it dead. */
  lemma SlotAvoids(p: Program, s: Signal, x: nat, l: Label, arg: int, fuel: nat)
    requires Dead(s, x)
    ensures !Called(SlotCall(p, s, l, arg, fuel).trace, x)
    ensures Dead(SlotCall(p, s, l, arg, fuel).signal, x)
    decreases fuel, 4
  {
    PerformAvoids(p, s.(depth := s.depth + 1), x, p(l, arg).effects, fuel);
  }

  /** The changes, made at a positive depth, one by one. */
  lemma {:induction false} PerformAvoids(p: Program, s: Signal, x: nat, effects: seq<Effect>, fuel: nat)
    requires Dead(s, x) && s.depth > 0
    ensures !Called(Perform(p, s, effects, fuel).trace, x)
    ensures Dead(Perform(p, s, effects, fuel).signal, x)
    decreases fuel, 2, |effects|
  {
    if |effects| > 0 {
      var t: Signal;
      var trace: seq<Call> := [];
      var stopped := false;
      match effects[0] {
        case ConnectSlot(l) =>
          ConnectDead(s, l, x);
          t := Connect(s, l).0;
        case DisconnectHandle(h) =>
          DisconnectDead(s, h, x);
          t := Disconnect(s, h).0;
        case EmitAgain(y, strat) =>
          EmitAvoids(p, s, x, y, strat, fuel);
          t := Emit(p, s, y, strat, fuel).signal;
          trace := Emit(p, s, y, strat, fuel).trace;
          stopped := Emit(p, s, y, strat, fuel).status != Finished;
      }
      if !stopped {
        PerformAvoids(p, t, x, effects[1..], fuel);
        CalledAppend(trace, Perform(p, t, effects[1..], fuel).trace, x);
      }
    }
  }

  /** What the first `k` changes of slot `l`, called with `arg`, do: they
      run one level deeper than `s`. */
  function Before(p: Program, s: Signal, l: Label, arg: int, k: nat, fuel: nat): (r: Outcome)
    requires k <= |p(l, arg).effects|
    ensures r.signal.id == s.id && r.signal.depth == s.depth + 1
  {
    Perform(p, s.(depth := s.depth + 1), p(l, arg).effects[..k], fuel)
  }

  /** A slot's changes split after the first `k`: if those finish, the rest
      carry on from the signal they left, and the calls are theirs followed
      by the rest's; otherwise the first `k` are all that happens. */
  lemma {:induction false} PerformSplit(p: Program, s: Signal, effects: seq<Effect>, k: nat, fuel: nat)
    requires k <= |effects|
    ensures var pre := Perform(p, s, effects[..k], fuel);
      var rest := Perform(p, pre.signal, effects[k..], fuel);
      Perform(p, s, effects, fuel)
        == if pre.status == Finished then Outcome(rest.signal, pre.trace + rest.trace, rest.status) else pre
    decreases k
  {
    if k == 0 {
      assert effects[..0] == [] && effects[0..] == effects;
      assert [] + Perform(p, s, effects, fuel).trace == Perform(p, s, effects, fuel).trace;
    } else {
      assert effects[..k][0] == effects[0];
      assert effects[..k][1..] == effects[1..][..k - 1];
      assert effects[1..][k - 1..] == effects[k..];
      var t: Signal;
      var trace: seq<Call> := [];
      var stopped := false;
      match effects[0] {
        case ConnectSlot(l) =>
          t := Connect(s, l).0;
        case DisconnectHandle(h) =>
          t := Disconnect(s, h).0;
        case EmitAgain(y, strat) =>
          t := Emit(p, s, y, strat, fuel).signal;
          trace := Emit(p, s, y, strat, fuel).trace;
          stopped := Emit(p, s, y, strat, fuel).status != Finished;
      }
      if !stopped {
        PerformSplit(p, t, effects[1..], k - 1, fuel);
        var pre' := Perform(p, t, effects[1..][..k - 1], fuel);
        var rest := Perform(p, pre'.signal, effects[k..], fuel);
        assert trace + (pre'.trace + rest.trace) == (trace + pre'.trace) + rest.trace;
      }
    }
  }

  /** A slot whose `k`-th change disconnects `h`, still connected once the
      changes before it are made: from that disconnect on `h` is dead, and
      none of the slot's later changes, nested emissions included, call it.
      The slot's calls start with those its first `k` changes made. */
  lemma SlotKills(p: Program, s: Signal, o: seq<nat>, l: Label, arg: int, fuel: nat, h: Handle, k: nat)
    requires Valid(s, o) && k < |p(l, arg).effects| && p(l, arg).effects[k] == DisconnectHandle(h)
    requires Before(p, s, l, arg, k, fuel).status == Finished && Connected(Before(p, s, l, arg, k, fuel).signal, h)
    ensures var q := SlotCall(p, s, l, arg, fuel);
      var b := Before(p, s, l, arg, k, fuel).trace;
      && |b| <= |q.trace| && q.trace[..|b|] == b
      && !Called(q.trace[|b|..], h.node)
      && Dead(q.signal, h.node)
  {
    var inner := s.(depth := s.depth + 1);
    ValidNodes(s, inner, o);
    var effects := p(l, arg).effects;
    PerformSplit(p, inner, effects, k, fuel);
    var pre := Perform(p, inner, effects[..k], fuel);
    var o1 := PerformKeeps(p, inner, o, effects[..k], fuel);
    var after := effects[k..];
    assert after[0] == DisconnectHandle(h);
    var t := Disconnect(pre.signal, h).0;
    DisconnectKills(pre.signal, o1, h);
    PerformAvoids(p, t, h.node, after[1..], fuel);
    var rest := Perform(p, t, after[1..], fuel);
    assert Perform(p, pre.signal, after, fuel) == Outcome(rest.signal, [] + rest.trace, rest.status);
    assert [] + rest.trace == rest.trace;
    var tr := pre.trace + rest.trace;
    assert tr[..|pre.trace|] == pre.trace && tr[|pre.trace|..] == rest.trace;
  }

  /** For every program of slots: once the slot at `cur` has disconnected
      `h` (its `k`-th change, with `h` still connected), nothing after that
      disconnect in the step calls `h`: not the slot's later changes, not
      their nested emissions, and not the rest of the loop.  Before it come
      the slot's own call and the calls of its first `k` changes. */
  lemma DisconnectedNotCalledAfter(p: Program, s: Signal, o: seq<nat>, cur: nat, l: Label, arg: int, strat: Strategy, st: AggState, fuel: nat, h: Handle, k: nat)
    requires Valid(s, o) && cur != Head
    requires k < |p(l, arg).effects| && p(l, arg).effects[k] == DisconnectHandle(h)
    requires Before(p, s, l, arg, k, fuel).status == Finished && Connected(Before(p, s, l, arg, k, fuel).signal, h)
    ensures var r := CallStep(p, s, cur, l, arg, strat, st, fuel);
      var n := 1 + |Before(p, s, l, arg, k, fuel).trace|;
      && n <= |r.trace| && r.trace[..n] == [Call(cur as NodeId, l, arg, s.depth + 1)] + Before(p, s, l, arg, k, fuel).trace
      && !Called(r.trace[n..], h.node)
  {
    SlotKills(p, s, o, l, arg, fuel, h, k);
    var b := Before(p, s, l, arg, k, fuel).trace;
    var c := Call(cur as NodeId, l, arg, s.depth + 1);
    var q := SlotCall(p, s, l, arg, fuel);
    var post := q.trace[|b|..];
    assert q.trace == b + post;
    if q.status == Finished && p(l, arg).ending.Return? && Invoke(strat, st, p(l, arg).ending.value).0 {
      var st' := Invoke(strat, st, p(l, arg).ending.value).1;
      var nxt := Get(q.signal.nodes, cur).next;
      WalkAvoids(p, q.signal, h.node, nxt, arg, strat, st', fuel);
      var w := Walk(p, q.signal, nxt, arg, strat, st', fuel);
      CalledAppend(post, w.trace, h.node);
      Regroup(c, b, post, w.trace);
    } else {
      Regroup(c, b, post, []);
      assert [c] + q.trace + [] == [c] + q.trace;
    }
  }

  /** The call, the calls before the disconnect, and everything after. */
  lemma Regroup(c: Call, b: seq<Call>, post: seq<Call>, w: seq<Call>)
    ensures var r := [c] + (b + post) + w;
      r[..1 + |b|] == [c] + b && r[1 + |b|..] == post + w
  {
    var r := [c] + (b + post) + w;
    assert r == ([c] + b) + (post + w);
  }

  // ---------------------------------------------------------------------
  // Every live connection is called

  /** What a run `r` of the loop from position `i` of order `o` in `s`
      achieves under a controller that never stops: it keeps the registry
      well formed with order `o'`, and if it ran to its end the loop itself
      (at recursion depth one more than `s`'s, not a nested emission) called
      every connection from position `i` on of `o'` (connections made by the
      slots included) whose slot is still set afterwards. */
  ghost predicate Reaches(s: Signal, o: seq<nat>, i: nat, r: Run, o': seq<nat>)
  {
    && Keeps(s, o, r.signal, o')
    && (r.status == Finished ==>
          forall k :: i <= k < |o'| && r.signal.nodes[o'[k]].slot.Some? ==> CalledAt(r.trace, o'[k], s.depth + 1))
  }

  /** The walk from position `i` calls every connection that is still live
      when it reaches the sentinel. */
  lemma {:induction false} WalkReaches(p: Program, s: Signal, o: seq<nat>, i: nat, arg: int, strat: Strategy, st: AggState, fuel: nat)
    returns (o': seq<nat>)
    requires Valid(s, o) && i <= |o| && AlwaysGoes(strat)
    ensures Reaches(s, o, i, Walk(p, s, Cursor(o, i), arg, strat, st, fuel), o')
    decreases fuel, 1
  {
    if i == |o| || fuel == 0 {
      IdleReaches(p, s, o, i, arg, strat, st, fuel);
      o' := o;
    } else {
      NextAt(s, o, i);
      if s.nodes[o[i]].slot.None? {
        o' := SkipReaches(p, s, o, i, arg, strat, st, fuel);
      } else {
        o' := SlotReaches(p, s, o, i, arg, strat, st, fuel);
      }
    }
  }

  /** At the sentinel, or out of fuel, the walk calls nothing and has
      nothing left to reach, or did not run to its end. */
  lemma IdleReaches(p: Program, s: Signal, o: seq<nat>, i: nat, arg: int, strat: Strategy, st: AggState, fuel: nat)
    requires Valid(s, o) && i <= |o| && (i == |o| || fuel == 0)
    ensures Reaches(s, o, i, Walk(p, s, Cursor(o, i), arg, strat, st, fuel), o)
  {
    if i < |o| {
      NextAt(s, o, i);
    }
  }

  /** A node with a slot at position `i`: the walk there is the call step. */
  lemma {:induction false} SlotReaches(p: Program, s: Signal, o: seq<nat>, i: nat, arg: int, strat: Strategy, st: AggState, fuel: nat)
    returns (o': seq<nat>)
    requires SlotAt(s, o, i) && AlwaysGoes(strat) && fuel > 0 && Cursor(o, i) == o[i]
    ensures Reaches(s, o, i, Walk(p, s, Cursor(o, i), arg, strat, st, fuel), o')
    decreases fuel, 0
  {
    WalkStep(p, s, o[i], arg, strat, st, fuel);
    o' := StepReaches(p, s, o, i, arg, strat, st, fuel - 1);
  }

  /** A node without a slot at position `i`: it keeps none, so the rest of
      the walk reaches everything that needs reaching. */
  lemma {:induction false} SkipReaches(p: Program, s: Signal, o: seq<nat>, i: nat, arg: int, strat: Strategy, st: AggState, fuel: nat)
    returns (o': seq<nat>)
    requires Valid(s, o) && i < |o| && AlwaysGoes(strat) && fuel > 0
    requires o[i] in s.nodes && o[i] != Head && s.nodes[o[i]].slot.None?
    ensures Reaches(s, o, i, Walk(p, s, o[i], arg, strat, st, fuel), o')
    decreases fuel, 0
  {
    NextAt(s, o, i);
    WalkSkip(p, s, o[i], arg, strat, st, fuel);
    o' := WalkReaches(p, s, o, i + 1, arg, strat, st, fuel - 1);
    ReachesPast(s, o, i, Walk(p, s, Cursor(o, i + 1), arg, strat, st, fuel - 1), o');
  }

  /** A run that reaches everything from position `i + 1` on reaches
      everything from `i` on when the node at `i` had no slot: it still has
      none at the end. */
  lemma ReachesPast(s: Signal, o: seq<nat>, i: nat, r: Run, o': seq<nat>)
    requires Reaches(s, o, i + 1, r, o') && i < |o| && o[i] in s.nodes && s.nodes[o[i]].slot.None?
    ensures Reaches(s, o, i, r, o')
  {
    assert o'[i] == o[i];
    assert o[i] in r.signal.nodes;
    assert r.signal.nodes[o[i]].slot.None?;
  }

  /** The step at position `i`, whose node holds a slot: it calls that
      node, and the rest of the walk reaches everything after it. */
  lemma {:induction false} StepReaches(p: Program, s: Signal, o: seq<nat>, i: nat, arg: int, strat: Strategy, st: AggState, fuel: nat)
    returns (o': seq<nat>)
    requires SlotAt(s, o, i) && AlwaysGoes(strat)
    ensures Reaches(s, o, i, CallStep(p, s, o[i], s.nodes[o[i]].slot.value, arg, strat, st, fuel), o')
    decreases fuel, 3
  {
    var cur := o[i];
    var l := s.nodes[cur].slot.value;
    var q := SlotCall(p, s, l, arg, fuel);
    var o1 := SlotKeeps(p, s, o, l, arg, fuel);
    if q.status == Finished && p(l, arg).ending.Return? {
      o' := GoOnReaches(p, s, o, i, q, o1, arg, strat, st, fuel);
    } else {
      o' := o1;
    }
  }

  /** After a slot call at position `i` that returned: the walk goes on
      from the successor, and the step's trace starts with the call. */
  lemma {:induction false} GoOnReaches(p: Program, s: Signal, o: seq<nat>, i: nat, q: Outcome, o1: seq<nat>, arg: int, strat: Strategy, st: AggState, fuel: nat)
    returns (o': seq<nat>)
    requires SlotAt(s, o, i) && AlwaysGoes(strat)
    requires q == SlotCall(p, s, s.nodes[o[i]].slot.value, arg, fuel) && Keeps(s, o, q.signal, o1)
    requires q.status == Finished && p(s.nodes[o[i]].slot.value, arg).ending.Return?
    ensures Reaches(s, o, i, CallStep(p, s, o[i], s.nodes[o[i]].slot.value, arg, strat, st, fuel), o')
    decreases fuel, 2
  {
    var cur := o[i];
    var l := s.nodes[cur].slot.value;
    var v := p(l, arg).ending.value;
    var calls := [Call(cur as NodeId, l, arg, s.depth + 1)] + q.trace;
    assert Invoke(strat, st, v).0;
    var st' := Invoke(strat, st, v).1;
    assert o1[i] == cur;
    NextAt(q.signal, o1, i);
    var nxt := Get(q.signal.nodes, cur).next;
    o' := WalkReaches(p, q.signal, o1, i + 1, arg, strat, st', fuel);
    var w := Walk(p, q.signal, nxt, arg, strat, st', fuel);
    var r := CallStep(p, s, cur, l, arg, strat, st, fuel);
    assert r == Run(w.signal, calls + w.trace, w.status, w.result);
    ReachesAfter(s, o, i, q.signal, o1, w, o', calls, r);
  }

  /** A run that starts with a call of the loop at position `i` and then
      reaches everything after `i` from the signal `back` that call left,
      reaches everything from `i` on. */
  lemma ReachesAfter(s: Signal, o: seq<nat>, i: nat, back: Signal, o1: seq<nat>, w: Run, o': seq<nat>, calls: seq<Call>, r: Run)
    requires i < |o| && Keeps(s, o, back, o1) && back.depth == s.depth && Reaches(back, o1, i + 1, w, o')
    requires |calls| > 0 && calls[0].node == o[i] && calls[0].depth == s.depth + 1
    requires r == Run(w.signal, calls + w.trace, w.status, w.result)
    ensures Reaches(s, o, i, r, o')
  {
    RetainsTrans(s, back, w.signal, o, o1);
    assert o'[i] == o1[i] == o[i];
    forall k | i <= k < |o'| && w.signal.nodes[o'[k]].slot.Some? && w.status == Finished
      ensures CalledAt(r.trace, o'[k], s.depth + 1)
    {
      CalledAtAppend(calls, w.trace, o'[k], s.depth + 1);
      if k == i {
        assert calls[0].node == o'[k] && calls[0].depth == s.depth + 1;
      }
    }
  }

  /** An emission under a controller that never stops, once it has run to
      its end, has itself called (at one more than its depth, not merely
      through a nested emission) every connection that is still connected
      with a slot afterwards, whether it was there before or connected by
      one of the slots during the emission. */
  lemma EmitReaches(p: Program, s: Signal, o: seq<nat>, arg: int, strat: Strategy, fuel: nat)
    requires Valid(s, o) && AlwaysGoes(strat)
    ensures var e := Emit(p, s, arg, strat, fuel);
      e.status == Finished ==>
        forall x :: x in e.signal.nodes && x != Head && e.signal.nodes[x].slot.Some? ==> CalledAt(e.trace, x, s.depth + 1)
  {
    if Head in s.nodes {
      var w := Walk(p, s, s.nodes[Head].next, arg, strat, Init(strat), fuel);
      var o' := WalkReaches(p, s, o, 0, arg, strat, Init(strat), fuel);
      assert Cursor(o, 0) == s.nodes[Head].next;
      if Head in w.signal.nodes {
        ShapeMembers(w.signal.nodes, o');
      }
      forall x | x in w.signal.nodes && x != Head && w.signal.nodes[x].slot.Some? && w.status == Finished
        ensures CalledAt(w.trace, x, s.depth + 1)
      {
        var k :| 0 <= k < |o'| && o'[k] == x;
      }
      if w.status == Finished && w.signal.depth == 0 && w.signal.deactivations {
        SweepKeepsActive(w.signal, o');
      }
    }
  }
}

=== FILE: emission.dfy ===
/** `signal::emit`: the walk over the ring that calls every connected slot
    in order, with the recursion depth raised around each step, the
    controller consulted after each call, and the sweep of deactivated
    connections once the outermost emission is done.

    A slot is a label; what a call of it does is given by a `Program`: the
    changes it makes to its own signal (connect, disconnect, a nested
    emission) and then how it ends (a value or an error).  Emission is
    interpreted with fuel, since slots can keep connecting further slots. */
module Emission {
  import opened Ring
  import opened Strategy
  import opened Registry

  /** How a slot call ends: with its result (for a `void` signature any
      value, it is not looked at) or by raising an error. */
  datatype Ending = Return(value: int) | Raise

  /** What a slot does to its signal while it runs.  The result of a
      nested emission is dropped. */
  datatype Effect =
    | ConnectSlot(slot: Label)
    | DisconnectHandle(handle: Handle)
    | EmitAgain(arg: int, strat: Strategy)

  datatype Script = Script(effects: seq<Effect>, ending: Ending)

  /** The behaviour of every slot, for every argument. */
  type Program = (Label, int) -> Script

  /** One slot call: the connection it came through, its slot, its
      argument, and the recursion depth while the slot runs (one more than
      the depth of the emission whose loop made the call). */
  datatype Call = Call(node: NodeId, slot: Label, arg: int, depth: nat)

  /** `Finished`: the emission returned (walked to the sentinel or stopped
      by its controller).  `Raised`: an error propagates out of it.
      `OutOfFuel`: the interpretation gave up. */
  datatype Status = Finished | Raised | OutOfFuel

  /** An emission's effect: the signal afterwards, the slot calls in the
      order they began (nested ones included), how it ended, and the
      aggregation state that `get()` reads when it finished. */
  datatype Run = Run(signal: Signal, trace: seq<Call>, status: Status, result: AggState)

  /** The effect of the changes a slot makes before it ends. */
  datatype Outcome = Outcome(signal: Signal, trace: seq<Call>, status: Status)

  /** `emit(arg, aggregation, controller)`.  A signal that never had a
      connection returns the fresh aggregation's `get()`.  After the walk,
      an outermost emission that finished sweeps when a connection was
      deactivated; an error propagates without the sweep. */
  function Emit(p: Program, s: Signal, arg: int, strat: Strategy, fuel: nat): (r: Run)
    ensures r.signal.id == s.id && r.signal.depth == s.depth && r.signal.nextId >= s.nextId
    ensures s.depth == 0 && r.status == Finished && Head in s.nodes ==> !r.signal.deactivations
    decreases fuel, 1
  {
    if Head !in s.nodes then Run(s, [], Finished, Init(strat))
    else
      var w := Walk(p, s, s.nodes[Head].next, arg, strat, Init(strat), fuel);
      if w.status == Finished && w.signal.depth == 0 && w.signal.deactivations
      then w.(signal := Sweep(w.signal))
      else w
  }

  /** The emission loop from node `cur` on, with aggregation state `st`.
      Each step raises the depth, calls the node's slot if it has one, reads
      the successor only after the slot has returned, and lowers the depth
      again, whether the slot returned or raised.  The walk ends at the
      sentinel, on a stop verdict, or with an error. */
  function Walk(p: Program, s: Signal, cur: nat, arg: int, strat: Strategy, st: AggState, fuel: nat): (r: Run)
    ensures r.signal.id == s.id && r.signal.depth == s.depth && r.signal.nextId >= s.nextId
    decreases fuel, 0
  {
    if cur == Head || cur !in s.nodes then Run(s, [], Finished, st)
    else if fuel == 0 then Run(s, [], OutOfFuel, st)
    else
      match s.nodes[cur].slot
      case None =>
        // The depth goes up and down again around a step that calls nothing.
        Walk(p, s, s.nodes[cur].next, arg, strat, st, fuel - 1)
      case Some(l) => CallStep(p, s, cur, l, arg, strat, st, fuel - 1)
  }

  /** The step of the walk at node `cur`, whose slot is `l`: the slot call,
      then, if it returned and the controller lets the emission go on, the
      rest of the walk from the successor `cur` has once the call is over. */
  function CallStep(p: Program, s: Signal, cur: nat, l: Label, arg: int, strat: Strategy, st: AggState, fuel: nat): (r: Run)
    requires cur != Head
    ensures r.signal.id == s.id && r.signal.depth == s.depth && r.signal.nextId >= s.nextId
    decreases fuel, 4
  {
    var q := SlotCall(p, s, l, arg, fuel);
    var back := q.signal;
    var calls := [Call(cur as NodeId, l, arg, s.depth + 1)] + q.trace;
    if q.status != Finished then Run(back, calls, q.status, st)
    else
      match p(l, arg).ending
      case Raise => Run(back, calls, Raised, st)
      case Return(v) =>
        var (ok, st') := Invoke(strat, st, v);
        if !ok then Run(back, calls, Finished, st')
        else
          var w := Walk(p, back, Get(back.nodes, cur).next, arg, strat, st', fuel);
          Run(w.signal, calls + w.trace, w.status, w.result)
  }

  /** One call of slot `l`: the depth is raised, the slot's changes are
      made, and the depth is lowered again however they ended. */
  function SlotCall(p: Program, s: Signal, l: Label, arg: int, fuel: nat): (r: Outcome)
    ensures r.signal.id == s.id && r.signal.depth == s.depth && r.signal.nextId >= s.nextId
    decreases fuel, 3
  {
    var q := Perform(p, s.(depth := s.depth + 1), p(l, arg).effects, fuel);
    Outcome(q.signal.(depth := q.signal.depth - 1), q.trace, q.status)
  }

  /** Carries out a slot's changes in order; an error in a nested emission
      propagates out of the slot, which has no way to catch it. */
  function Perform(p: Program, s: Signal, effects: seq<Effect>, fuel: nat): (r: Outcome)
    ensures r.signal.id == s.id && r.signal.depth == s.depth && r.signal.nextId >= s.nextId
    decreases fuel, 2, |effects|
  {
    if |effects| == 0 then Outcome(s, [], Finished)
    else
      var first :=
        match effects[0]
        case ConnectSlot(l) => Outcome(Connect(s, l).0, [], Finished)
        case DisconnectHandle(h) => Outcome(Disconnect(s, h).0, [], Finished)
        case EmitAgain(x, strat) =>
          var e := Emit(p, s, x, strat, fuel);
          Outcome(e.signal, e.trace, e.status);
      if first.status != Finished then first
      else
        var rest := Perform(p, first.signal, effects[1..], fuel);
        Outcome(rest.signal, first.trace + rest.trace, rest.status)
  }

  // ---------------------------------------------------------------------
  // Emission keeps the registry well formed

  /** Every node of `o` that had lost its slot in `s` has none in `t`. */
  ghost predicate Retains(s: Signal, t: Signal, o: seq<nat>)
  {
    forall i {:trigger t.nodes[o[i]]} :: 0 <= i < |o| && o[i] in s.nodes && o[i] in t.nodes && s.nodes[o[i]].slot.None? ==> t.nodes[o[i]].slot.None?
  }

  /** What a step of an emission keeps: the signal `t` it leaves is well
      formed with order `o'`, that order extends `o`, every slot that was
      cleared in `s` is still cleared in `t`, and a deactivation pending in
      `s` is still pending in `t`. */
  ghost predicate Keeps(s: Signal, o: seq<nat>, t: Signal, o': seq<nat>)
  {
    Valid(t, o') && o <= o' && Retains(s, t, o) && (s.deactivations ==> t.deactivations)
  }

  lemma RetainsTrans(s: Signal, t: Signal, u: Signal, o: seq<nat>, o1: seq<nat>)
    requires Retains(s, t, o) && Retains(t, u, o1) && o <= o1
    requires Stored(t.nodes, o1)
    ensures Retains(s, u, o)
  {
    forall i | 0 <= i < |o| && o[i] in s.nodes && o[i] in u.nodes && s.nodes[o[i]].slot.None?
      ensures u.nodes[o[i]].slot.None?
    {
      assert o1[i] == o[i];
      assert t.nodes[o[i]].slot.None?;
    }
  }

  /** A connect keeps the order as a prefix and every cleared slot cleared. */
  lemma ConnectKeeps(s: Signal, o: seq<nat>, l: Label) returns (o': seq<nat>)
    requires Valid(s, o)
    ensures Keeps(s, o, Connect(s, l).0, o')
  {
    ConnectAppends(s, o, l);
    o' := o + [s.nextId];
    var r := Connect(s, l).0;
    forall i | 0 <= i < |o| && o[i] in s.nodes && o[i] in r.nodes && s.nodes[o[i]].slot.None?
      ensures r.nodes[o[i]].slot.None?
    {
      assert o[i] < s.nextId;
    }
  }

  /** A disconnect during an emission keeps the order and clears one slot. */
  lemma DisconnectKeeps(s: Signal, o: seq<nat>, h: Handle)
    requires Valid(s, o) && s.depth > 0
    ensures Keeps(s, o, Disconnect(s, h).0, o)
  {
    if Connected(s, h) {
      DisconnectDuringEmission(s, o, h);
    }
  }

  /** An emission leaves a well-formed signal.  A nested one (depth above
      zero), and one an error ended, never sweeps: the order before is a
      prefix of the order after, cleared slots stay cleared, and a pending
      deactivation is still pending, left for the next outermost emission
      that finishes. */
  lemma {:induction false} EmitKeeps(p: Program, s: Signal, o: seq<nat>, arg: int, strat: Strategy, fuel: nat)
    returns (o': seq<nat>)
    requires Valid(s, o)
    ensures Valid(Emit(p, s, arg, strat, fuel).signal, o')
    ensures s.depth > 0 || Emit(p, s, arg, strat, fuel).status != Finished ==> Keeps(s, o, Emit(p, s, arg, strat, fuel).signal, o')
    decreases fuel, 1
  {
    if Head !in s.nodes {
      o' := o;
    } else {
      var w := Walk(p, s, s.nodes[Head].next, arg, strat, Init(strat), fuel);
      var o1 := WalkKeeps(p, s, o, 0, s.nodes[Head].next, arg, strat, Init(strat), fuel);
      if w.status == Finished && w.signal.depth == 0 && w.signal.deactivations {
        SweepKeepsActive(w.signal, o1);
        o' := Active(w.signal.nodes, o1);
      } else {
        o' := o1;
      }
    }
  }

  /** The walk from the node at position `i` (the sentinel once `i` is
      past the end) never removes a node, whatever the depth. */
  lemma {:induction false} WalkKeeps(p: Program, s: Signal, o: seq<nat>, i: nat, cur: nat, arg: int, strat: Strategy, st: AggState, fuel: nat)
    returns (o': seq<nat>)
    requires Valid(s, o) && i <= |o| && cur == Cursor(o, i)
    ensures Keeps(s, o, Walk(p, s, cur, arg, strat, st, fuel).signal, o')
    decreases fuel, 0
  {
    if i == |o| || fuel == 0 {
      WalkIdle(p, s, cur, arg, strat, st, fuel);
      o' := o;
    } else {
      NextAt(s, o, i);
      if s.nodes[cur].slot.None? {
        WalkSkip(p, s, cur, arg, strat, st, fuel);
        o' := WalkKeeps(p, s, o, i + 1, s.nodes[cur].next, arg, strat, st, fuel - 1);
      } else {
        o' := SlotStepKeeps(p, s, o, i, arg, strat, st, fuel);
      }
    }
  }

  /** At the sentinel, or without fuel, the walk leaves the signal alone. */
  lemma WalkIdle(p: Program, s: Signal, cur: nat, arg: int, strat: Strategy, st: AggState, fuel: nat)
    requires cur == Head || fuel == 0
    ensures Walk(p, s, cur, arg, strat, st, fuel).signal == s
  {
  }

  /** A node without a slot is stepped over.
      Only one unfolding step, stated apart to keep it out of the larger
      proofs' context; it says nothing beyond the definition. */
  lemma WalkSkip(p: Program, s: Signal, cur: nat, arg: int, strat: Strategy, st: AggState, fuel: nat)
    requires cur != Head && cur in s.nodes && fuel > 0 && s.nodes[cur].slot.None?
    ensures Walk(p, s, cur, arg, strat, st, fuel) == Walk(p, s, s.nodes[cur].next, arg, strat, st, fuel - 1)
  {
  }

  /** A node with a slot is called.
      Only one unfolding step, stated apart to keep it out of the larger
      proofs' context; it says nothing beyond the definition. */
  lemma WalkStep(p: Program, s: Signal, cur: nat, arg: int, strat: Strategy, st: AggState, fuel: nat)
    requires cur != Head && cur in s.nodes && fuel > 0 && s.nodes[cur].slot.Some?
    ensures Walk(p, s, cur, arg, strat, st, fuel) == CallStep(p, s, cur, s.nodes[cur].slot.value, arg, strat, st, fuel - 1)
  {
  }

  /** The node at position `i` of a well-formed signal holds a slot. */
  ghost predicate SlotAt(s: Signal, o: seq<nat>, i: nat)
  {
    Valid(s, o) && i < |o| && o[i] in s.nodes && o[i] != Head && s.nodes[o[i]].slot.Some?
  }

  /** The walk at a node with a slot keeps what the call step keeps. */
  lemma SlotStepKeeps(p: Program, s: Signal, o: seq<nat>, i: nat, arg: int, strat: Strategy, st: AggState, fuel: nat)
    returns (o': seq<nat>)
    requires SlotAt(s, o, i) && fuel > 0
    ensures Keeps(s, o, Walk(p, s, o[i], arg, strat, st, fuel).signal, o')
    decreases fuel, 0, 0
  {
    o' := CallKeeps(p, s, o, i, arg, strat, st, fuel - 1);
    WalkStepKeeps(p, s, o[i], arg, strat, st, fuel, o, o');
  }

  /** What the call step keeps, the walk at a node with a slot keeps. */
  lemma WalkStepKeeps(p: Program, s: Signal, cur: nat, arg: int, strat: Strategy, st: AggState, fuel: nat, o: seq<nat>, o': seq<nat>)
    ensures cur != Head && cur in s.nodes && fuel > 0 && s.nodes[cur].slot.Some?
        && Keeps(s, o, CallStep(p, s, cur, s.nodes[cur].slot.value, arg, strat, st, fuel - 1).signal, o')
        ==> Keeps(s, o, Walk(p, s, cur, arg, strat, st, fuel).signal, o')
  {
    if cur != Head && cur in s.nodes && fuel > 0 && s.nodes[cur].slot.Some? {
      WalkStep(p, s, cur, arg, strat, st, fuel);
    }
  }

  /** One step of the walk that calls a slot, then the rest of the walk. */
  lemma {:induction false} CallKeeps(p: Program, s: Signal, o: seq<nat>, i: nat, arg: int, strat: Strategy, st: AggState, fuel: nat)
    returns (o': seq<nat>)
    requires SlotAt(s, o, i)
    ensures Keeps(s, o, CallStep(p, s, o[i], s.nodes[o[i]].slot.value, arg, strat, st, fuel).signal, o')
    decreases fuel, 5
  {
    var l := s.nodes[o[i]].slot.value;
    var o1 := SlotKeeps(p, s, o, l, arg, fuel);
    var q := SlotCall(p, s, l, arg, fuel);
    var ending := p(l, arg).ending;
    if q.status == Finished && ending.Return? && Invoke(strat, st, ending.value).0 {
      o' := GoOnKeeps(p, s, o, q.signal, o1, i, Get(q.signal.nodes, o[i]).next, arg, strat, Invoke(strat, st, ending.value).1, fuel);
    } else {
      o' := o1;
    }
  }

  /** The rest of the walk after a slot call that lets it go on. */
  lemma {:induction false} GoOnKeeps(p: Program, s: Signal, o: seq<nat>, back: Signal, o1: seq<nat>, i: nat, nxt: nat, arg: int, strat: Strategy, st: AggState, fuel: nat)
    returns (o': seq<nat>)
    requires Keeps(s, o, back, o1)
    requires i < |o| && o[i] in back.nodes && nxt == Get(back.nodes, o[i]).next
    ensures Keeps(s, o, Walk(p, back, nxt, arg, strat, st, fuel).signal, o')
    decreases fuel, 1
  {
    assert o1[i] == o[i];
    NextAt(back, o1, i);
    o' := WalkKeeps(p, back, o1, i + 1, nxt, arg, strat, st, fuel);
    RetainsTrans(s, back, Walk(p, back, nxt, arg, strat, st, fuel).signal, o, o1);
  }

  /** The signal a slot call leaves behind, once the depth is lowered
      again, is well formed and keeps the order as a prefix. */
  lemma SlotKeeps(p: Program, s: Signal, o: seq<nat>, l: Label, arg: int, fuel: nat)
    returns (o1: seq<nat>)
    requires Valid(s, o)
    ensures Keeps(s, o, SlotCall(p, s, l, arg, fuel).signal, o1)
    decreases fuel, 4
  {
    var inner := s.(depth := s.depth + 1);
    var q := Perform(p, inner, p(l, arg).effects, fuel);
    ValidNodes(s, inner, o);
    o1 := PerformKeeps(p, inner, o, p(l, arg).effects, fuel);
    ValidNodes(q.signal, SlotCall(p, s, l, arg, fuel).signal, o1);
  }

  /** Validity depends on the nodes, the next identity and the flag only. */
  lemma ValidNodes(s: Signal, t: Signal, o: seq<nat>)
    requires Valid(s, o)
    requires t.nodes == s.nodes && t.nextId == s.nextId && t.deactivations == s.deactivations
    ensures Valid(t, o)
  {
  }

  /** In a well-formed signal, the successor of the node at position `i`. */
  lemma NextAt(s: Signal, o: seq<nat>, i: nat)
    requires Valid(s, o) && i < |o|
    ensures o[i] in s.nodes && Get(s.nodes, o[i]).next == Cursor(o, i + 1)
  {
    ShapeMembers(s.nodes, o);
  }

  /** A slot's changes, made at a positive depth, never remove a node. */
  lemma {:induction false} PerformKeeps(p: Program, s: Signal, o: seq<nat>, effects: seq<Effect>, fuel: nat)
    returns (o': seq<nat>)
    requires Valid(s, o) && s.depth > 0
    ensures Keeps(s, o, Perform(p, s, effects, fuel).signal, o')
    decreases fuel, 2, |effects|
  {
    if |effects| == 0 {
      o' := o;
    } else {
      var o1: seq<nat>;
      var t: Signal;
      var stopped := false;
      match effects[0] {
        case ConnectSlot(l) =>
          o1 := ConnectKeeps(s, o, l);
          t := Connect(s, l).0;
        case DisconnectHandle(h) =>
          DisconnectKeeps(s, o, h);
          o1 := o;
          t := Disconnect(s, h).0;
        case EmitAgain(x, strat) =>
          o1 := EmitKeeps(p, s, o, x, strat, fuel);
          t := Emit(p, s, x, strat, fuel).signal;
          stopped := Emit(p, s, x, strat, fuel).status != Finished;
      }
      if stopped {
        o' := o1;
      } else {
        o' := PerformKeeps(p, t, o1, effects[1..], fuel);
        RetainsTrans(s, t, Perform(p, s, effects, fuel).signal, o, o1);
      }
    }
  }
}

=== FILE: reentrancy.dfy ===
/** Emissions whose slots change their own signal while it runs: a slot
    that connects another, one that disconnects a later connection, and
    one that disconnects and then raises.  They show what the walk sees of
    such changes and when the sweep happens. */
module Reentrancy {
  import opened Ring
  import opened Strategy
  import opened Registry
  import opened Emission
  import opened Traversal
  import opened Scenarios

  /** A slot whose only change is a connect of `l'` hands back the signal
      with `l'` connected. */
  lemma SlotConnects(p: Program, s: Signal, l: Label, arg: int, fuel: nat, l': Label)
    requires p(l, arg).effects == [ConnectSlot(l')]
    ensures SlotCall(p, s, l, arg, fuel) == Outcome(Connect(s, l').0, [], Finished)
  {
    var s1 := s.(depth := s.depth + 1);
    assert p(l, arg).effects[1..] == [];
    assert Perform(p, s1, p(l, arg).effects, fuel) == Outcome(Connect(s1, l').0, [], Finished);
    assert Connect(s1, l').0.(depth := s.depth) == Connect(s, l').0;
  }

  /** A slot whose only change is a disconnect of `h` hands back the signal
      as that disconnect, made one level deeper, leaves it. */
  lemma SlotDisconnects(p: Program, s: Signal, l: Label, arg: int, fuel: nat, h: Handle)
    requires p(l, arg).effects == [DisconnectHandle(h)]
    ensures SlotCall(p, s, l, arg, fuel)
      == Outcome(Disconnect(s.(depth := s.depth + 1), h).0.(depth := s.depth), [], Finished)
  {
    var s1 := s.(depth := s.depth + 1);
    assert p(l, arg).effects[1..] == [];
    assert Perform(p, s1, p(l, arg).effects, fuel) == Outcome(Disconnect(s1, h).0, [], Finished);
  }

  /** A call step whose slot ended with a value the controller accepts:
      the call, the calls the slot made, then the rest of the walk from
      the successor the node has once the slot is done. */
  lemma GoesOnAfter(p: Program, s: Signal, cur: NodeId, l: Label, arg: int, strat: Strategy, st: AggState, fuel: nat, q: Outcome, v: int)
    requires SlotCall(p, s, l, arg, fuel) == q && q.status == Finished
    requires p(l, arg).ending == Return(v) && Invoke(strat, st, v).0
    ensures var w := Walk(p, q.signal, Get(q.signal.nodes, cur).next, arg, strat, Invoke(strat, st, v).1, fuel);
      CallStep(p, s, cur, l, arg, strat, st, fuel) == Run(w.signal, [Call(cur, l, arg, s.depth + 1)] + q.trace + w.trace, w.status, w.result)
  {
  }

  /** A new signal given the slots 0 and then 1. */
  lemma Pair(id: nat) returns (s: Signal)
    ensures s == ConnectAll(NewSignal(id), [0, 1])
    ensures Valid(s, [1, 2]) && s.id == id && s.depth == 0 && !s.deactivations
    ensures s.nodes[Head].next == 1
    ensures 1 in s.nodes && s.nodes[1].slot == Some(0) && s.nodes[1].next == 2
    ensures 2 in s.nodes && s.nodes[2].slot == Some(1) && s.nodes[2].next == Head
    ensures Connected(s, Handle(id, 2))
  {
    s := ConnectAll(NewSignal(id), [0, 1]);
    ConnectAllHolds(id, [0, 1]);
    assert Ids(1, 2) == [1, 2];
    NextAt(s, [1, 2], 0);
    NextAt(s, [1, 2], 1);
    ConnectedIff(s, [1, 2], Handle(id, 2));
  }

  // ---------------------------------------------------------------------
  // A slot connected during an emission is called in it

  /** Slot 0 connects slot 1; every slot returns its label. */
  function Grow(): Program
  {
    (l: Label, x: int) => if l == 0 then Script([ConnectSlot(1)], Return(0)) else Script([], Return(l))
  }

  /** The signal with slot 0 only, and what it becomes once slot 0 has run. */
  lemma Single(id: nat) returns (s: Signal, t: Signal)
    ensures s == ConnectAll(NewSignal(id), [0]) && t == Connect(s, 1).0
    ensures Valid(s, [1]) && s.depth == 0 && !s.deactivations
    ensures Head in s.nodes && s.nodes[Head].next == 1 && 1 in s.nodes && s.nodes[1].slot == Some(0)
    ensures Valid(t, [1, 2]) && t.depth == 0 && !t.deactivations
    ensures t.nodes[1].next == 2 && 2 in t.nodes && t.nodes[2].slot == Some(1) && t.nodes[2].next == Head
  {
    s := ConnectAll(NewSignal(id), [0]);
    ConnectAllHolds(id, [0]);
    assert Ids(1, 1) == [1];
    t := Connect(s, 1).0;
    ConnectValid(s, [1], 1);
    assert [1] + [s.nextId] == [1, 2];
    NextAt(t, [1, 2], 0);
    NextAt(t, [1, 2], 1);
  }

  /** The emission over slot 0, which connects slot 1 while it runs: the
      new connection lies ahead of the cursor and is called in the same
      emission, after slot 0; the collation holds both results. */
  lemma ConnectDuringEmission(id: nat, fuel: nat)
    requires fuel >= 2
    ensures var s := ConnectAll(NewSignal(id), [0]);
      var e := Emit(Grow(), s, 0, ValueStrategy(Collation, All), fuel);
      && e.status == Finished
      && e.trace == [Call(1, 0, 0, 1), Call(2, 1, 0, 1)]
      && e.result == Collated([0, 1])
      && e.signal == Connect(s, 1).0
  {
    var s, t := GrowWalk(id, fuel);
  }

  /** The walk of that emission, step by step. */
  lemma GrowWalk(id: nat, fuel: nat) returns (s: Signal, t: Signal)
    requires fuel >= 2
    ensures s == ConnectAll(NewSignal(id), [0]) && t == Connect(s, 1).0
    ensures Head in s.nodes && s.nodes[Head].next == 1 && t.depth == 0 && !t.deactivations
    ensures Walk(Grow(), s, 1, 0, ValueStrategy(Collation, All), Collated([]), fuel)
      == Run(t, [Call(1, 0, 0, 1), Call(2, 1, 0, 1)], Finished, Collated([0, 1]))
  {
    s, t := Single(id);
    assert Grow()(1, 0) == Script([], Return(1));
    assert Grow()(0, 0) == Script([ConnectSlot(1)], Return(0));
    GrowSteps(Grow(), s, t, fuel);
  }

  /** The steps of a walk from node 1 whose slot 0 connects slot 1, which
      the connect places at node 2, last in the ring. */
  lemma GrowSteps(p: Program, s: Signal, t: Signal, fuel: nat)
    requires fuel >= 2 && s.depth == 0
    requires 1 in s.nodes && s.nodes[1].slot == Some(0) && t == Connect(s, 1).0
    requires p(0, 0) == Script([ConnectSlot(1)], Return(0)) && p(1, 0) == Script([], Return(1))
    requires 1 in t.nodes && t.nodes[1].next == 2 && 2 in t.nodes && t.nodes[2].slot == Some(1) && t.nodes[2].next == Head
    ensures Walk(p, s, 1, 0, ValueStrategy(Collation, All), Collated([]), fuel)
      == Run(t, [Call(1, 0, 0, 1), Call(2, 1, 0, 1)], Finished, Collated([0, 1]))
  {
    var strat := ValueStrategy(Collation, All);
    assert Invoke(strat, Collated([]), 0) == (true, Collated([0])) by { assert [] + [0] == [0]; }
    assert Invoke(strat, Collated([0]), 1) == (true, Collated([0, 1])) by { assert [0] + [1] == [0, 1]; }
    PureSlot(p, t, 1, 0, fuel - 2);
    GoesOnAfter(p, t, 2, 1, 0, strat, Collated([0]), fuel - 2, Outcome(t, [], Finished), 1);
    assert Walk(p, t, Get(t.nodes, 2).next, 0, strat, Collated([0, 1]), fuel - 2) == Run(t, [], Finished, Collated([0, 1]));
    WalkStep(p, t, 2, 0, strat, Collated([0]), fuel - 1);
    assert [Call(2, 1, 0, 1)] + [] + [] == [Call(2, 1, 0, 1)];
    assert Walk(p, t, 2, 0, strat, Collated([0]), fuel - 1) == Run(t, [Call(2, 1, 0, 1)], Finished, Collated([0, 1]));
    SlotConnects(p, s, 0, 0, fuel - 1, 1);
    GoesOnAfter(p, s, 1, 0, 0, strat, Collated([]), fuel - 1, Outcome(t, [], Finished), 0);
    assert [Call(1, 0, 0, 1)] + [] + [Call(2, 1, 0, 1)] == [Call(1, 0, 0, 1), Call(2, 1, 0, 1)];
    WalkStep(p, s, 1, 0, strat, Collated([]), fuel);
  }

  // ---------------------------------------------------------------------
  // A connection disconnected ahead of the cursor is skipped, then swept

  /** The pair of slots after slot 0 disconnected connection 2 during an
      emission: connection 2 is still linked and still connected, but its
      slot is gone and the flag is set. */
  lemma Deactivated(id: nat) returns (s: Signal, d: Signal)
    ensures s == ConnectAll(NewSignal(id), [0, 1])
    ensures Valid(s, [1, 2]) && s.depth == 0 && !s.deactivations
    ensures s.nodes[Head].next == 1 && 1 in s.nodes && s.nodes[1].slot == Some(0)
    ensures d == Disconnect(s.(depth := 1), Handle(id, 2)).0.(depth := 0)
    ensures Valid(d, [1, 2]) && d.id == id && d.depth == 0 && d.deactivations
    ensures 1 in d.nodes && d.nodes[1].slot == Some(0) && Get(d.nodes, 1).next == 2
    ensures 2 in d.nodes && d.nodes[2].slot == None && d.nodes[2].next == Head
    ensures Connected(d, Handle(id, 2))
  {
    s := Pair(id);
    var s1 := s.(depth := 1);
    ValidNodes(s, s1, [1, 2]);
    DisconnectDuringEmission(s1, [1, 2], Handle(id, 2));
    var r := Disconnect(s1, Handle(id, 2)).0;
    d := r.(depth := 0);
    ValidNodes(r, d, [1, 2]);
    NextAt(d, [1, 2], 0);
    NextAt(d, [1, 2], 1);
  }

  /** The sweep of that signal removes connection 2 and keeps 1. */
  lemma SweptPair(d: Signal, id: nat)
    requires Valid(d, [1, 2]) && d.id == id
    requires 1 in d.nodes && d.nodes[1].slot.Some? && 2 in d.nodes && d.nodes[2].slot == None
    ensures Valid(Sweep(d), [1])
    ensures Connected(Sweep(d), Handle(id, 1)) && !Connected(Sweep(d), Handle(id, 2))
  {
    SweepKeepsActive(d, [1, 2]);
    assert [1, 2][1..] == [2] && [2][1..] == [];
    assert Active(d.nodes, [2]) == [];
    assert Active(d.nodes, [1, 2]) == [1] + [] == [1];
    ConnectedIff(Sweep(d), [1], Handle(id, 1));
    ConnectedIff(Sweep(d), [1], Handle(id, 2));
  }

  /** Slot 0 disconnects connection 2; every slot returns its label. */
  function Cut(id: nat): Program
  {
    (l: Label, x: int) => if l == 0 then Script([DisconnectHandle(Handle(id, 2))], Return(0)) else Script([], Return(l))
  }

  /** The emission over slots 0 and 1 in which slot 0 disconnects the
      connection of slot 1: slot 1 is not called, and the outermost
      emission sweeps its node away once the walk is done. */
  lemma DisconnectAhead(id: nat, fuel: nat)
    requires fuel >= 2
    ensures var s := ConnectAll(NewSignal(id), [0, 1]);
      var e := Emit(Cut(id), s, 0, ValueStrategy(Collation, All), fuel);
      && e.status == Finished
      && e.trace == [Call(1, 0, 0, 1)]
      && e.result == Collated([0])
      && !e.signal.deactivations && Valid(e.signal, [1])
      && Connected(e.signal, Handle(id, 1)) && !Connected(e.signal, Handle(id, 2))
  {
    var s, d := CutWalk(id, fuel);
    SweptPair(d, id);
  }

  /** The walk of that emission: one call, and the signal left with
      connection 2 deactivated. */
  lemma CutWalk(id: nat, fuel: nat) returns (s: Signal, d: Signal)
    requires fuel >= 2
    ensures s == ConnectAll(NewSignal(id), [0, 1]) && Head in s.nodes && s.nodes[Head].next == 1
    ensures Valid(d, [1, 2]) && d.id == id && d.depth == 0 && d.deactivations
    ensures 1 in d.nodes && d.nodes[1].slot.Some? && 2 in d.nodes && d.nodes[2].slot == None
    ensures Walk(Cut(id), s, 1, 0, ValueStrategy(Collation, All), Collated([]), fuel) == Run(d, [Call(1, 0, 0, 1)], Finished, Collated([0]))
  {
    s, d := Deactivated(id);
    assert Cut(id)(0, 0) == Script([DisconnectHandle(Handle(id, 2))], Return(0));
    CutSteps(Cut(id), s, d, Handle(id, 2), fuel);
  }

  /** The steps of a walk from node 1 whose slot 0 disconnects `h`, leaving
      node 2 without a slot and last in the ring. */
  lemma CutSteps(p: Program, s: Signal, d: Signal, h: Handle, fuel: nat)
    requires fuel >= 2 && s.depth == 0
    requires 1 in s.nodes && s.nodes[1].slot == Some(0)
    requires p(0, 0) == Script([DisconnectHandle(h)], Return(0))
    requires d == Disconnect(s.(depth := 1), h).0.(depth := 0)
    requires Get(d.nodes, 1).next == 2 && 2 in d.nodes && d.nodes[2].slot == None && d.nodes[2].next == Head
    ensures Walk(p, s, 1, 0, ValueStrategy(Collation, All), Collated([]), fuel) == Run(d, [Call(1, 0, 0, 1)], Finished, Collated([0]))
  {
    var strat := ValueStrategy(Collation, All);
    assert Invoke(strat, Collated([]), 0) == (true, Collated([0])) by { assert [] + [0] == [0]; }
    SlotDisconnects(p, s, 0, 0, fuel - 1, h);
    WalkSkip(p, d, 2, 0, strat, Collated([0]), fuel - 1);
    assert Walk(p, d, 2, 0, strat, Collated([0]), fuel - 1) == Run(d, [], Finished, Collated([0]));
    GoesOnAfter(p, s, 1, 0, 0, strat, Collated([]), fuel - 1, Outcome(d, [], Finished), 0);
    assert [Call(1, 0, 0, 1)] + [] + [] == [Call(1, 0, 0, 1)];
    WalkStep(p, s, 1, 0, strat, Collated([]), fuel);
  }

  // ---------------------------------------------------------------------
  // An error leaves the sweep to the next outermost emission

  /** With argument 1, slot 0 disconnects connection 2 and then raises;
      otherwise every slot returns its label. */
  function Flaky(id: nat): Program
  {
    (l: Label, x: int) => if l == 0 && x == 1 then Script([DisconnectHandle(Handle(id, 2))], Raise) else Script([], Return(l))
  }

  /** The first emission raises after slot 0 deactivated connection 2: the
      error propagates, the depth is back at zero, and the deactivated node
      is still in the ring and still connected. */
  lemma RaiseLeavesPending(id: nat, fuel: nat)
    requires fuel >= 1
    ensures var s := ConnectAll(NewSignal(id), [0, 1]);
      var e := Emit(Flaky(id), s, 1, ValueStrategy(Collation, All), fuel);
      && e.status == Raised && e.trace == [Call(1, 0, 1, 1)]
      && e.signal.depth == 0 && e.signal.deactivations
      && Connected(e.signal, Handle(id, 2)) && e.signal.nodes[2].slot == None
      && e.signal == Disconnect(s.(depth := 1), Handle(id, 2)).0.(depth := 0)
  {
    var s, d := FlakyWalk(id, fuel);
  }

  /** The walk of that emission: the call, then the error. */
  lemma FlakyWalk(id: nat, fuel: nat) returns (s: Signal, d: Signal)
    requires fuel >= 1
    ensures s == ConnectAll(NewSignal(id), [0, 1]) && Head in s.nodes && s.nodes[Head].next == 1
    ensures d == Disconnect(s.(depth := 1), Handle(id, 2)).0.(depth := 0)
    ensures d.depth == 0 && d.deactivations && Connected(d, Handle(id, 2)) && 2 in d.nodes && d.nodes[2].slot == None
    ensures Walk(Flaky(id), s, 1, 1, ValueStrategy(Collation, All), Collated([]), fuel) == Run(d, [Call(1, 0, 1, 1)], Raised, Collated([]))
  {
    s, d := Deactivated(id);
    assert Flaky(id)(0, 1) == Script([DisconnectHandle(Handle(id, 2))], Raise);
    RaiseSteps(Flaky(id), s, d, Handle(id, 2), fuel);
  }

  /** The step of a walk from node 1 whose slot 0, given argument 1,
      disconnects `h` and raises. */
  lemma RaiseSteps(p: Program, s: Signal, d: Signal, h: Handle, fuel: nat)
    requires fuel >= 1 && s.depth == 0
    requires 1 in s.nodes && s.nodes[1].slot == Some(0)
    requires p(0, 1) == Script([DisconnectHandle(h)], Raise)
    requires d == Disconnect(s.(depth := 1), h).0.(depth := 0)
    ensures Walk(p, s, 1, 1, ValueStrategy(Collation, All), Collated([]), fuel) == Run(d, [Call(1, 0, 1, 1)], Raised, Collated([]))
  {
    var strat := ValueStrategy(Collation, All);
    SlotDisconnects(p, s, 0, 1, fuel - 1, h);
    assert [Call(1, 0, 1, 1)] + [] == [Call(1, 0, 1, 1)];
    assert CallStep(p, s, 1, 0, 1, strat, Collated([]), fuel - 1) == Run(d, [Call(1, 0, 1, 1)], Raised, Collated([]));
    WalkStep(p, s, 1, 1, strat, Collated([]), fuel);
  }

  /** The next emission, which raises nothing, skips the deactivated
      connection and, being outermost and finished, sweeps it away. */
  lemma NextEmissionSweeps(id: nat, fuel: nat)
    requires fuel >= 2
    ensures var s := ConnectAll(NewSignal(id), [0, 1]);
      var d := Disconnect(s.(depth := 1), Handle(id, 2)).0.(depth := 0);
      var e := Emit(Flaky(id), d, 0, ValueStrategy(Collation, All), fuel);
      && e.status == Finished && e.trace == [Call(1, 0, 0, 1)] && e.result == Collated([0])
      && !e.signal.deactivations
      && Connected(e.signal, Handle(id, 1)) && !Connected(e.signal, Handle(id, 2))
  {
    var s, d := Deactivated(id);
    assert Pure(Flaky(id), 0) by {
      forall l: Label ensures Flaky(id)(l, 0).effects == [] { }
    }
    assert Flaky(id)(0, 0) == Script([], Return(0));
    QuietEmit(Flaky(id), d, id, fuel);
  }

  /** An emission with no changes over the pair whose connection 2 was
      deactivated: slot 0 is called alone, then the sweep removes node 2. */
  lemma QuietEmit(p: Program, d: Signal, id: nat, fuel: nat)
    requires fuel >= 2 && Pure(p, 0) && p(0, 0) == Script([], Return(0))
    requires Valid(d, [1, 2]) && d.id == id && d.depth == 0 && d.deactivations
    requires 1 in d.nodes && d.nodes[1].slot == Some(0) && 2 in d.nodes && d.nodes[2].slot == None
    ensures var e := Emit(p, d, 0, ValueStrategy(Collation, All), fuel);
      && e.status == Finished && e.trace == [Call(1, 0, 0, 1)] && e.result == Collated([0])
      && !e.signal.deactivations
      && Connected(e.signal, Handle(id, 1)) && !Connected(e.signal, Handle(id, 2))
  {
    var strat := ValueStrategy(Collation, All);
    PureEmit(p, d, [1, 2], 0, strat, fuel);
    QuietPass(d);
    QuietSerial(p);
    assert [Call(1, 0, 0, 1)][..1] == [Call(1, 0, 0, 1)];
    SweptPair(d, id);
  }

  /** The plain loop over the deactivated pair calls slot 0 only. */
  lemma QuietPass(d: Signal)
    requires 1 in d.nodes && d.nodes[1].slot == Some(0) && 2 in d.nodes && d.nodes[2].slot == None
    ensures Calls(d.nodes, [1, 2], 0, 0, 0) == [Call(1, 0, 0, 1)]
  {
    assert Calls(d.nodes, [1, 2], 2, 0, 0) == [];
    assert Calls(d.nodes, [1, 2], 1, 0, 0) == [];
  }

  /** Slot 0 with argument 0 returns 0, and the loop ends after it. */
  lemma QuietSerial(p: Program)
    requires p(0, 0).ending == Return(0)
    ensures Serial(p, [Call(1, 0, 0, 1)], ValueStrategy(Collation, All), Collated([])) == (1, Finished, Collated([0]))
  {
    assert [Call(1, 0, 0, 1)][1..] == [];
    assert [] + [0] == [0];
  }

  // ---------------------------------------------------------------------
  // A recursive emission defers the sweep to the outermost one

  /** With argument 0, slot 0 emits the signal again with argument 1; in
      that nested emission slot 1 disconnects connection 3.  Every slot
      returns its label. */
  function Nest(id: nat): Program
  {
    (l: Label, x: int) =>
      if l == 0 && x == 0 then Script([EmitAgain(1, ValueStrategy(Collation, All))], Return(0))
      else if l == 1 && x == 1 then Script([DisconnectHandle(Handle(id, 3))], Return(1))
      else Script([], Return(l))
  }

  /** A new signal given the slots 0, 1 and then 2. */
  lemma Triple(id: nat) returns (s: Signal)
    ensures s == ConnectAll(NewSignal(id), [0, 1, 2])
    ensures Valid(s, [1, 2, 3]) && s.id == id && s.depth == 0 && !s.deactivations
    ensures Head in s.nodes && s.nodes[Head].next == 1
    ensures 1 in s.nodes && s.nodes[1].slot == Some(0) && s.nodes[1].next == 2
    ensures 2 in s.nodes && s.nodes[2].slot == Some(1)
    ensures Connected(s, Handle(id, 3))
  {
    s := ConnectAll(NewSignal(id), [0, 1, 2]);
    ConnectAllHolds(id, [0, 1, 2]);
    assert Ids(1, 3) == [1, 2, 3];
    NextAt(s, [1, 2, 3], 0);
    NextAt(s, [1, 2, 3], 1);
    ConnectedIff(s, [1, 2, 3], Handle(id, 3));
  }

  /** The triple after slot 1, called inside a nested emission (depth 2),
      disconnected connection 3: once back at depth 1 (`d1`) and at depth
      0 (`d`), node 3 is still linked and connected but has no slot. */
  lemma Deferred(id: nat) returns (s: Signal, d1: Signal, d: Signal)
    ensures s == ConnectAll(NewSignal(id), [0, 1, 2])
    ensures Valid(s, [1, 2, 3]) && s.depth == 0 && Head in s.nodes && s.nodes[Head].next == 1
    ensures 1 in s.nodes && s.nodes[1].slot == Some(0) && Get(s.nodes, 1).next == 2
    ensures 2 in s.nodes && s.nodes[2].slot == Some(1)
    ensures d1 == Disconnect(s.(depth := 2), Handle(id, 3)).0.(depth := 1) && d == d1.(depth := 0)
    ensures Valid(d, [1, 2, 3]) && d.id == id && d.deactivations
    ensures 1 in d.nodes && d.nodes[1].slot == Some(0) && Get(d.nodes, 1).next == 2
    ensures 2 in d.nodes && d.nodes[2].slot == Some(1) && Get(d.nodes, 2).next == 3
    ensures 3 in d.nodes && d.nodes[3].slot == None && d.nodes[3].next == Head
    ensures Connected(d, Handle(id, 3))
  {
    s := Triple(id);
    var s2 := s.(depth := 2);
    ValidNodes(s, s2, [1, 2, 3]);
    DisconnectDuringEmission(s2, [1, 2, 3], Handle(id, 3));
    var r := Disconnect(s2, Handle(id, 3)).0;
    d1 := r.(depth := 1);
    d := d1.(depth := 0);
    ValidNodes(r, d, [1, 2, 3]);
    NextAt(d, [1, 2, 3], 0);
    NextAt(d, [1, 2, 3], 1);
    NextAt(d, [1, 2, 3], 2);
  }

  /** A slot whose only change is a nested emission hands back what that
      emission, made one level deeper, leaves. */
  lemma SlotEmits(p: Program, s: Signal, l: Label, arg: int, fuel: nat, x: int, strat: Strategy)
    requires p(l, arg).effects == [EmitAgain(x, strat)]
    ensures var e := Emit(p, s.(depth := s.depth + 1), x, strat, fuel);
      SlotCall(p, s, l, arg, fuel) == Outcome(e.signal.(depth := s.depth), e.trace, e.status)
  {
    var s1 := s.(depth := s.depth + 1);
    var e := Emit(p, s1, x, strat, fuel);
    assert p(l, arg).effects[1..] == [];
    assert e.trace + [] == e.trace;
    assert Perform(p, s1, p(l, arg).effects, fuel) == Outcome(e.signal, e.trace, e.status);
  }

  /** The steps of the nested walk, at depth 1 and with argument 1: slot 0
      returns, slot 1 disconnects `h` (node 3), and node 3 is stepped over. */
  lemma InnerSteps(p: Program, s1: Signal, d1: Signal, h: Handle, fuel: nat)
    requires fuel >= 3 && s1.depth == 1
    requires 1 in s1.nodes && s1.nodes[1].slot == Some(0) && Get(s1.nodes, 1).next == 2
    requires 2 in s1.nodes && s1.nodes[2].slot == Some(1)
    requires p(0, 1) == Script([], Return(0)) && p(1, 1) == Script([DisconnectHandle(h)], Return(1))
    requires d1 == Disconnect(s1.(depth := 2), h).0.(depth := 1)
    requires Get(d1.nodes, 2).next == 3 && 3 in d1.nodes && d1.nodes[3].slot == None && d1.nodes[3].next == Head
    ensures Walk(p, s1, 1, 1, ValueStrategy(Collation, All), Collated([]), fuel)
      == Run(d1, [Call(1, 0, 1, 2), Call(2, 1, 1, 2)], Finished, Collated([0, 1]))
  {
    var strat := ValueStrategy(Collation, All);
    assert Invoke(strat, Collated([]), 0) == (true, Collated([0])) by { assert [] + [0] == [0]; }
    assert Invoke(strat, Collated([0]), 1) == (true, Collated([0, 1])) by { assert [0] + [1] == [0, 1]; }
    SlotDisconnects(p, s1, 1, 1, fuel - 2, h);
    WalkSkip(p, d1, 3, 1, strat, Collated([0, 1]), fuel - 2);
    assert Walk(p, d1, 3, 1, strat, Collated([0, 1]), fuel - 2) == Run(d1, [], Finished, Collated([0, 1]));
    GoesOnAfter(p, s1, 2, 1, 1, strat, Collated([0]), fuel - 2, Outcome(d1, [], Finished), 1);
    assert [Call(2, 1, 1, 2)] + [] + [] == [Call(2, 1, 1, 2)];
    WalkStep(p, s1, 2, 1, strat, Collated([0]), fuel - 1);
    PureSlot(p, s1, 0, 1, fuel - 1);
    GoesOnAfter(p, s1, 1, 0, 1, strat, Collated([]), fuel - 1, Outcome(s1, [], Finished), 0);
    assert [Call(1, 0, 1, 2)] + [] + [Call(2, 1, 1, 2)] == [Call(1, 0, 1, 2), Call(2, 1, 1, 2)];
    WalkStep(p, s1, 1, 1, strat, Collated([]), fuel);
  }

  /** The steps of the outer walk, at depth 0 and with argument 0: slot 0
      runs the nested emission, which leaves `d` and made the calls `tr`;
      then slot 1 is called and node 3 stepped over. */
  lemma OuterSteps(p: Program, s: Signal, d: Signal, tr: seq<Call>, fuel: nat)
    requires fuel >= 3 && s.depth == 0 && d.depth == 0
    requires 1 in s.nodes && s.nodes[1].slot == Some(0)
    requires p(0, 0).ending == Return(0) && p(1, 0) == Script([], Return(1))
    requires SlotCall(p, s, 0, 0, fuel - 1) == Outcome(d, tr, Finished)
    requires Get(d.nodes, 1).next == 2 && 2 in d.nodes && d.nodes[2].slot == Some(1) && Get(d.nodes, 2).next == 3
    requires 3 in d.nodes && d.nodes[3].slot == None && d.nodes[3].next == Head
    ensures Walk(p, s, 1, 0, ValueStrategy(Collation, All), Collated([]), fuel)
      == Run(d, [Call(1, 0, 0, 1)] + tr + [Call(2, 1, 0, 1)], Finished, Collated([0, 1]))
  {
    var strat := ValueStrategy(Collation, All);
    assert Invoke(strat, Collated([]), 0) == (true, Collated([0])) by { assert [] + [0] == [0]; }
    assert Invoke(strat, Collated([0]), 1) == (true, Collated([0, 1])) by { assert [0] + [1] == [0, 1]; }
    WalkSkip(p, d, 3, 0, strat, Collated([0, 1]), fuel - 2);
    assert Walk(p, d, 3, 0, strat, Collated([0, 1]), fuel - 2) == Run(d, [], Finished, Collated([0, 1]));
    PureSlot(p, d, 1, 0, fuel - 2);
    GoesOnAfter(p, d, 2, 1, 0, strat, Collated([0]), fuel - 2, Outcome(d, [], Finished), 1);
    assert [Call(2, 1, 0, 1)] + [] + [] == [Call(2, 1, 0, 1)];
    WalkStep(p, d, 2, 0, strat, Collated([0]), fuel - 1);
    GoesOnAfter(p, s, 1, 0, 0, strat, Collated([]), fuel - 1, Outcome(d, tr, Finished), 0);
    WalkStep(p, s, 1, 0, strat, Collated([]), fuel);
  }

  /** The call of slot 0 in the outer emission: the nested emission calls
      slots 0 and 1 with argument 1 and, being nested, does not sweep, so
      connection 3 is still in the ring, deactivated, when slot 0 returns. */
  lemma NestedEmissionDefers(id: nat, fuel: nat)
    requires fuel >= 3
    ensures var s := ConnectAll(NewSignal(id), [0, 1, 2]);
      var q := SlotCall(Nest(id), s, 0, 0, fuel);
      && q.status == Finished
      && q.trace == [Call(1, 0, 1, 2), Call(2, 1, 1, 2)]
      && q.signal.depth == 0 && q.signal.deactivations
      && Connected(q.signal, Handle(id, 3)) && q.signal.nodes[3].slot == None
      && q.signal == Disconnect(s.(depth := 2), Handle(id, 3)).0.(depth := 0)
  {
    var s, d1, d := Deferred(id);
    NestedCall(Nest(id), s, d1, Handle(id, 3), fuel);
  }

  /** The call of a slot 0 whose only change is the nested emission with
      argument 1, given the nested walk's steps. */
  lemma NestedCall(p: Program, s: Signal, d1: Signal, h: Handle, fuel: nat)
    requires fuel >= 3 && s.depth == 0 && Head in s.nodes && s.nodes[Head].next == 1
    requires 1 in s.nodes && s.nodes[1].slot == Some(0) && Get(s.nodes, 1).next == 2
    requires 2 in s.nodes && s.nodes[2].slot == Some(1)
    requires p(0, 0).effects == [EmitAgain(1, ValueStrategy(Collation, All))]
    requires p(0, 1) == Script([], Return(0)) && p(1, 1) == Script([DisconnectHandle(h)], Return(1))
    requires d1 == Disconnect(s.(depth := 2), h).0.(depth := 1)
    requires Get(d1.nodes, 2).next == 3 && 3 in d1.nodes && d1.nodes[3].slot == None && d1.nodes[3].next == Head
    ensures SlotCall(p, s, 0, 0, fuel) == Outcome(d1.(depth := 0), [Call(1, 0, 1, 2), Call(2, 1, 1, 2)], Finished)
  {
    var strat := ValueStrategy(Collation, All);
    var s1 := s.(depth := 1);
    assert s1.(depth := 2) == s.(depth := 2);
    InnerSteps(p, s1, d1, h, fuel);
    assert Init(strat) == Collated([]);
    assert Emit(p, s1, 1, strat, fuel) == Run(d1, [Call(1, 0, 1, 2), Call(2, 1, 1, 2)], Finished, Collated([0, 1]));
    SlotEmits(p, s, 0, 0, fuel, 1, strat);
  }

  /** The sweep of that triple removes connection 3 and keeps 1 and 2. */
  lemma SweptTriple(d: Signal, id: nat)
    requires Valid(d, [1, 2, 3]) && d.id == id
    requires 1 in d.nodes && d.nodes[1].slot.Some? && 2 in d.nodes && d.nodes[2].slot.Some?
    requires 3 in d.nodes && d.nodes[3].slot == None
    ensures Valid(Sweep(d), [1, 2])
    ensures Connected(Sweep(d), Handle(id, 1)) && Connected(Sweep(d), Handle(id, 2))
    ensures !Connected(Sweep(d), Handle(id, 3))
  {
    SweepKeepsActive(d, [1, 2, 3]);
    assert [1, 2, 3][1..] == [2, 3] && [2, 3][1..] == [3] && [3][1..] == [];
    assert Active(d.nodes, [3]) == [];
    assert Active(d.nodes, [2, 3]) == [2] + [] == [2];
    assert Active(d.nodes, [1, 2, 3]) == [1] + [2] == [1, 2];
    ConnectedIff(Sweep(d), [1, 2], Handle(id, 1));
    ConnectedIff(Sweep(d), [1, 2], Handle(id, 2));
    ConnectedIff(Sweep(d), [1, 2], Handle(id, 3));
  }

  /** The whole recursive emission over slots 0, 1 and 2: the outer call of
      slot 0, then the nested calls of slots 0 and 1, then the outer call
      of slot 1; connection 3, disconnected in the nested emission, is
      called by neither, and the outermost emission sweeps it away.  The
      outer collation holds the outer calls' results only. */
  lemma RecursiveEmission(id: nat, fuel: nat)
    requires fuel >= 4
    ensures var s := ConnectAll(NewSignal(id), [0, 1, 2]);
      var e := Emit(Nest(id), s, 0, ValueStrategy(Collation, All), fuel);
      && e.status == Finished
      && e.trace == [Call(1, 0, 0, 1), Call(1, 0, 1, 2), Call(2, 1, 1, 2), Call(2, 1, 0, 1)]
      && e.result == Collated([0, 1])
      && !e.signal.deactivations && Valid(e.signal, [1, 2])
      && Connected(e.signal, Handle(id, 1)) && Connected(e.signal, Handle(id, 2))
      && !Connected(e.signal, Handle(id, 3))
  {
    var s, d := RecursiveWalk(id, fuel);
    var strat := ValueStrategy(Collation, All);
    assert Init(strat) == Collated([]);
    WalkThenSweep(Nest(id), s, 0, strat, fuel, d, [Call(1, 0, 0, 1), Call(1, 0, 1, 2), Call(2, 1, 1, 2), Call(2, 1, 0, 1)], Collated([0, 1]));
    SweptTriple(d, id);
  }

  /** An outermost emission whose walk finished with a connection
      deactivated hands back the walk's calls and result, and the signal
      the walk left, swept.
      Only one unfolding step, stated apart to keep it out of the larger
      proofs' context; it says nothing beyond the definition. */
  lemma WalkThenSweep(p: Program, s: Signal, arg: int, strat: Strategy, fuel: nat, d: Signal, tr: seq<Call>, res: AggState)
    requires Head in s.nodes && d.depth == 0 && d.deactivations
    requires Walk(p, s, s.nodes[Head].next, arg, strat, Init(strat), fuel) == Run(d, tr, Finished, res)
    ensures Emit(p, s, arg, strat, fuel) == Run(Sweep(d), tr, Finished, res)
  {
  }

  /** The outer walk of that emission, up to the sweep. */
  lemma RecursiveWalk(id: nat, fuel: nat) returns (s: Signal, d: Signal)
    requires fuel >= 4
    ensures s == ConnectAll(NewSignal(id), [0, 1, 2]) && Head in s.nodes && s.nodes[Head].next == 1
    ensures Valid(d, [1, 2, 3]) && d.id == id && d.depth == 0 && d.deactivations
    ensures 1 in d.nodes && d.nodes[1].slot.Some? && 2 in d.nodes && d.nodes[2].slot.Some?
    ensures 3 in d.nodes && d.nodes[3].slot == None
    ensures Walk(Nest(id), s, 1, 0, ValueStrategy(Collation, All), Collated([]), fuel)
      == Run(d, [Call(1, 0, 0, 1), Call(1, 0, 1, 2), Call(2, 1, 1, 2), Call(2, 1, 0, 1)], Finished, Collated([0, 1]))
  {
    var d1;
    s, d1, d := Deferred(id);
    var p := Nest(id);
    assert p(0, 0) == Script([EmitAgain(1, ValueStrategy(Collation, All))], Return(0));
    assert p(0, 1) == Script([], Return(0));
    assert p(1, 1) == Script([DisconnectHandle(Handle(id, 3))], Return(1));
    assert p(1, 0) == Script([], Return(1));
    var tr := [Call(1, 0, 1, 2), Call(2, 1, 1, 2)];
    NestedCall(p, s, d1, Handle(id, 3), fuel - 1);
    OuterSteps(p, s, d, tr, fuel);
    AroundNested();
  }

  /** The outer calls around the nested ones.
      Only a sequence identity, stated apart to keep it out of the larger
      proofs' context. */
  lemma AroundNested()
    ensures [Call(1, 0, 0, 1)] + [Call(1, 0, 1, 2), Call(2, 1, 1, 2)] + [Call(2, 1, 0, 1)]
      == [Call(1, 0, 0, 1), Call(1, 0, 1, 2), Call(2, 1, 1, 2), Call(2, 1, 0, 1)]
  {
  }
}

=== FILE: registry.dfy ===
/** A signal's connection registry: the ring of connections, the
    recursion depth of running emissions and the flag recording that some
    connection was deactivated instead of removed.  Handles name a
    connection by the signal it belongs to and the identity of its node. */
module Registry {
  import opened Ring

  /** A connection handler: the signal and the node it refers to, or the
      empty handler a connect with a null receiver hands out. */
  datatype Handle = NoHandle | Handle(signal: nat, node: NodeId)

  /** A signal.  `nodes` is empty until the first connect creates the
      sentinel; `nextId` is the identity the next connection receives;
      `depth` counts the loop iterations of emissions in progress. */
  datatype Signal = Signal(id: nat, nodes: Arena, nextId: NodeId, depth: nat, deactivations: bool)

  /** `s` is a well-formed signal whose connections, first to last, are `o`:
      the sentinel is absent only while nothing was ever connected, every
      connection's identity was handed out already, and a connection
      without a slot exists only while the deactivations flag is set. */
  ghost predicate Valid(s: Signal, o: seq<nat>)
  {
    && (if Head in s.nodes then Shape(s.nodes, o) else s.nodes == map[] && o == [])
    && Stored(s.nodes, o)
    && (forall i :: 0 <= i < |o| ==> o[i] < s.nextId)
    && (forall i {:trigger s.nodes[o[i]]} :: 0 <= i < |o| ==> s.nodes[o[i]].slot.Some? || s.deactivations)
  }

  /** A signal with no connections (the constructor). */
  function NewSignal(id: nat): (s: Signal)
    ensures Valid(s, []) && s.id == id && s.depth == 0 && !s.deactivations
  {
    Signal(id, map[], 1, 0, false)
  }

  /** The sentinel a first connect creates: a node linked to itself. */
  function Sentinel(): (a: Arena)
    ensures Shape(a, [])
  {
    map[Head := Node(Head, Head, None)]
  }

  /** `connect(f)`: creates the sentinel when there is none, then inserts a
      node holding `slot` before it and returns its handler. */
  function Connect(s: Signal, slot: Label): (r: (Signal, Handle))
    ensures r.1.Handle? && r.1.signal == s.id
    ensures r.0.id == s.id && r.0.depth == s.depth && r.0.deactivations == s.deactivations
    ensures r.0.nextId == s.nextId + 1
  {
    var a := if Head in s.nodes then s.nodes else Sentinel();
    (s.(nodes := Insert(a, s.nextId, Some(slot)), nextId := s.nextId + 1), Handle(s.id, s.nextId))
  }

  /** `connect(obj, &C::mf)` through a pointer: a null receiver connects
      nothing and yields the empty handler. */
  function ConnectVia(s: Signal, receiver: Option<Label>): (r: (Signal, Handle))
    ensures receiver.None? ==> r == (s, NoHandle)
    ensures receiver.Some? ==> r == Connect(s, receiver.value)
  {
    match receiver
    case None => (s, NoHandle)
    case Some(l) => Connect(s, l)
  }

  /** `connected(handler)`: the handler belongs to this signal and its node
      is found by walking the ring, whether or not its slot is cleared. */
  function Connected(s: Signal, h: Handle): (b: bool)
    ensures b ==> h.Handle? && h.signal == s.id && h.node in s.nodes
  {
    h.Handle? && h.signal == s.id && Reachable(s.nodes, h.node)
  }

  /** `disconnect(handler)`: a handler of another signal, or one whose node
      the walk does not find, changes nothing and answers false.  Outside
      any emission the node is unlinked and discarded; during one it only
      loses its slot and the deactivations flag is set. */
  function Disconnect(s: Signal, h: Handle): (r: (Signal, bool))
    ensures r.1 == Connected(s, h)
    ensures !r.1 ==> r.0 == s
    ensures r.0.id == s.id && r.0.depth == s.depth && r.0.nextId == s.nextId
  {
    if !h.Handle? || h.signal != s.id then (s, false)
    else if !Reachable(s.nodes, h.node) then (s, false)
    else if s.depth == 0 then (s.(nodes := Extract(s.nodes, h.node)), true)
    else (s.(nodes := Deactivate(s.nodes, h.node), deactivations := true), true)
  }

  /** The sweep at the end of an outermost emission: walks the ring once,
      extracting every node whose slot is cleared, and resets the flag. */
  function Sweep(s: Signal): (r: Signal)
    ensures !r.deactivations
    ensures r.id == s.id && r.depth == s.depth && r.nextId == s.nextId
  {
    if Head in s.nodes then
      s.(nodes := SweepFrom(s.nodes, s.nodes[Head].next, s.nodes.Keys), deactivations := false)
    else s.(deactivations := false)
  }

  /** The destructor's loop: disconnects the first connection until the
      sentinel follows itself, listing the nodes in the order they go. */
  function DestroyFrom(s: Signal, pending: set<nat>): (r: (Signal, seq<NodeId>))
    requires s.depth == 0
    ensures r.0.depth == 0 && r.0.id == s.id
    decreases pending
  {
    if Head !in s.nodes then (s, [])
    else
      var first := s.nodes[Head].next;
      if first == Head || first !in pending then (s, [])
      else
        var rest := DestroyFrom(Disconnect(s, Handle(s.id, first)).0, pending - {first});
        (rest.0, [first as NodeId] + rest.1)
  }

  /** `~signal()` outside any emission. */
  function Destroy(s: Signal): (r: (Signal, seq<NodeId>))
    requires s.depth == 0
    ensures r.0.depth == 0 && r.0.id == s.id
  {
    DestroyFrom(s, s.nodes.Keys)
  }

  /** `connection::connected()`: asks the handler's own signal, which the
      caller passes as `s`. */
  function ConnectionConnected(s: Signal, h: Handle): (b: bool)
    requires h.Handle? && h.signal == s.id
    ensures b == Connected(s, h)
  {
    Reachable(s.nodes, h.node)
  }

  /** `connection::disconnect()`, on the handler's own signal. */
  function ConnectionDisconnect(s: Signal, h: Handle): (r: (Signal, bool))
    requires h.Handle? && h.signal == s.id
    ensures r == Disconnect(s, h)
  {
    if !Reachable(s.nodes, h.node) then (s, false)
    else if s.depth == 0 then (s.(nodes := Extract(s.nodes, h.node)), true)
    else (s.(nodes := Deactivate(s.nodes, h.node), deactivations := true), true)
  }

  /** `~scoped_connection()`: disconnects, ignoring the answer. */
  function EndScope(s: Signal, h: Handle): (r: Signal)
    requires h.Handle? && h.signal == s.id
    ensures !Connected(s, h) ==> r == s
  {
    ConnectionDisconnect(s, h).0
  }

  // ---------------------------------------------------------------------
  // Properties

  /** Connecting appends the new node to the order, and every other
      handler keeps its answer to `connected`. */
  lemma ConnectAppends(s: Signal, o: seq<nat>, slot: Label)
    requires Valid(s, o)
    ensures var (r, h) := Connect(s, slot);
      && h == Handle(s.id, s.nextId)
      && Valid(r, o + [s.nextId])
      && r.nodes[s.nextId].slot == Some(slot)
      && Connected(r, h)
      && (forall g :: g != h ==> Connected(r, g) == Connected(s, g))
  {
    ConnectValid(s, o, slot);
    var (r, h) := Connect(s, slot);
    var o': seq<nat> := o + [s.nextId];
    ConnectedIff(r, o', h);
    forall g | g != h ensures Connected(r, g) == Connected(s, g)
    {
      ConnectedIff(r, o', g);
      ConnectedIff(s, o, g);
      if g.Handle? && g.signal == s.id {
        assert g.node in o' <==> g.node in o;
      }
    }
  }

  /** The signal after a connect is well formed with the new node last. */
  lemma ConnectValid(s: Signal, o: seq<nat>, slot: Label)
    requires Valid(s, o)
    ensures s.nextId !in o
    ensures Valid(Connect(s, slot).0, o + [s.nextId])
    ensures Connect(s, slot).0.nodes[s.nextId].slot == Some(slot)
  {
    var r := Connect(s, slot).0;
    var a := if Head in s.nodes then s.nodes else Sentinel();
    assert Shape(a, o);
    ShapeMembers(a, o);
    assert s.nextId !in o by {
      forall k | 0 <= k < |o| ensures o[k] != s.nextId { }
    }
    InsertShape(a, o, s.nextId, Some(slot));
    ShapeMembers(r.nodes, o + [s.nextId]);
    ConnectSlots(s, o, slot);
  }

  /** A connect keeps the slots of the nodes already in the order and
      fills the new one, so every node of the new order holds a slot
      unless a deactivation is pending. */
  lemma ConnectSlots(s: Signal, o: seq<nat>, slot: Label)
    requires Valid(s, o) && s.nextId !in o
    ensures var r := Connect(s, slot).0; var o': seq<nat> := o + [s.nextId];
      && (forall i :: 0 <= i < |o'| ==> o'[i] < r.nextId)
      && (forall i {:trigger r.nodes[o'[i]]} :: 0 <= i < |o'| ==> r.nodes[o'[i]].slot.Some? || r.deactivations)
  {
    var r := Connect(s, slot).0;
    var a := if Head in s.nodes then s.nodes else Sentinel();
    var o': seq<nat> := o + [s.nextId];
    forall i | 0 <= i < |o'| ensures o'[i] < r.nextId && (r.nodes[o'[i]].slot.Some? || r.deactivations)
    {
      if i < |o| {
        assert o'[i] == o[i] && o[i] in s.nodes && o[i] != s.nextId;
        assert Head in s.nodes;
        assert r.nodes[o[i]].slot == a[o[i]].slot;
      }
    }
  }

  /** Connected answers for exactly the handlers of this signal whose node
      is in the order, deactivated or not. */
  lemma ConnectedIff(s: Signal, o: seq<nat>, h: Handle)
    requires Valid(s, o)
    ensures Connected(s, h) <==> h.Handle? && h.signal == s.id && h.node in o
  {
    if h.Handle? && h.signal == s.id {
      if Head in s.nodes {
        ReachableIff(s.nodes, o, h.node);
      } else {
        assert o == [];
      }
    }
  }

  /** A null receiver hands out the empty handler, which no signal knows. */
  lemma NullReceiver(s: Signal, t: Signal)
    ensures ConnectVia(s, None) == (s, NoHandle)
    ensures !Connected(t, NoHandle) && Disconnect(t, NoHandle) == (t, false)
  {
  }

  /** A handler of another signal is neither connected nor disconnected. */
  lemma ForeignHandle(s: Signal, h: Handle)
    requires h.Handle? && h.signal != s.id
    ensures !Connected(s, h) && Disconnect(s, h) == (s, false)
  {
  }

  /** Outside any emission, disconnecting a connected handler removes its
      node from the order (returned as position `i`); afterwards the handler
      is not connected and a second disconnect answers false. */
  lemma DisconnectIdle(s: Signal, o: seq<nat>, h: Handle) returns (i: nat)
    requires Valid(s, o) && s.depth == 0
    requires Connected(s, h)
    ensures i < |o| && o[i] == h.node
    ensures Disconnect(s, h).1
    ensures Valid(Disconnect(s, h).0, Without(o, i))
    ensures !Connected(Disconnect(s, h).0, h)
    ensures Disconnect(Disconnect(s, h).0, h) == (Disconnect(s, h).0, false)
  {
    ConnectedIff(s, o, h);
    i :| 0 <= i < |o| && o[i] == h.node;
    var r := Disconnect(s, h).0;
    assert r == s.(nodes := Extract(s.nodes, o[i]));
    ExtractValid(s, o, i);
    ConnectedIff(r, Without(o, i), h);
  }

  /** Extracting the node at position `i` of a well-formed signal removes
      it, and only it, from the order. */
  lemma ExtractValid(s: Signal, o: seq<nat>, i: nat)
    requires Valid(s, o) && i < |o|
    ensures Valid(s.(nodes := Extract(s.nodes, o[i])), Without(o, i))
    ensures o[i] !in Without(o, i)
  {
    var r := s.(nodes := Extract(s.nodes, o[i]));
    ExtractShape(s.nodes, o, i);
    DropMembers(s.nodes, o, i);
    var o': seq<nat> := Without(o, i);
    forall k | 0 <= k < |o'| ensures o'[k] < r.nextId && o'[k] != o[i]
      ensures r.nodes[o'[k]].slot.Some? || r.deactivations
    {
      var j := if k < i then k else k + 1;
      assert o'[k] == o[j] && j != i;
      assert o[j] in s.nodes && o[j] in r.nodes;
      assert r.nodes[o[j]].slot == s.nodes[o[j]].slot;
    }
  }

  /** During an emission, disconnecting a connected handler only clears its
      slot and sets the flag: the order, and so every answer of
      `connected`, stays as it was. */
  lemma DisconnectDuringEmission(s: Signal, o: seq<nat>, h: Handle)
    requires Valid(s, o) && s.depth > 0
    requires Connected(s, h)
    ensures var r := Disconnect(s, h).0;
      && Disconnect(s, h).1
      && Valid(r, o)
      && r.deactivations
      && r.nodes[h.node].slot == None
      && (forall x :: x in s.nodes && x != h.node ==> x in r.nodes && r.nodes[x] == s.nodes[x])
      && (forall g :: Connected(r, g) == Connected(s, g))
  {
    var r := Disconnect(s, h).0;
    ConnectedIff(s, o, h);
    assert h.node in s.nodes;
    DeactivateShape(s.nodes, o, h.node);
    forall g ensures Connected(r, g) == Connected(s, g)
    {
      ConnectedIff(s, o, g);
      ConnectedIff(r, o, g);
    }
  }

  /** The sweep keeps exactly the nodes with a slot, in their order, with
      their slots, and clears the flag. */
  lemma SweepKeepsActive(s: Signal, o: seq<nat>)
    requires Valid(s, o)
    ensures Stored(s.nodes, o)
    ensures Valid(Sweep(s), Active(s.nodes, o))
    ensures forall x :: x in Sweep(s).nodes ==> x in s.nodes && Sweep(s).nodes[x].slot == s.nodes[x].slot
  {
    var r := Sweep(s);
    if Head in s.nodes {
      SweepAll(s.nodes, o);
      var o': seq<nat> := Active(s.nodes, o);
      ActiveSpec(s.nodes, o);
      ShapeMembers(r.nodes, o');
      forall k | 0 <= k < |o'| ensures o'[k] < r.nextId
        ensures r.nodes[o'[k]].slot.Some?
      {
        assert o'[k] in o;
      }
    }
  }

  /** After `Destroy` no node but the sentinel is left, the nodes went in
      their registration order, and no handler is connected. */
  lemma DestroyEmpties(s: Signal, o: seq<nat>)
    requires Valid(s, o) && s.depth == 0
    ensures Destroy(s).1 == o
    ensures Destroy(s).0.nodes.Keys <= {Head}
    ensures forall h :: !Connected(Destroy(s).0, h)
  {
    if Head in s.nodes {
      forall k | 0 <= k < |o| ensures o[k] in s.nodes.Keys { ShapeMembers(s.nodes, o); }
      DestroyOrder(s, o, s.nodes.Keys);
    }
    var r := Destroy(s).0;
    forall h ensures !Connected(r, h) { }
  }

  lemma {:induction false} DestroyOrder(s: Signal, o: seq<nat>, pending: set<nat>)
    requires Valid(s, o) && s.depth == 0 && Head in s.nodes
    requires forall k :: 0 <= k < |o| ==> o[k] in pending
    ensures DestroyFrom(s, pending).1 == o
    ensures DestroyFrom(s, pending).0.nodes.Keys <= {Head}
    decreases |o|
  {
    if |o| == 0 {
      ShapeMembers(s.nodes, o);
      assert s.nodes[Head].next == Head;
    } else {
      var first := o[0];
      DestroyFirst(s, o);
      var r := Disconnect(s, Handle(s.id, first)).0;
      forall k | 0 <= k < |o| - 1 ensures o[1..][k] in pending - {first}
      {
        assert o[k + 1] != o[0];
      }
      DestroyOrder(r, o[1..], pending - {first});
      DestroyStep(s, pending);
      assert o == [first] + o[1..];
    }
  }

  /** Outside an emission, disconnecting the first connection leaves a
      well-formed signal holding the rest. */
  lemma DestroyFirst(s: Signal, o: seq<nat>)
    requires Valid(s, o) && s.depth == 0 && Head in s.nodes && |o| > 0
    ensures o[0] != Head && s.nodes[Head].next == o[0]
    ensures var r := Disconnect(s, Handle(s.id, o[0])).0;
      Valid(r, o[1..]) && Head in r.nodes && r.depth == 0
  {
    var h := Handle(s.id, o[0]);
    ConnectedIff(s, o, h);
    var i := DisconnectIdle(s, o, h);
    assert i == 0;
    assert Without(o, 0) == o[1..];
    ExtractHead(s.nodes, o, 0);
  }

  /** One round of the destructor's loop. */
  lemma DestroyStep(s: Signal, pending: set<nat>)
    requires s.depth == 0 && Head in s.nodes
    requires s.nodes[Head].next != Head && s.nodes[Head].next in pending
    ensures var first := s.nodes[Head].next;
      var rest := DestroyFrom(Disconnect(s, Handle(s.id, first)).0, pending - {first});
      DestroyFrom(s, pending) == (rest.0, [first] + rest.1)
  {
  }

  /** `~signal()` run while an emission of the same signal is under way:
      disconnecting the first connection only deactivates it, so the
      sentinel's successor stays the same, and from the second round on a
      round changes nothing at all.  The loop never ends, which is why the
      model's destructor requires depth zero. */
  lemma DestroyStalls(s: Signal, o: seq<nat>)
    requires Valid(s, o) && s.depth > 0 && |o| > 0
    ensures Head in s.nodes && s.nodes[Head].next != Head
    ensures var h := Handle(s.id, s.nodes[Head].next);
      var r := Disconnect(s, h).0;
      && Head in r.nodes && r.nodes[Head].next == s.nodes[Head].next
      && Disconnect(r, h).0 == r
  {
    var h := Handle(s.id, o[0]);
    ConnectedIff(s, o, h);
    DisconnectDuringEmission(s, o, h);
    var r := Disconnect(s, h).0;
    assert Connected(r, h);
    assert Deactivate(r.nodes, o[0]) == r.nodes;
  }

  /** The end of a scoped connection's lifetime disconnects it: outside an
      emission it is gone, during one its slot is cleared. */
  lemma ScopeEnd(s: Signal, o: seq<nat>, h: Handle)
    requires Valid(s, o) && h.Handle? && h.signal == s.id
    ensures s.depth == 0 ==> !Connected(EndScope(s, h), h)
    ensures s.depth > 0 && Connected(s, h) ==> EndScope(s, h).nodes[h.node].slot == None
  {
    if Connected(s, h) {
      if s.depth == 0 {
        var _ := DisconnectIdle(s, o, h);
      } else {
        DisconnectDuringEmission(s, o, h);
      }
    }
  }
}

=== FILE: ring.dfy ===
/** The connection ring: an intrusive circular doubly-linked list of nodes
    rooted at a sentinel.  Nodes live in an arena keyed by identity; the
    sentinel has identity `Head` and every connected node a positive,
    never-reused identity. */
module Ring {

  /** Identity of the sentinel node that roots a ring. */
  const Head: nat := 0

  /** Identity of a connected node: never the sentinel. */
  type NodeId = n: nat | n > 0 witness 1

  /** Name of a slot (a callable); what a slot does is described elsewhere. */
  type Label = nat

  datatype Option<T> = None | Some(value: T)

  /** A node: its ring links and its slot, `None` once deactivated (the
      sentinel's slot is always `None`). */
  datatype Node = Node(next: nat, prev: nat, slot: Option<Label>)

  type Arena = map<nat, Node>

  /** The node at position `i` of a traversal order, or the sentinel once
      the order is exhausted. */
  function Cursor(o: seq<nat>, i: nat): nat
  {
    if i < |o| then o[i] else Head
  }

  /** The position of the first occurrence of `x` in `o` at or after `k`,
      or `|o|`. */
  function IndexFrom(o: seq<nat>, x: nat, k: nat): (r: nat)
    requires k <= |o|
    ensures k <= r <= |o|
    ensures r < |o| ==> o[r] == x
    decreases |o| - k
  {
    if k == |o| then |o|
    else if o[k] == x then k
    else IndexFrom(o, x, k + 1)
  }

  /** The position of the first occurrence of `x` in `o`, or `|o|`. */
  function IndexOf(o: seq<nat>, x: nat): (k: nat)
    ensures k <= |o|
    ensures k < |o| ==> o[k] == x
  {
    IndexFrom(o, x, 0)
  }

  /** Distinctness stated one entry at a time: each entry is the first
      occurrence of its value.  Equal entries then have equal positions
      without any pairing of indices. */
  ghost predicate Indexed(o: seq<nat>)
  {
    forall i :: 0 <= i < |o| ==> IndexOf(o, o[i]) == i
  }

  lemma {:induction false} IndexFromFirst(o: seq<nat>, x: nat, j: nat, k: nat)
    requires j <= k < |o| && o[k] == x
    requires forall m :: j <= m < k ==> o[m] != x
    ensures IndexFrom(o, x, j) == k
    decreases k - j
  {
    if j < k {
      IndexFromFirst(o, x, j + 1, k);
    }
  }

  lemma IndexOfFirst(o: seq<nat>, k: nat)
    requires k < |o|
    requires forall j :: 0 <= j < k ==> o[j] != o[k]
    ensures IndexOf(o, o[k]) == k
  {
    IndexFromFirst(o, o[k], 0, k);
  }

  lemma {:induction false} IndexFromAt(o: seq<nat>, x: nat, m: nat, j: nat)
    requires m <= j < |o| && o[j] == x
    ensures IndexFrom(o, x, m) <= j
    decreases j - m
  {
    if m < j && o[m] != x {
      IndexFromAt(o, x, m + 1, j);
    }
  }

  /** No occurrence of a value comes before its first one. */
  lemma IndexOfAt(o: seq<nat>, j: nat)
    requires j < |o|
    ensures IndexOf(o, o[j]) <= j
  {
    IndexFromAt(o, o[j], 0, j);
  }

  /** Appending a new value keeps every entry a first occurrence. */
  lemma InsertIndexed(o: seq<nat>, id: nat)
    requires Indexed(o)
    requires forall k :: 0 <= k < |o| ==> o[k] != id
    ensures Indexed(o + [id])
  {
    var o' := o + [id];
    forall k | 0 <= k < |o'| ensures IndexOf(o', o'[k]) == k
    {
      forall j | 0 <= j < k ensures o'[j] != o'[k]
      {
        assert o'[j] == o[j];
        if k < |o| {
          assert o'[k] == o[k];
          assert IndexOf(o, o[j]) == j && IndexOf(o, o[k]) == k;
        }
      }
      IndexOfFirst(o', k);
    }
  }

  /** Removing an entry keeps every other entry a first occurrence. */
  lemma ExtractIndexed(o: seq<nat>, i: nat)
    requires Indexed(o) && i < |o|
    ensures Indexed(Without(o, i))
  {
    var o' := Without(o, i);
    forall k | 0 <= k < |o'| ensures IndexOf(o', o'[k]) == k
    {
      var k' := if k < i then k else k + 1;
      assert o'[k] == o[k'];
      forall j | 0 <= j < k ensures o'[j] != o'[k]
      {
        var j' := if j < i then j else j + 1;
        assert o'[j] == o[j'];
        assert IndexOf(o, o[j']) == j' && IndexOf(o, o[k']) == k';
      }
      IndexOfFirst(o', k);
    }
  }

  /** `a` is exactly one cycle: the sentinel followed by the nodes of `o`
      in that order, with `prev` the mirror image of `next`. */
  ghost predicate Shape(a: Arena, o: seq<nat>)
  {
    && Head in a
    && (forall i :: 0 <= i < |o| ==> o[i] != Head)
    && Indexed(o)
    && (forall i {:trigger o[i] in a} :: 0 <= i < |o| ==> o[i] in a)
    && (forall x {:trigger IndexOf(o, x)} :: x in a ==> x == Head || IndexOf(o, x) < |o|)
    && a[Head].slot == None
    && a[Head].next == Cursor(o, 0)
    && a[Head].prev == (if |o| == 0 then Head else o[|o| - 1])
    && (forall i {:trigger a[o[i]]} :: 0 <= i < |o| ==> a[o[i]].next == Cursor(o, i + 1))
    && (forall i {:trigger a[o[i]]} :: 0 <= i < |o| ==> a[o[i]].prev == (if i == 0 then Head else o[i - 1]))
  }

  /** The node stored under `x`.  Operations reach nodes only through
      links, which in a well-formed ring always name stored nodes; a
      dangling link reads as a detached sentinel-like node. */
  function Get(a: Arena, x: nat): (n: Node)
    ensures x in a ==> n == a[x]
  {
    if x in a then a[x] else Node(Head, Head, None)
  }

  /** Inserts node `id` holding `slot` immediately before the sentinel,
      i.e. at the tail of the registration order. */
  function Insert(a: Arena, id: nat, slot: Option<Label>): (r: Arena)
    ensures Head in a && a[Head].prev in a ==> r.Keys == a.Keys + {id}
    ensures id != Head ==> id in r && r[id].slot == slot
    ensures forall x {:trigger r[x]} :: x in r && x in a && x != id ==> r[x].slot == a[x].slot
  {
    var p := Get(a, Head).prev;
    var a1 := a[id := Node(Head, p, slot)];
    var a2 := a1[p := Get(a1, p).(next := id)];
    a2[Head := Get(a2, Head).(prev := id)]
  }

  /** Unlinks node `id` from its neighbours and discards it. */
  function Extract(a: Arena, id: nat): (r: Arena)
    ensures id !in r
    ensures forall x {:trigger r[x]} :: x in r && x in a ==> r[x].slot == a[x].slot
    ensures id in a && a[id].next in a && a[id].prev in a ==> r.Keys == a.Keys - {id}
  {
    var nx := Get(a, id).next;
    var pv := Get(a, id).prev;
    var a1 := a[nx := Get(a, nx).(prev := pv)];
    var a2 := a1[pv := Get(a1, pv).(next := nx)];
    a2 - {id}
  }

  /** Clears the slot of node `id`, leaving every link as it was. */
  function Deactivate(a: Arena, id: nat): (r: Arena)
    requires id in a
    ensures r.Keys == a.Keys && r[id].slot == None
    ensures forall x {:trigger r[x]} :: x in a ==> r[x].next == a[x].next && r[x].prev == a[x].prev
    ensures forall x {:trigger r[x]} :: x in a && x != id ==> r[x].slot == a[x].slot
  {
    a[id := a[id].(slot := None)]
  }

  /** Walks the ring from `cur` up to the sentinel looking for `id`;
      `pending` holds the nodes not yet visited and bounds the walk. */
  function Scan(a: Arena, cur: nat, id: nat, pending: set<nat>): (found: bool)
    ensures found ==> id in a && id != Head
    decreases pending
  {
    if cur == Head || cur !in a || cur !in pending then false
    else if cur == id then true
    else Scan(a, a[cur].next, id, pending - {cur})
  }

  /** Is `id` one of the nodes reachable from the sentinel? */
  function Reachable(a: Arena, id: nat): (found: bool)
    ensures found ==> id in a && id != Head
  {
    Head in a && Scan(a, a[Head].next, id, a.Keys)
  }

  /** The nodes of `o` whose slot is still set, in order. */
  function Active(a: Arena, o: seq<nat>): (r: seq<nat>)
    requires forall i :: 0 <= i < |o| ==> o[i] in a
  {
    if |o| == 0 then []
    else if a[o[0]].slot.Some? then [o[0]] + Active(a, o[1..])
    else Active(a, o[1..])
  }

  /** A node is kept by `Active` exactly when it is in `o` with its slot set. */
  lemma {:induction false} ActiveSpec(a: Arena, o: seq<nat>)
    requires forall i :: 0 <= i < |o| ==> o[i] in a
    ensures forall x :: x in Active(a, o) <==> x in o && a[x].slot.Some?
    decreases |o|
  {
    if |o| > 0 {
      ActiveSpec(a, o[1..]);
      forall x ensures x in o <==> x == o[0] || x in o[1..]
      {
        assert o == [o[0]] + o[1..];
      }
    }
  }

  /** Removes the element at position `i`. */
  function Without(o: seq<nat>, i: nat): (r: seq<nat>)
    requires i < |o|
    ensures |r| == |o| - 1
    ensures forall k {:trigger r[k]} :: 0 <= k < i ==> r[k] == o[k]
    ensures forall k {:trigger r[k]} :: i <= k < |r| ==> r[k] == o[k + 1]
  {
    o[..i] + o[i + 1..]
  }

  /** The nodes stored besides the sentinel are exactly those of the order. */
  lemma ShapeMembers(a: Arena, o: seq<nat>)
    requires Shape(a, o)
    ensures forall i :: 0 <= i < |o| ==> o[i] in a
    ensures forall x :: x in a && x != Head ==> x in o
  {
    forall x | x in a && x != Head ensures x in o
    {
      assert o[IndexOf(o, x)] == x;
    }
  }

  /** Node by node, what `Insert` changes. */
  lemma InsertLinks(a: Arena, id: nat, slot: Option<Label>)
    requires Head in a && a[Head].prev in a
    requires id !in a
    ensures Insert(a, id, slot)[id] == Node(Head, a[Head].prev, slot)
    ensures a[Head].prev != Head ==>
      && Insert(a, id, slot)[a[Head].prev] == a[a[Head].prev].(next := id)
      && Insert(a, id, slot)[Head] == a[Head].(prev := id)
    ensures a[Head].prev == Head ==> Insert(a, id, slot)[Head] == a[Head].(next := id, prev := id)
    ensures forall x :: x in a && x != a[Head].prev && x != Head ==> Insert(a, id, slot)[x] == a[x]
  {
  }

  lemma InsertOrderLinks(a: Arena, o: seq<nat>, id: nat, slot: Option<Label>)
    requires Shape(a, o)
    requires id !in a
    ensures a[Head].prev in a
    ensures forall i :: 0 <= i < |o| + 1 ==>
      && Insert(a, id, slot)[(o + [id])[i]].next == Cursor(o + [id], i + 1)
      && Insert(a, id, slot)[(o + [id])[i]].prev == (if i == 0 then Head else (o + [id])[i - 1])
  {
    var o' := o + [id];
    var p := a[Head].prev;
    assert p in a by { if |o| > 0 { assert o[|o| - 1] in a; } }
    InsertLinks(a, id, slot);
    var r := Insert(a, id, slot);
    forall i | 0 <= i < |o'|
      ensures r[o'[i]].next == Cursor(o', i + 1)
      ensures r[o'[i]].prev == (if i == 0 then Head else o'[i - 1])
    {
      if i == |o| {
      } else if i == |o| - 1 {
        assert o'[i] == p;
      } else {
        assert o'[i] == o[i] && o[i] != p && o[i] != id && o[i] in a;
        assert Cursor(o', i + 1) == Cursor(o, i + 1);
        if i > 0 { assert o'[i - 1] == o[i - 1]; }
      }
    }
  }

  lemma InsertOrderMembers(a: Arena, o: seq<nat>, id: nat)
    requires Shape(a, o)
    requires id !in a
    ensures Indexed(o + [id])
    ensures forall i :: 0 <= i < |o| + 1 ==> (o + [id])[i] != Head
    ensures forall i :: 0 <= i < |o| + 1 ==> (o + [id])[i] in a.Keys + {id}
    ensures forall x :: x in a.Keys + {id} ==> x == Head || IndexOf(o + [id], x) < |o| + 1
  {
    var o' := o + [id];
    InsertIndexed(o, id);
    forall x | x in a.Keys + {id} && x != Head ensures IndexOf(o', x) < |o'|
    {
      var k := if x == id then |o| else IndexOf(o, x);
      assert o'[k] == x;
      IndexOfAt(o', k);
    }
  }

  /** Inserting before the sentinel appends to the order and keeps one cycle. */
  lemma InsertShape(a: Arena, o: seq<nat>, id: nat, slot: Option<Label>)
    requires Shape(a, o)
    requires id !in a
    ensures Shape(Insert(a, id, slot), o + [id])
  {
    InsertOrderLinks(a, o, id, slot);
    InsertOrderMembers(a, o, id);
    InsertHead(a, o, id, slot);
  }

  /** The sentinel after an insertion: its successor is the first node of
      the longer order, its predecessor the new node. */
  lemma InsertHead(a: Arena, o: seq<nat>, id: nat, slot: Option<Label>)
    requires Shape(a, o)
    requires id !in a
    ensures Head in Insert(a, id, slot)
    ensures Insert(a, id, slot)[Head].slot == None
    ensures Insert(a, id, slot)[Head].next == Cursor(o + [id], 0)
    ensures Insert(a, id, slot)[Head].prev == (o + [id])[|o + [id]| - 1]
  {
    assert a[Head].prev in a by { if |o| > 0 { assert o[|o| - 1] in a; } }
    InsertLinks(a, id, slot);
    if |o| > 0 {
      assert (o + [id])[0] == o[0];
    }
  }

  /** Node by node, what `Extract` changes. */
  lemma ExtractLinks(a: Arena, id: nat)
    requires id in a && a[id].next in a && a[id].prev in a
    requires a[id].next != id && a[id].prev != id
    ensures a[id].next == a[id].prev ==>
      Extract(a, id)[a[id].next] == a[a[id].next].(prev := a[id].prev, next := a[id].next)
    ensures a[id].next != a[id].prev ==>
      && Extract(a, id)[a[id].next] == a[a[id].next].(prev := a[id].prev)
      && Extract(a, id)[a[id].prev] == a[a[id].prev].(next := a[id].next)
    ensures forall x :: x in a && x != id && x != a[id].next && x != a[id].prev ==> Extract(a, id)[x] == a[x]
  {
  }

  lemma ExtractLinkAt(a: Arena, o: seq<nat>, i: nat, k: nat)
    requires Shape(a, o)
    requires i < |o| && k < |o| - 1
    requires a[o[i]].next in a && a[o[i]].prev in a
    requires a[o[i]].next != o[i] && a[o[i]].prev != o[i]
    ensures Without(o, i)[k] in Extract(a, o[i])
    ensures Extract(a, o[i])[Without(o, i)[k]].next == Cursor(Without(o, i), k + 1)
    ensures Extract(a, o[i])[Without(o, i)[k]].prev == (if k == 0 then Head else Without(o, i)[k - 1])
  {
    if k < i {
      ExtractLinkBefore(a, o, i, k);
    } else {
      ExtractLinkAfter(a, o, i, k);
    }
  }

  lemma ExtractLinkBefore(a: Arena, o: seq<nat>, i: nat, k: nat)
    requires Shape(a, o)
    requires k < i < |o|
    requires a[o[i]].next in a && a[o[i]].prev in a
    requires a[o[i]].next != o[i] && a[o[i]].prev != o[i]
    ensures Without(o, i)[k] in Extract(a, o[i])
    ensures Extract(a, o[i])[Without(o, i)[k]].next == Cursor(Without(o, i), k + 1)
    ensures Extract(a, o[i])[Without(o, i)[k]].prev == (if k == 0 then Head else Without(o, i)[k - 1])
  {
    var id := o[i];
    ExtractLinks(a, id);
    var o' := Without(o, i);
    assert o'[k] == o[k] && o[k] != id && o[k] in a;
    if k + 1 < i {
      assert Cursor(o', k + 1) == o[k + 1];
      assert o[k] != a[id].prev by { assert a[id].prev == o[i - 1]; }
      assert o[k] != a[id].next by { if i + 1 < |o| { assert a[id].next == o[i + 1]; } }
    } else {
      assert Cursor(o', k + 1) == Cursor(o, i + 1);
      assert o[k] == a[id].prev;
    }
    if k > 0 { assert o'[k - 1] == o[k - 1]; }
  }

  lemma ExtractLinkAfter(a: Arena, o: seq<nat>, i: nat, k: nat)
    requires Shape(a, o)
    requires i <= k < |o| - 1
    requires a[o[i]].next in a && a[o[i]].prev in a
    requires a[o[i]].next != o[i] && a[o[i]].prev != o[i]
    ensures Without(o, i)[k] in Extract(a, o[i])
    ensures Extract(a, o[i])[Without(o, i)[k]].next == Cursor(Without(o, i), k + 1)
    ensures Extract(a, o[i])[Without(o, i)[k]].prev == (if k == 0 then Head else Without(o, i)[k - 1])
  {
    if k == i {
      ExtractLinkNext(a, o, i);
    } else {
      ExtractLinkFar(a, o, i, k);
    }
  }

  lemma ExtractLinkNext(a: Arena, o: seq<nat>, i: nat)
    requires Shape(a, o)
    requires i < |o| - 1
    requires a[o[i]].next in a && a[o[i]].prev in a
    requires a[o[i]].next != o[i] && a[o[i]].prev != o[i]
    ensures Without(o, i)[i] in Extract(a, o[i])
    ensures Extract(a, o[i])[Without(o, i)[i]].next == Cursor(Without(o, i), i + 1)
    ensures Extract(a, o[i])[Without(o, i)[i]].prev == (if i == 0 then Head else Without(o, i)[i - 1])
  {
    ExtractLinks(a, o[i]);
    assert Without(o, i)[i] == o[i + 1] == a[o[i]].next;
    assert Cursor(Without(o, i), i + 1) == Cursor(o, i + 2);
  }

  lemma ExtractLinkFar(a: Arena, o: seq<nat>, i: nat, k: nat)
    requires Shape(a, o)
    requires i < k < |o| - 1
    requires a[o[i]].next in a && a[o[i]].prev in a
    requires a[o[i]].next != o[i] && a[o[i]].prev != o[i]
    ensures Without(o, i)[k] in Extract(a, o[i])
    ensures Extract(a, o[i])[Without(o, i)[k]].next == Cursor(Without(o, i), k + 1)
    ensures Extract(a, o[i])[Without(o, i)[k]].prev == Without(o, i)[k - 1]
  {
    var id := o[i];
    ExtractLinks(a, id);
    assert Without(o, i)[k] == o[k + 1] && o[k + 1] != id && o[k + 1] in a;
    assert Cursor(Without(o, i), k + 1) == Cursor(o, k + 2);
    assert Without(o, i)[k - 1] == o[k];
    assert o[k + 1] != a[id].next by { assert a[id].next == o[i + 1]; }
    assert o[k + 1] != a[id].prev by { if i > 0 { assert a[id].prev == o[i - 1]; } }
  }

  lemma ExtractOrderLinks(a: Arena, o: seq<nat>, i: nat)
    requires Shape(a, o)
    requires i < |o|
    ensures o[i] in a && a[o[i]].next in a && a[o[i]].prev in a
    ensures forall k :: 0 <= k < |o| - 1 ==>
      && Without(o, i)[k] in Extract(a, o[i])
      && Extract(a, o[i])[Without(o, i)[k]].next == Cursor(Without(o, i), k + 1)
      && Extract(a, o[i])[Without(o, i)[k]].prev == (if k == 0 then Head else Without(o, i)[k - 1])
  {
    var id := o[i];
    Neighbours(a, o, i);
    forall k | 0 <= k < |o| - 1
      ensures Without(o, i)[k] in Extract(a, o[i])
      ensures Extract(a, o[i])[Without(o, i)[k]].next == Cursor(Without(o, i), k + 1)
      ensures Extract(a, o[i])[Without(o, i)[k]].prev == (if k == 0 then Head else Without(o, i)[k - 1])
    {
      ExtractLinkAt(a, o, i, k);
    }
  }

  lemma ExtractOrderMembers(a: Arena, o: seq<nat>, i: nat)
    requires Shape(a, o)
    requires i < |o|
    ensures Indexed(Without(o, i))
    ensures forall k :: 0 <= k < |o| - 1 ==> Without(o, i)[k] != Head
    ensures forall k :: 0 <= k < |o| - 1 ==> Without(o, i)[k] in a.Keys - {o[i]}
    ensures forall x :: x in a.Keys - {o[i]} ==> x == Head || IndexOf(Without(o, i), x) < |o| - 1
  {
    var id := o[i];
    var o' := Without(o, i);
    forall k | 0 <= k < |o'| ensures o'[k] in a.Keys - {id}
    {
      if k < i { assert o'[k] == o[k]; } else { assert o'[k] == o[k + 1]; }
    }
    forall x | x in a.Keys - {id} && x != Head ensures IndexOf(o', x) < |o'|
    {
      var j := IndexOf(o, x);
      assert o[j] == x && j != i;
      var k := if j < i then j else j - 1;
      assert o'[k] == x;
      IndexOfAt(o', k);
    }
    ExtractIndexed(o, i);
  }

  /** The neighbours of a node of the order are stored and differ from it. */
  lemma Neighbours(a: Arena, o: seq<nat>, i: nat)
    requires Shape(a, o)
    requires i < |o|
    ensures o[i] in a && a[o[i]].next in a && a[o[i]].prev in a
    ensures a[o[i]].next != o[i] && a[o[i]].prev != o[i]
  {
    assert IndexOf(o, o[i]) == i;
    if i + 1 < |o| {
      assert a[o[i]].next == o[i + 1] && o[i + 1] in a;
      assert IndexOf(o, o[i + 1]) == i + 1;
    }
    if i > 0 {
      assert a[o[i]].prev == o[i - 1] && o[i - 1] in a;
      assert IndexOf(o, o[i - 1]) == i - 1;
    }
  }

  lemma ExtractHead(a: Arena, o: seq<nat>, i: nat)
    requires Shape(a, o)
    requires i < |o|
    ensures Head in Extract(a, o[i])
    ensures Extract(a, o[i])[Head].slot == None
    ensures Extract(a, o[i])[Head].next == Cursor(Without(o, i), 0)
    ensures Extract(a, o[i])[Head].prev == (if |o| == 1 then Head else Without(o, i)[|o| - 2])
  {
    var id := o[i];
    Neighbours(a, o, i);
    ExtractLinks(a, id);
    var o' := Without(o, i);
    if i == 0 { assert a[id].prev == Head; } else { assert o'[0] == o[0]; }
    if i == |o| - 1 {
      assert a[id].next == Head;
      if i > 0 { assert o'[|o'| - 1] == o[i - 1]; }
    } else {
      assert o'[|o'| - 1] == o[|o| - 1];
    }
  }

  /** Extracting the node at position `i` deletes it from the order and
      keeps one cycle. */
  lemma ExtractShape(a: Arena, o: seq<nat>, i: nat)
    requires Shape(a, o)
    requires i < |o|
    ensures o[i] in a && a[o[i]].next in a && a[o[i]].prev in a
    ensures Shape(Extract(a, o[i]), Without(o, i))
  {
    ExtractOrderLinks(a, o, i);
    ExtractOrderMembers(a, o, i);
    ExtractHead(a, o, i);
    assert Extract(a, o[i]).Keys == a.Keys - {o[i]};
  }

  /** Deactivation leaves the cycle as it was. */
  lemma DeactivateShape(a: Arena, o: seq<nat>, id: nat)
    requires Shape(a, o)
    requires id in a && id != Head
    ensures Shape(Deactivate(a, id), o)
  {
    var r := Deactivate(a, id);
    assert r[Head] == a[Head];
    ShapeRelink(a, r, o);
  }

  /** The shape is a matter of the stored keys and the links: an arena with
      the same keys, the same sentinel and the same links has it too. */
  lemma ShapeRelink(a: Arena, b: Arena, o: seq<nat>)
    requires Shape(a, o)
    requires b.Keys == a.Keys && b[Head] == a[Head]
    requires forall x {:trigger b[x]} :: x in a ==> b[x].next == a[x].next && b[x].prev == a[x].prev
    ensures Shape(b, o)
  {
    forall x | x in b ensures x == Head || IndexOf(o, x) < |o|
    {
      assert x in a;
    }
  }

  /** The scan finds exactly the nodes still ahead of the cursor. */
  lemma {:induction false} ScanFinds(a: Arena, o: seq<nat>, i: nat, id: nat, pending: set<nat>)
    requires Shape(a, o)
    requires i <= |o|
    requires forall k :: i <= k < |o| ==> o[k] in pending
    ensures Scan(a, Cursor(o, i), id, pending) <==> id in o[i..]
    decreases |o| - i
  {
    if i == |o| {
      assert o[i..] == [];
    } else {
      ScanStep(a, o, i, id, pending);
      if o[i] != id {
        ScanFinds(a, o, i + 1, id, pending - {o[i]});
      }
    }
  }

  /** One step of the scan: the node at position `i` is looked at, then
      the rest of the order. */
  lemma ScanStep(a: Arena, o: seq<nat>, i: nat, id: nat, pending: set<nat>)
    requires Shape(a, o)
    requires i < |o|
    requires forall k :: i <= k < |o| ==> o[k] in pending
    ensures forall k :: i + 1 <= k < |o| ==> o[k] in pending - {o[i]}
    ensures Scan(a, Cursor(o, i), id, pending) == (o[i] == id || Scan(a, Cursor(o, i + 1), id, pending - {o[i]}))
    ensures (id in o[i..]) == (o[i] == id || id in o[i + 1..])
  {
    SplitStep(a, o, i, pending);
    assert o[i..] == [o[i]] + o[i + 1..];
  }

  /** A node is reachable from the sentinel exactly when it is in the order. */
  lemma ReachableIff(a: Arena, o: seq<nat>, id: nat)
    requires Shape(a, o)
    ensures Reachable(a, id) <==> id in o
  {
    forall k | 0 <= k < |o| ensures o[k] in a.Keys { }
    ScanFinds(a, o, 0, id, a.Keys);
    assert o[0..] == o;
  }

  /** The sweep: walks the ring from `cur` to the sentinel and extracts
      every node whose slot is cleared, reading each successor before the
      node may go; `pending` holds the nodes not yet visited. */
  function SweepFrom(a: Arena, cur: nat, pending: set<nat>): (r: Arena)
    decreases pending
  {
    if cur == Head || cur !in a || cur !in pending then a
    else
      var nx := a[cur].next;
      SweepFrom(if a[cur].slot.None? then Extract(a, cur) else a, nx, pending - {cur})
  }

  /** `Active` only looks at slots. */
  lemma {:induction false} ActiveFrame(a: Arena, b: Arena, o: seq<nat>)
    requires forall i :: 0 <= i < |o| ==> o[i] in a && o[i] in b && a[o[i]].slot == b[o[i]].slot
    ensures Active(a, o) == Active(b, o)
    decreases |o|
  {
    if |o| > 0 {
      ActiveFrame(a, b, o[1..]);
    }
  }

  /** The node at position `i` and its successor. */
  lemma SplitStep(a: Arena, o: seq<nat>, i: nat, pending: set<nat>)
    requires Shape(a, o)
    requires i < |o|
    requires forall k :: i <= k < |o| ==> o[k] in pending
    ensures o[i] in a && o[i] != Head
    ensures a[o[i]].next == Cursor(o, i + 1)
    ensures forall k :: i + 1 <= k < |o| ==> o[k] in pending - {o[i]}
  {
  }

  /** Sweeping the order from position `i` on keeps the nodes whose slot
      is set, in their order, and leaves one cycle; survivors keep their
      slots. */
  lemma {:induction false} SweepShape(a: Arena, o: seq<nat>, i: nat, pending: set<nat>)
    requires Shape(a, o)
    requires i <= |o|
    requires forall k :: i <= k < |o| ==> o[k] in pending
    ensures forall k :: 0 <= k < |o| ==> o[k] in a
    ensures Shape(SweepFrom(a, Cursor(o, i), pending), o[..i] + Active(a, o[i..]))
    ensures forall x :: x in SweepFrom(a, Cursor(o, i), pending) ==> x in a && SweepFrom(a, Cursor(o, i), pending)[x].slot == a[x].slot
    decreases |o| - i, 1
  {
    ShapeMembers(a, o);
    if i == |o| {
      assert SweepFrom(a, Cursor(o, i), pending) == a;
      assert o[..i] + Active(a, o[i..]) == o by {
        assert o[i..] == [];
        assert o[..i] == o;
      }
    } else {
      assert Cursor(o, i) == o[i];
      SplitStep(a, o, i, pending);
      if a[o[i]].slot.None? {
        SweepDrop(a, o, i, pending);
      } else {
        SweepKeep(a, o, i, pending);
      }
    }
  }

  /** The whole sweep, from the sentinel's successor. */
  lemma SweepAll(a: Arena, o: seq<nat>)
    requires Shape(a, o)
    ensures Stored(a, o)
    ensures Shape(SweepFrom(a, a[Head].next, a.Keys), Active(a, o))
    ensures forall x :: x in SweepFrom(a, a[Head].next, a.Keys) ==> x in a && SweepFrom(a, a[Head].next, a.Keys)[x].slot == a[x].slot
  {
    ShapeMembers(a, o);
    SweepShape(a, o, 0, a.Keys);
    assert o[..0] + Active(a, o[0..]) == Active(a, o) by {
      assert o[..0] == [] && o[0..] == o;
    }
  }

  lemma SliceFacts(o: seq<nat>, i: nat)
    requires i < |o|
    ensures o[i..] == [o[i]] + o[i + 1..]
    ensures o[..i + 1] == o[..i] + [o[i]]
    ensures Without(o, i)[..i] == o[..i]
    ensures Without(o, i)[i..] == o[i + 1..]
  {
  }

  lemma ActiveCons(a: Arena, o: seq<nat>, i: nat)
    requires i < |o|
    requires forall k :: 0 <= k < |o| ==> o[k] in a
    ensures a[o[i]].slot.Some? ==> o[..i] + Active(a, o[i..]) == o[..i + 1] + Active(a, o[i + 1..])
    ensures a[o[i]].slot.None? ==> Active(a, o[i..]) == Active(a, o[i + 1..])
  {
    SliceFacts(o, i);
    assert Active(a, o[i..]) == Active(a, [o[i]] + o[i + 1..]);
    assert ([o[i]] + o[i + 1..])[1..] == o[i + 1..];
  }

  lemma {:induction false} SweepDrop(a: Arena, o: seq<nat>, i: nat, pending: set<nat>)
    requires Shape(a, o)
    requires i < |o| && forall k :: i <= k < |o| ==> o[k] in pending
    requires o[i] in a && a[o[i]].slot.None?
    ensures Shape(SweepFrom(a, o[i], pending), o[..i] + Active(a, o[i..]))
    ensures forall x :: x in SweepFrom(a, o[i], pending) ==> x in a && SweepFrom(a, o[i], pending)[x].slot == a[x].slot
    decreases |o| - i, 0
  {
    var a', o' := Extract(a, o[i]), Without(o, i);
    ExtractShape(a, o, i);
    DropPieces(a, o, i, pending);
    SweepShape(a', o', i, pending - {o[i]});
    var r := SweepFrom(a, o[i], pending);
    assert r == SweepFrom(a', Cursor(o', i), pending - {o[i]});
    assert o[..i] + Active(a, o[i..]) == o'[..i] + Active(a', o'[i..]);
    forall x | x in r ensures x in a && r[x].slot == a[x].slot
    {
      assert x in a';
    }
  }

  /** What `SweepDrop` needs about the ring after one extraction. */
  lemma DropPieces(a: Arena, o: seq<nat>, i: nat, pending: set<nat>)
    requires Shape(a, o)
    requires i < |o| && forall k :: i <= k < |o| ==> o[k] in pending
    requires o[i] in a && a[o[i]].slot.None?
    ensures i <= |Without(o, i)|
    ensures forall k :: i <= k < |Without(o, i)| ==> Without(o, i)[k] in pending - {o[i]}
    ensures SweepFrom(a, o[i], pending) == SweepFrom(Extract(a, o[i]), Cursor(Without(o, i), i), pending - {o[i]})
    ensures Stored(Extract(a, o[i]), Without(o, i)[i..]) && Stored(a, o[i..])
    ensures Without(o, i)[..i] + Active(Extract(a, o[i]), Without(o, i)[i..]) == o[..i] + Active(a, o[i..])
    ensures forall x :: x in Extract(a, o[i]) ==> x in a && Extract(a, o[i])[x].slot == a[x].slot
  {
    ExtractShape(a, o, i);
    DropStep(a, o, i, pending);
    ShapeMembers(a, o);
    DropOrder(a, o, i);
  }

  /** Sweeping a deactivated node extracts it and moves on to its
      successor, which in the shorter order sits at the same position. */
  lemma DropStep(a: Arena, o: seq<nat>, i: nat, pending: set<nat>)
    requires Shape(a, o)
    requires i < |o| && forall k :: i <= k < |o| ==> o[k] in pending
    requires o[i] in a && a[o[i]].slot.None?
    ensures SweepFrom(a, o[i], pending) == SweepFrom(Extract(a, o[i]), Cursor(Without(o, i), i), pending - {o[i]})
    ensures forall k :: i <= k < |o| - 1 ==> Without(o, i)[k] in pending - {o[i]}
  {
    SplitStep(a, o, i, pending);
    assert Cursor(Without(o, i), i) == Cursor(o, i + 1);
  }

  /** Every node of `o` is stored in `a`. */
  ghost predicate Stored(a: Arena, o: seq<nat>)
  {
    forall i {:trigger o[i] in a} :: 0 <= i < |o| ==> o[i] in a
  }

  lemma StoredSlice(a: Arena, o: seq<nat>, i: nat)
    requires Stored(a, o) && i <= |o|
    ensures Stored(a, o[i..])
  {
    forall k | 0 <= k < |o| - i ensures o[i..][k] in a
    {
      assert o[i..][k] == o[i + k];
    }
  }

  /** The nodes that survive an extraction are still stored, with the
      slots they had. */
  lemma DropMembers(a: Arena, o: seq<nat>, i: nat)
    requires Stored(a, o) && Indexed(o)
    requires i < |o| && a[o[i]].next in a && a[o[i]].prev in a
    ensures Stored(Extract(a, o[i]), Without(o, i))
    ensures forall k :: i + 1 <= k < |o| ==> o[k] in Extract(a, o[i]) && Extract(a, o[i])[o[k]].slot == a[o[k]].slot
  {
    var id := o[i];
    var a' := Extract(a, id);
    var o' := Without(o, i);
    assert a'.Keys == a.Keys - {id};
    forall k | 0 <= k < |o'| ensures o'[k] in a'
    {
      var j := if k < i then k else k + 1;
      assert o'[k] == o[j];
      assert IndexOf(o, o[j]) == j && IndexOf(o, id) == i;
    }
    forall k | i + 1 <= k < |o| ensures o[k] in a' && a'[o[k]].slot == a[o[k]].slot
    {
      assert o[k] == o'[k - 1];
    }
  }

  /** After dropping a deactivated node the survivors are the same. */
  lemma DropOrder(a: Arena, o: seq<nat>, i: nat)
    requires Stored(a, o) && Indexed(o)
    requires i < |o| && a[o[i]].next in a && a[o[i]].prev in a
    requires a[o[i]].slot.None?
    ensures Stored(Extract(a, o[i]), Without(o, i))
    ensures Stored(Extract(a, o[i]), Without(o, i)[i..]) && Stored(a, o[i..])
    ensures Without(o, i)[..i] + Active(Extract(a, o[i]), Without(o, i)[i..]) == o[..i] + Active(a, o[i..])
  {
    DropMembers(a, o, i);
    StoredSlice(Extract(a, o[i]), Without(o, i), i);
    StoredSlice(a, o, i);
    var a' := Extract(a, o[i]);
    SliceFacts(o, i);
    var rest := o[i + 1..];
    forall k | 0 <= k < |rest| ensures rest[k] in a' && rest[k] in a && a'[rest[k]].slot == a[rest[k]].slot
    {
      assert rest[k] == o[i + 1 + k];
    }
    ActiveFrame(a', a, rest);
    ActiveCons(a, o, i);
  }

  lemma {:induction false} SweepKeep(a: Arena, o: seq<nat>, i: nat, pending: set<nat>)
    requires Shape(a, o)
    requires i < |o| && forall k :: i <= k < |o| ==> o[k] in pending
    requires o[i] in a && a[o[i]].slot.Some?
    ensures Shape(SweepFrom(a, o[i], pending), o[..i] + Active(a, o[i..]))
    ensures forall x :: x in SweepFrom(a, o[i], pending) ==> x in a && SweepFrom(a, o[i], pending)[x].slot == a[x].slot
    decreases |o| - i, 0
  {
    var cur := o[i];
    KeepStep(a, o, i, pending);
    KeepOrder(a, o, i);
    SweepShape(a, o, i + 1, pending - {cur});
    var r := SweepFrom(a, cur, pending);
    assert r == SweepFrom(a, Cursor(o, i + 1), pending - {cur});
    assert o[..i] + Active(a, o[i..]) == o[..i + 1] + Active(a, o[i + 1..]);
  }

  /** Sweeping from a node that keeps its slot moves on to its successor. */
  lemma KeepStep(a: Arena, o: seq<nat>, i: nat, pending: set<nat>)
    requires Shape(a, o)
    requires i < |o| && forall k :: i <= k < |o| ==> o[k] in pending
    requires o[i] in a && a[o[i]].slot.Some?
    ensures forall k :: i + 1 <= k < |o| ==> o[k] in pending - {o[i]}
    ensures SweepFrom(a, o[i], pending) == SweepFrom(a, Cursor(o, i + 1), pending - {o[i]})
  {
    SplitStep(a, o, i, pending);
  }

  /** A node that keeps its slot stays in the surviving order. */
  lemma KeepOrder(a: Arena, o: seq<nat>, i: nat)
    requires Stored(a, o)
    requires i < |o| && a[o[i]].slot.Some?
    ensures Stored(a, o[i..]) && Stored(a, o[i + 1..])
    ensures o[..i + 1] + Active(a, o[i + 1..]) == o[..i] + Active(a, o[i..])
  {
    StoredSlice(a, o, i);
    StoredSlice(a, o, i + 1);
    ActiveCons(a, o, i);
  }
}

=== FILE: scenarios.dfy ===
/** Signals built by a run of connects, and the emissions the library's own
    test programs perform on them: the collation of five results, the two
    `condition_while` tests, and the default aggregations. */
module Scenarios {
  import opened Ring
  import opened Strategy
  import opened Registry
  import opened Emission
  import opened Traversal

  /** Connects the slots `ls`, first to last. */
  function ConnectAll(s: Signal, ls: seq<Label>): (r: Signal)
    ensures r.id == s.id && r.depth == s.depth && r.deactivations == s.deactivations
    decreases |ls|
  {
    if |ls| == 0 then s else Connect(ConnectAll(s, ls[..|ls| - 1]), ls[|ls| - 1]).0
  }

  /** The identities of `n` connections made in a row, starting at `from`. */
  function Ids(from: nat, n: nat): (r: seq<nat>)
    ensures |r| == n
    ensures forall k :: 0 <= k < n ==> r[k] == from + k
  {
    seq(n, k => from + k)
  }

  /** The connections `o` hold the slots `ls`, position by position. */
  ghost predicate Holds(s: Signal, o: seq<nat>, ls: seq<Label>)
  {
    |o| == |ls| && forall k :: 0 <= k < |o| ==> o[k] != Head && o[k] in s.nodes && s.nodes[o[k]].slot == Some(ls[k])
  }

  /** One more connect adds one more slot at the end, and leaves the
      others as they were. */
  lemma ConnectHolds(s: Signal, o: seq<nat>, ls: seq<Label>, l: Label)
    requires Valid(s, o) && Holds(s, o, ls)
    ensures Valid(Connect(s, l).0, o + [s.nextId])
    ensures Holds(Connect(s, l).0, o + [s.nextId], ls + [l])
  {
    var r := Connect(s, l).0;
    ConnectValid(s, o, l);
    KeepsSlots(s, o, l);
    var o' := o + [s.nextId];
    var ls' := ls + [l];
    forall k | 0 <= k < |o'|
      ensures o'[k] != Head && o'[k] in r.nodes && r.nodes[o'[k]].slot == Some(ls'[k])
    {
      if k < |o| {
        assert o'[k] == o[k] && ls'[k] == ls[k];
      }
    }
  }

  /** A connect leaves the slots of the existing connections alone. */
  lemma KeepsSlots(s: Signal, o: seq<nat>, l: Label)
    requires Valid(s, o)
    ensures forall k :: 0 <= k < |o| ==> o[k] in Connect(s, l).0.nodes && Connect(s, l).0.nodes[o[k]].slot == s.nodes[o[k]].slot
  {
    ConnectValid(s, o, l);
    var r := Connect(s, l).0;
    forall k | 0 <= k < |o|
      ensures o[k] in r.nodes && r.nodes[o[k]].slot == s.nodes[o[k]].slot
    {
      assert (o + [s.nextId])[k] == o[k];
    }
  }

  /** One more identity at the end. */
  lemma IdsSnoc(n: nat)
    ensures Ids(1, n) + [n + 1] == Ids(1, n + 1)
  {
  }

  /** Connecting `ls` to a new signal yields identities 1, 2, ... in
      connection order, each holding its slot. */
  lemma {:induction false} ConnectAllHolds(id: nat, ls: seq<Label>)
    ensures var s := ConnectAll(NewSignal(id), ls);
      Valid(s, Ids(1, |ls|)) && Holds(s, Ids(1, |ls|), ls) && s.nextId == |ls| + 1
    decreases |ls|
  {
    if |ls| == 0 {
      assert Ids(1, 0) == [];
    } else {
      var init := ls[..|ls| - 1];
      var s := ConnectAll(NewSignal(id), init);
      ConnectAllHolds(id, init);
      ConnectHolds(s, Ids(1, |init|), init, ls[|ls| - 1]);
      IdsSnoc(|init|);
      Snoc(ls);
    }
  }

  /** A non-empty sequence is its front and its last element. */
  lemma Snoc(ls: seq<Label>)
    requires |ls| > 0
    ensures ls[..|ls| - 1] + [ls[|ls| - 1]] == ls
  {
  }

  /** The calls an emission with argument `arg` makes at recursion depth
      `depth` when it calls the slots `ls` of the connections `o` in turn. */
  function InOrder(o: seq<nat>, ls: seq<Label>, arg: int, depth: nat): (cs: seq<Call>)
    requires |o| == |ls| && forall k :: 0 <= k < |o| ==> o[k] != Head
    ensures |cs| == |ls|
    ensures forall k :: 0 <= k < |ls| ==> cs[k] == Call(o[k], ls[k], arg, depth)
  {
    seq(|ls|, k requires 0 <= k < |ls| => Call(o[k], ls[k], arg, depth))
  }

  /** The plain loop over connections holding slots calls each of them,
      in order. */
  lemma {:induction false} CallsInOrder(s: Signal, o: seq<nat>, ls: seq<Label>, i: nat, arg: int)
    requires Holds(s, o, ls) && i <= |o|
    ensures Calls(s.nodes, o, i, arg, s.depth) == InOrder(o, ls, arg, s.depth + 1)[i..]
    decreases |o| - i
  {
    if i < |o| {
      CallsInOrder(s, o, ls, i + 1, arg);
      var cs := InOrder(o, ls, arg, s.depth + 1);
      assert cs[i..] == [cs[i]] + cs[i + 1..];
    }
  }

  /** The results the slots of `ls` return, in order. */
  function Results(p: Program, ls: seq<Label>, arg: int): (vs: seq<int>)
    requires forall l: Label {:trigger p(l, arg)} :: p(l, arg).ending.Return?
    ensures |vs| == |ls|
    ensures forall k :: 0 <= k < |ls| ==> vs[k] == p(ls[k], arg).ending.value
  {
    seq(|ls|, k requires 0 <= k < |ls| => p(ls[k], arg).ending.value)
  }

  /** An emission over connections that all hold slots, with slots that
      change nothing and all return, under `condition_all`: every slot is
      called once, in the order of the ring, and the result aggregates all
      their results in that order. */
  lemma EmitInOrder(s: Signal, o: seq<nat>, ls: seq<Label>, p: Program, arg: int, strat: Strategy, fuel: nat)
    requires Valid(s, o) && Holds(s, o, ls) && !s.deactivations && Pure(p, arg) && fuel >= |o|
    requires forall l: Label {:trigger p(l, arg)} :: p(l, arg).ending.Return?
    requires strat.VoidStrategy? || strat.ctl == All
    ensures var e := Emit(p, s, arg, strat, fuel);
      && e.signal == s && e.status == Finished
      && e.trace == InOrder(o, ls, arg, s.depth + 1)
      && e.result == Reduce(strat, Results(p, ls, arg))
  {
    PureEmitAll(p, s, o, arg, strat, fuel);
    ResultsInOrder(s, o, ls, p, arg);
  }

  /** The calls of the plain loop over connections holding `ls`, and the
      results they return. */
  lemma ResultsInOrder(s: Signal, o: seq<nat>, ls: seq<Label>, p: Program, arg: int)
    requires Holds(s, o, ls)
    requires forall l: Label {:trigger p(l, arg)} :: p(l, arg).ending.Return?
    ensures Calls(s.nodes, o, 0, arg, s.depth) == InOrder(o, ls, arg, s.depth + 1)
    ensures Values(p, Calls(s.nodes, o, 0, arg, s.depth)) == Results(p, ls, arg)
  {
    CallsInOrder(s, o, ls, 0, arg);
    assert InOrder(o, ls, arg, s.depth + 1)[0..] == InOrder(o, ls, arg, s.depth + 1);
  }

  /** Registration order: a signal given the slots `ls` one after the
      other calls them in that order. */
  lemma EmitInConnectOrder(id: nat, ls: seq<Label>, p: Program, arg: int, strat: Strategy, fuel: nat)
    requires Pure(p, arg) && fuel >= |ls|
    requires forall l: Label {:trigger p(l, arg)} :: p(l, arg).ending.Return?
    requires strat.VoidStrategy? || strat.ctl == All
    ensures var e := Emit(p, ConnectAll(NewSignal(id), ls), arg, strat, fuel);
      && |e.trace| == |ls|
      && (forall k :: 0 <= k < |ls| ==> e.trace[k] == Call(k + 1, ls[k], arg, 1))
      && e.result == Reduce(strat, Results(p, ls, arg))
  {
    ConnectAllHolds(id, ls);
    EmitInOrder(ConnectAll(NewSignal(id), ls), Ids(1, |ls|), ls, p, arg, strat, fuel);
  }

  // ---------------------------------------------------------------------
  // The library's tests, on the model

  /** A slot that returns its own label. */
  function Echo(): Program
  {
    (l: Label, x: int) => Script([], Return(l))
  }

  /** Five slots returning 777, 42, 1, 42 and 777, aggregated by
      `aggregation_collation`: the vector holds the five results in
      connection order. */
  lemma CollationVector()
    ensures var s := ConnectAll(NewSignal(0), [777, 42, 1, 42, 777]);
      Emit(Echo(), s, 0, ValueStrategy(Collation, All), 5).result == Collated([777, 42, 1, 42, 777])
  {
    var ls: seq<Label> := [777, 42, 1, 42, 777];
    EmitInConnectOrder(0, ls, Echo(), 0, ValueStrategy(Collation, All), 5);
    assert Results(Echo(), ls, 0) == [777, 42, 1, 42, 777];
  }

  /** Two slots returning 0 and then 1, emitted with the default strategy
      of an `int()` signal: the last result. */
  lemma DefaultIsLast()
    ensures Emit(Echo(), ConnectAll(NewSignal(0), [0, 1]), 0, DefaultStrategy(false), 2).result == Latest(1)
  {
    EmitInConnectOrder(0, [0, 1], Echo(), 0, DefaultStrategy(false), 2);
  }

  /** The same two slots under `aggregation_collation`: both results. */
  lemma CollationOfTwo()
    ensures Emit(Echo(), ConnectAll(NewSignal(0), [0, 1]), 0, ValueStrategy(Collation, All), 2).result == Collated([0, 1])
  {
    var ls: seq<Label> := [0, 1];
    EmitInConnectOrder(0, ls, Echo(), 0, ValueStrategy(Collation, All), 2);
    assert Results(Echo(), ls, 0) == [0, 1];
  }

  /** A `void()` signal's default aggregation keeps nothing, yet both
      slots are called. */
  lemma DefaultVoid()
    ensures var e := Emit(Echo(), ConnectAll(NewSignal(0), [0, 1]), 0, DefaultStrategy(true), 2);
      e.result == Discarded && |e.trace| == 2
  {
    EmitInConnectOrder(0, [0, 1], Echo(), 0, DefaultStrategy(true), 2);
  }

  /** The handlers of the two `condition_while` tests: label 0 returns
      `false`, label 1 returns `true`, any other label aborts. */
  function Handlers(): Program
  {
    (l: Label, x: int) => if l > 1 then Script([], Raise) else Script([], Return(l))
  }

  /** A new signal given the slots `ls`, emitted with slots that change
      nothing: the outcome of the plain loop over its slots, in connection
      order, and the signal unchanged. */
  lemma EmitConnected(id: nat, ls: seq<Label>, p: Program, arg: int, strat: Strategy, fuel: nat)
    requires Pure(p, arg) && fuel >= |ls|
    ensures var s := ConnectAll(NewSignal(id), ls);
      var e := Emit(p, s, arg, strat, fuel);
      var cs := InOrder(Ids(1, |ls|), ls, arg, 1);
      var r := Serial(p, cs, strat, Init(strat));
      e.signal == s && e.trace == cs[..r.0] && e.status == r.1 && e.result == r.2
  {
    var s := ConnectAll(NewSignal(id), ls);
    ConnectAllHolds(id, ls);
    CallsInOrder(s, Ids(1, |ls|), ls, 0, arg);
    PureEmit(p, s, Ids(1, |ls|), arg, strat, fuel);
    assert InOrder(Ids(1, |ls|), ls, arg, 1)[0..] == InOrder(Ids(1, |ls|), ls, arg, 1);
  }

  /** The calls owed to three connections made one after another. */
  lemma ThreeInOrder(a: Label, b: Label, c: Label)
    ensures InOrder(Ids(1, 3), [a, b, c], 0, 1) == [Call(1, a, 0, 1), Call(2, b, 0, 1), Call(3, c, 0, 1)]
  {
  }

  /** The scripts of the `condition_while` tests change nothing. */
  lemma HandlersPure()
    ensures Pure(Handlers(), 0)
  {
  }

  /** The plain loop of the first `condition_while` test. */
  lemma SerialUntil0()
    ensures Serial(Handlers(), [Call(1, 1, 0, 1), Call(2, 0, 0, 1), Call(3, 2, 0, 1)], ValueStrategy(Last, While(true)), Latest(0))
      == (2, Finished, Latest(0))
  {
    assert [Call(1, 1, 0, 1), Call(2, 0, 0, 1), Call(3, 2, 0, 1)][1..] == [Call(2, 0, 0, 1), Call(3, 2, 0, 1)];
  }

  /** The plain loop of the second `condition_while` test. */
  lemma SerialWhile0()
    ensures Serial(Handlers(), [Call(1, 0, 0, 1), Call(2, 1, 0, 1), Call(3, 2, 0, 1)], ValueStrategy(Last, While(false)), Latest(0))
      == (2, Finished, Latest(1))
  {
    assert [Call(1, 0, 0, 1), Call(2, 1, 0, 1), Call(3, 2, 0, 1)][1..] == [Call(2, 1, 0, 1), Call(3, 2, 0, 1)];
  }

  /** `aggregation_last` with `condition_while<bool, true>` over slots
      returning `true`, `false` and aborting: the emission stops after the
      second slot, returns `false`, and never calls the third. */
  lemma Until0(id: nat, fuel: nat)
    requires fuel >= 3
    ensures var e := Emit(Handlers(), ConnectAll(NewSignal(id), [1, 0, 2]), 0, ValueStrategy(Last, While(true)), fuel);
      && e.status == Finished && e.result == Latest(0)
      && e.trace == [Call(1, 1, 0, 1), Call(2, 0, 0, 1)]
      && forall c :: c in e.trace ==> c.slot != 2
  {
    var strat := ValueStrategy(Last, While(true));
    var cs := [Call(1, 1, 0, 1), Call(2, 0, 0, 1), Call(3, 2, 0, 1)];
    HandlersPure();
    EmitConnected(id, [1, 0, 2], Handlers(), 0, strat, fuel);
    ThreeInOrder(1, 0, 2);
    assert Init(strat) == Latest(0);
    SerialUntil0();
    assert cs[..2] == [Call(1, 1, 0, 1), Call(2, 0, 0, 1)];
  }

  /** `aggregation_last` with `condition_while<bool, false>` over slots
      returning `false`, `true` and aborting: the emission stops after the
      second slot, returns `true`, and never calls the third. */
  lemma While0(id: nat, fuel: nat)
    requires fuel >= 3
    ensures var e := Emit(Handlers(), ConnectAll(NewSignal(id), [0, 1, 2]), 0, ValueStrategy(Last, While(false)), fuel);
      && e.status == Finished && e.result == Latest(1)
      && e.trace == [Call(1, 0, 0, 1), Call(2, 1, 0, 1)]
      && forall c :: c in e.trace ==> c.slot != 2
  {
    var strat := ValueStrategy(Last, While(false));
    var cs := [Call(1, 0, 0, 1), Call(2, 1, 0, 1), Call(3, 2, 0, 1)];
    HandlersPure();
    EmitConnected(id, [0, 1, 2], Handlers(), 0, strat, fuel);
    ThreeInOrder(0, 1, 2);
    assert Init(strat) == Latest(0);
    SerialWhile0();
    assert cs[..2] == [Call(1, 0, 0, 1), Call(2, 1, 0, 1)];
  }

  /** `aggregation_last` with `condition_while<int, true>` over slots
      returning 2 and 5: the comparison `2 == true` promotes `true` to 1,
      so the emission stops after the first slot and returns 2. */
  lemma WhileOnTwo(id: nat, fuel: nat)
    requires fuel >= 2
    ensures var e := Emit(Echo(), ConnectAll(NewSignal(id), [2, 5]), 0, ValueStrategy(Last, While(true)), fuel);
      && e.status == Finished && e.result == Latest(2)
      && e.trace == [Call(1, 2, 0, 1)]
  {
    var strat := ValueStrategy(Last, While(true));
    var cs := [Call(1, 2, 0, 1), Call(2, 5, 0, 1)];
    assert Pure(Echo(), 0);
    EmitConnected(id, [2, 5], Echo(), 0, strat, fuel);
    assert InOrder(Ids(1, 2), [2, 5], 0, 1) == cs;
    assert Init(strat) == Latest(0);
    assert Serial(Echo(), cs, strat, Latest(0)) == (1, Finished, Latest(2));
    assert cs[..1] == [Call(1, 2, 0, 1)];
  }
}

=== FILE: strategy.dfy ===
/** The pluggable strategies of an emission: a controller that decides,
    after each slot call, whether to go on, and an aggregation that reduces
    the slot results to the emission's result.  Slot results are integers;
    a `bool` result is the integer 1 or 0, as C++ promotes it. */
module Strategy {

  /** `condition_all` and `condition_while<Result, target>`. */
  datatype Controller = All | While(target: bool)

  /** Aggregations for value-returning signatures. */
  datatype Aggregation = Discard | Last | Collation | Counter

  /** The aggregations that exist for `void` signatures. */
  datatype VoidAggregation = VoidDiscard | VoidCounter

  /** How one emission treats its slots: a `void` signature has no result to
      show a controller (it always goes on), a value signature does. */
  datatype Strategy =
    | VoidStrategy(vagg: VoidAggregation)
    | ValueStrategy(agg: Aggregation, ctl: Controller)

  /** The state of an aggregation, which is also what `get()` returns:
      nothing, the latest value, the collated values, or a count. */
  datatype AggState = Discarded | Latest(value: int) | Collated(values: seq<int>) | Counted(count: nat)

  /** The integer a C++ `bool` converts to. */
  function BoolValue(b: bool): int
  {
    if b then 1 else 0
  }

  /** `condition_while` as written: the result is compared with the target
      after the target is promoted to an integer. */
  function WhileAsWritten(target: bool, v: int): (ok: bool)
  {
    v == BoolValue(target)
  }

  /** The controller's verdict after a slot returned `v`, as the code
      computes it: `condition_all` always goes on, `condition_while`
      compares as written.  Emission uses this verdict. */
  function Verdict(ctl: Controller, v: int): (ok: bool)
  {
    match ctl
    case All => true
    case While(t) => WhileAsWritten(t, v)
  }

  /** The controller's verdict, with `condition_while` comparing the result
      converted to a boolean with the target, as its documentation says. */
  function Continue(ctl: Controller, v: int): (ok: bool)
  {
    match ctl
    case All => true
    case While(t) => (v != 0) == t
  }

  /** For results that are booleans the two readings agree, so every
      emission over boolean results behaves as documented. */
  lemma WhileAgreesOnBooleans(ctl: Controller, b: bool)
    ensures Verdict(ctl, BoolValue(b)) == Continue(ctl, BoolValue(b))
  {
  }

  /** For a non-boolean result they do not: 2 converts to `true`, but
      `2 == true` compares 2 with 1. */
  lemma WhileAsWrittenStopsOnTwo()
    ensures !Verdict(While(true), 2)
    ensures Continue(While(true), 2)
  {
  }

  /** The aggregation state before any slot is called. */
  function Init(strat: Strategy): (st: AggState)
  {
    match strat
    case VoidStrategy(VoidDiscard) => Discarded
    case VoidStrategy(VoidCounter) => Counted(0)
    case ValueStrategy(Discard, _) => Discarded
    case ValueStrategy(Last, _) => Latest(0)
    case ValueStrategy(Collation, _) => Collated([])
    case ValueStrategy(Counter, _) => Counted(0)
  }

  /** `aggregate(r)` of a value aggregation. */
  function Aggregate(st: AggState, v: int): AggState
  {
    match st
    case Discarded => Discarded
    case Latest(_) => Latest(v)
    case Collated(vs) => Collated(vs + [v])
    case Counted(n) => Counted(n + 1)
  }

  /** `aggregate()` of a `void` aggregation. */
  function AggregateVoid(st: AggState): AggState
  {
    match st
    case Counted(n) => Counted(n + 1)
    case _ => st
  }

  /** The connection invoker, after the slot has returned `v`: ask the
      controller, aggregate the value whatever the verdict, and hand the
      verdict back. */
  function Invoke(strat: Strategy, st: AggState, v: int): (r: (bool, AggState))
  {
    match strat
    case VoidStrategy(_) => (true, AggregateVoid(st))
    case ValueStrategy(_, ctl) => (Verdict(ctl, v), Aggregate(st, v))
  }

  /** Feeds slot results through the invoker until one gets a stop verdict;
      answers how many results were consumed and the final state. */
  function Dispatch(strat: Strategy, st: AggState, vs: seq<int>): (r: (nat, AggState))
    ensures r.0 <= |vs|
    ensures |vs| > 0 ==> r.0 > 0
    decreases |vs|
  {
    if |vs| == 0 then (0, st)
    else
      var (ok, st') := Invoke(strat, st, vs[0]);
      if !ok then (1, st')
      else
        var (k, st'') := Dispatch(strat, st', vs[1..]);
        (k + 1, st'')
  }

  /** The aggregation of a whole sequence of results at once: nothing, the
      last value (value-initialised when there is none), all values in
      order, or their number. */
  function Reduce(strat: Strategy, vs: seq<int>): AggState
  {
    match strat
    case VoidStrategy(VoidDiscard) => Discarded
    case VoidStrategy(VoidCounter) => Counted(|vs|)
    case ValueStrategy(Discard, _) => Discarded
    case ValueStrategy(Last, _) => Latest(if |vs| == 0 then 0 else vs[|vs| - 1])
    case ValueStrategy(Collation, _) => Collated(vs)
    case ValueStrategy(Counter, _) => Counted(|vs|)
  }

  /** Does the controller let the emission go on after result `v`? */
  predicate Goes(strat: Strategy, v: int)
  {
    strat.VoidStrategy? || Verdict(strat.ctl, v)
  }

  /** Aggregating one more value extends the reduction by that value. */
  lemma InvokeExtends(strat: Strategy, prefix: seq<int>, v: int)
    ensures Invoke(strat, Reduce(strat, prefix), v) == (Goes(strat, v), Reduce(strat, prefix + [v]))
  {
  }

  /** Dispatch stops right after the first result its controller rejects
      (that result still aggregated) or at the end, and its state is the
      reduction of exactly the consumed results. */
  lemma {:induction false} DispatchReduces(strat: Strategy, prefix: seq<int>, vs: seq<int>)
    ensures var (k, st) := Dispatch(strat, Reduce(strat, prefix), vs);
      && (forall j :: 0 <= j < k - 1 ==> Goes(strat, vs[j]))
      && (k < |vs| ==> !Goes(strat, vs[k - 1]))
      && st == Reduce(strat, prefix + vs[..k])
    decreases |vs|
  {
    if |vs| == 0 {
      assert prefix + vs[..0] == prefix;
    } else {
      InvokeExtends(strat, prefix, vs[0]);
      if Goes(strat, vs[0]) {
        DispatchReduces(strat, prefix + [vs[0]], vs[1..]);
        var (k, st) := Dispatch(strat, Reduce(strat, prefix + [vs[0]]), vs[1..]);
        assert prefix + [vs[0]] + vs[1..][..k] == prefix + vs[..k + 1];
        forall j | 0 <= j < k ensures Goes(strat, vs[j])
        {
          if j > 0 { assert vs[j] == vs[1..][j - 1]; }
        }
      } else {
        assert vs[..1] == [vs[0]];
      }
    }
  }

  /** The initial state is the reduction of no results. */
  lemma InitIsEmptyReduce(strat: Strategy)
    ensures Init(strat) == Reduce(strat, [])
    ensures Init(strat) == Discarded || Init(strat) == Latest(0) || Init(strat) == Collated([]) || Init(strat) == Counted(0)
  {
  }

  /** The default strategy: `aggregation_void` for `void` signatures,
      `aggregation_last` otherwise, with `condition_all`. */
  function DefaultStrategy(isVoid: bool): (strat: Strategy)
  {
    if isVoid then VoidStrategy(VoidDiscard) else ValueStrategy(Last, All)
  }
}

=== FILE: traversal.dfy ===
/** What an emission does when its slots change nothing: it calls the
    active connections in registration order, exactly as a plain loop over
    that list would, and its result is the aggregation of the values the
    controller let through. */
module Traversal {
  import opened Ring
  import opened Strategy
  import opened Registry
  import opened Emission

  /** Slots that, called with `arg`, neither connect, disconnect nor emit. */
  ghost predicate Pure(p: Program, arg: int)
  {
    forall l: Label {:trigger p(l, arg)} :: p(l, arg).effects == []
  }

  /** The calls an emission at depth `level` with argument `arg` owes the
      nodes of `o` from position `i` on: one per node that holds a slot, in
      order, each made at recursion depth `level + 1`. */
  function Calls(a: Arena, o: seq<nat>, i: nat, arg: int, level: nat): (cs: seq<Call>)
    requires i <= |o|
    ensures |cs| <= |o| - i
    ensures forall k :: 0 <= k < |cs| ==> cs[k].arg == arg && cs[k].depth == level + 1
    decreases |o| - i
  {
    if i == |o| then []
    else if o[i] != Head && o[i] in a && a[o[i]].slot.Some? then
      [Call(o[i], a[o[i]].slot.value, arg, level + 1)] + Calls(a, o, i + 1, arg, level)
    else Calls(a, o, i + 1, arg, level)
  }

  /** The calls `cs` made one after the other, as a loop over a list would
      make them: it stops after the first call that raises or whose result
      the controller rejects.  Answers how many calls were made, how the
      loop ended, and the aggregation state. */
  function Serial(p: Program, cs: seq<Call>, strat: Strategy, st: AggState): (r: (nat, Status, AggState))
    ensures r.0 <= |cs|
    ensures r.1 != OutOfFuel
  {
    if |cs| == 0 then (0, Finished, st)
    else
      match p(cs[0].slot, cs[0].arg).ending
      case Raise => (1, Raised, st)
      case Return(v) =>
        var (ok, st') := Invoke(strat, st, v);
        if !ok then (1, Finished, st')
        else
          var r := Serial(p, cs[1..], strat, st');
          (r.0 + 1, r.1, r.2)
  }

  /** The results the calls `cs` return. */
  function Values(p: Program, cs: seq<Call>): (vs: seq<int>)
    requires forall k :: 0 <= k < |cs| ==> p(cs[k].slot, cs[k].arg).ending.Return?
    ensures |vs| == |cs|
    ensures forall k :: 0 <= k < |cs| ==> vs[k] == p(cs[k].slot, cs[k].arg).ending.value
  {
    seq(|cs|, k requires 0 <= k < |cs| => p(cs[k].slot, cs[k].arg).ending.value)
  }

  /** The calls owed are one per active node, in the order of `Active`. */
  lemma {:induction false} CallsActive(a: Arena, o: seq<nat>, i: nat, arg: int, level: nat)
    requires Stored(a, o) && i <= |o| && forall j :: 0 <= j < |o| ==> o[j] != Head
    ensures Stored(a, o[i..])
    ensures |Calls(a, o, i, arg, level)| == |Active(a, o[i..])|
    ensures forall k :: 0 <= k < |Active(a, o[i..])| ==>
      && Calls(a, o, i, arg, level)[k].node == Active(a, o[i..])[k]
      && Active(a, o[i..])[k] in a
      && a[Active(a, o[i..])[k]].slot == Some(Calls(a, o, i, arg, level)[k].slot)
    decreases |o| - i
  {
    StoredSlice(a, o, i);
    if i < |o| {
      assert o[i..][0] == o[i] && o[i..][1..] == o[i + 1..];
      CallsActive(a, o, i + 1, arg, level);
    }
  }

  /** The run a plain loop over `cs` that ended as `r` describes, on a
      signal `s` it left alone. */
  function Mirror(s: Signal, cs: seq<Call>, r: (nat, Status, AggState)): (w: Run)
    requires r.0 <= |cs|
  {
    Run(s, cs[..r.0], r.1, r.2)
  }

  /** What the walk from position `i` needs: a well-formed signal, slots
      that change nothing, and a unit of fuel per remaining node. */
  ghost predicate Ready(p: Program, s: Signal, o: seq<nat>, i: nat, arg: int, fuel: nat)
  {
    Valid(s, o) && i <= |o| && Pure(p, arg) && fuel >= |o| - i
  }

  /** With slots that change nothing and enough fuel, the walk from
      position `i` leaves the signal as it was and makes exactly the calls
      the plain loop over the remaining active nodes makes. */
  lemma {:induction false} PureWalk(p: Program, s: Signal, o: seq<nat>, i: nat, arg: int, strat: Strategy, st: AggState, fuel: nat)
    requires Ready(p, s, o, i, arg, fuel)
    ensures Walk(p, s, Cursor(o, i), arg, strat, st, fuel)
      == Mirror(s, Calls(s.nodes, o, i, arg, s.depth), Serial(p, Calls(s.nodes, o, i, arg, s.depth), strat, st))
    decreases |o| - i, 3
  {
    if i == |o| {
      PureEnd(p, s, o, arg, strat, st, fuel);
    } else {
      PureNode(p, s, o, i, arg, strat, st, fuel);
    }
  }

  /** The walk at the node at position `i`, with or without a slot. */
  lemma {:induction false} PureNode(p: Program, s: Signal, o: seq<nat>, i: nat, arg: int, strat: Strategy, st: AggState, fuel: nat)
    requires Ready(p, s, o, i, arg, fuel) && i < |o|
    ensures Walk(p, s, o[i], arg, strat, st, fuel)
      == Mirror(s, Calls(s.nodes, o, i, arg, s.depth), Serial(p, Calls(s.nodes, o, i, arg, s.depth), strat, st))
    decreases |o| - i, 2
  {
    ReadyAt(p, s, o, i, arg, fuel);
    if s.nodes[o[i]].slot.None? {
      PureWalk(p, s, o, i + 1, arg, strat, st, fuel - 1);
      SkipMirror(p, s, o, i, arg, strat, st, fuel);
    } else {
      PureStep(p, s, o, i, arg, strat, st, fuel);
    }
  }

  /** The node at position `i` has no slot, and links to the next
      position; there is fuel for the step over it. */
  ghost predicate SkipAt(s: Signal, o: seq<nat>, i: nat, fuel: nat)
  {
    fuel > 0 && i < |o| && o[i] != Head && o[i] in s.nodes && s.nodes[o[i]].slot.None?
    && Get(s.nodes, o[i]).next == Cursor(o, i + 1)
  }

  /** The walk at a node without a slot makes the calls the plain loop
      from the next position makes, which are the calls owed from this one. */
  lemma SkipMirror(p: Program, s: Signal, o: seq<nat>, i: nat, arg: int, strat: Strategy, st: AggState, fuel: nat)
    requires SkipAt(s, o, i, fuel)
    requires Walk(p, s, Cursor(o, i + 1), arg, strat, st, fuel - 1)
      == Mirror(s, Calls(s.nodes, o, i + 1, arg, s.depth), Serial(p, Calls(s.nodes, o, i + 1, arg, s.depth), strat, st))
    ensures Walk(p, s, o[i], arg, strat, st, fuel)
      == Mirror(s, Calls(s.nodes, o, i, arg, s.depth), Serial(p, Calls(s.nodes, o, i, arg, s.depth), strat, st))
  {
    CallsSkip(s.nodes, o, i, arg, s.depth);
  }

  /** A node without a slot is owed no call. */
  lemma CallsSkip(a: Arena, o: seq<nat>, i: nat, arg: int, level: nat)
    requires i < |o| && o[i] in a && a[o[i]].slot.None?
    ensures Calls(a, o, i, arg, level) == Calls(a, o, i + 1, arg, level)
  {
  }

  /** A node with a slot is called. */
  lemma {:induction false} PureStep(p: Program, s: Signal, o: seq<nat>, i: nat, arg: int, strat: Strategy, st: AggState, fuel: nat)
    requires fuel > 0 && i < |o| && Ready(p, s, o, i + 1, arg, fuel - 1)
    requires o[i] != Head && o[i] in s.nodes && s.nodes[o[i]].slot.Some?
    ensures Walk(p, s, o[i], arg, strat, st, fuel)
      == Mirror(s, Calls(s.nodes, o, i, arg, s.depth), Serial(p, Calls(s.nodes, o, i, arg, s.depth), strat, st))
    decreases |o| - i, 1
  {
    PureCall(p, s, o, i, s.nodes[o[i]].slot.value, arg, strat, st, fuel - 1);
    StepTo(p, s, o[i], arg, strat, st, fuel, Mirror(s, Calls(s.nodes, o, i, arg, s.depth), Serial(p, Calls(s.nodes, o, i, arg, s.depth), strat, st)));
  }

  /** The node at position `i` is stored, is not the sentinel, links to the
      next position, and leaves enough fuel for the rest. */
  lemma ReadyAt(p: Program, s: Signal, o: seq<nat>, i: nat, arg: int, fuel: nat)
    requires Ready(p, s, o, i, arg, fuel) && i < |o|
    ensures o[i] in s.nodes && o[i] != Head && fuel > 0
    ensures Get(s.nodes, o[i]).next == Cursor(o, i + 1)
    ensures Ready(p, s, o, i + 1, arg, fuel - 1) && Ready(p, s, o, i + 1, arg, fuel)
  {
    NextAt(s, o, i);
  }

  /** The step at the active node at position `i`: the slot call leaves
      the signal alone, then the walk goes on as the plain loop does. */
  lemma {:induction false} PureCall(p: Program, s: Signal, o: seq<nat>, i: nat, l: Label, arg: int, strat: Strategy, st: AggState, fuel: nat)
    requires Ready(p, s, o, i + 1, arg, fuel) && i < |o|
    requires o[i] != Head && o[i] in s.nodes && s.nodes[o[i]].slot == Some(l)
    ensures CallStep(p, s, o[i], l, arg, strat, st, fuel)
      == Mirror(s, Calls(s.nodes, o, i, arg, s.depth), Serial(p, Calls(s.nodes, o, i, arg, s.depth), strat, st))
    decreases |o| - i, 0
  {
    var rest := Calls(s.nodes, o, i + 1, arg, s.depth);
    assert Calls(s.nodes, o, i, arg, s.depth) == [Call(o[i], l, arg, s.depth + 1)] + rest;
    match p(l, arg).ending
    case Raise =>
      CallRaises(p, s, o[i], l, arg, strat, st, fuel, rest);
    case Return(v) =>
      if !Invoke(strat, st, v).0 {
        CallStops(p, s, o[i], l, arg, strat, st, fuel, rest);
      } else {
        var st' := Invoke(strat, st, v).1;
        ReadyNext(p, s, o, i, arg, fuel);
        PureWalk(p, s, o, i + 1, arg, strat, st', fuel);
        CallGoesOn(p, s, o[i], l, arg, strat, st, fuel, rest);
      }
  }

  /** A slot that raises ends the loop after its call. */
  lemma CallRaises(p: Program, s: Signal, cur: NodeId, l: Label, arg: int, strat: Strategy, st: AggState, fuel: nat, rest: seq<Call>)
    requires Pure(p, arg) && p(l, arg).ending.Raise?
    ensures CallStep(p, s, cur, l, arg, strat, st, fuel)
      == Mirror(s, [Call(cur, l, arg, s.depth + 1)] + rest, Serial(p, [Call(cur, l, arg, s.depth + 1)] + rest, strat, st))
  {
    var c := Call(cur, l, arg, s.depth + 1);
    PureSlot(p, s, l, arg, fuel);
    SerialStep(p, c, rest, strat, st);
    MirrorOne(s, c, rest, Raised, st);
    assert [c] + [] == [c];
  }

  /** A slot whose result the controller rejects ends the loop after its
      call, the result aggregated. */
  lemma CallStops(p: Program, s: Signal, cur: NodeId, l: Label, arg: int, strat: Strategy, st: AggState, fuel: nat, rest: seq<Call>)
    requires Pure(p, arg) && p(l, arg).ending.Return?
    requires !Invoke(strat, st, p(l, arg).ending.value).0
    ensures CallStep(p, s, cur, l, arg, strat, st, fuel)
      == Mirror(s, [Call(cur, l, arg, s.depth + 1)] + rest, Serial(p, [Call(cur, l, arg, s.depth + 1)] + rest, strat, st))
  {
    var c := Call(cur, l, arg, s.depth + 1);
    PureSlot(p, s, l, arg, fuel);
    SerialStep(p, c, rest, strat, st);
    MirrorOne(s, c, rest, Finished, Invoke(strat, st, p(l, arg).ending.value).1);
    assert [c] + [] == [c];
  }

  /** A slot whose result the controller accepts: its call, then the rest
      of the walk, which matches the rest of the loop. */
  lemma CallGoesOn(p: Program, s: Signal, cur: NodeId, l: Label, arg: int, strat: Strategy, st: AggState, fuel: nat, rest: seq<Call>)
    requires Pure(p, arg) && p(l, arg).ending.Return?
    requires Invoke(strat, st, p(l, arg).ending.value).0
    requires Walk(p, s, Get(s.nodes, cur).next, arg, strat, Invoke(strat, st, p(l, arg).ending.value).1, fuel)
      == Mirror(s, rest, Serial(p, rest, strat, Invoke(strat, st, p(l, arg).ending.value).1))
    ensures CallStep(p, s, cur, l, arg, strat, st, fuel)
      == Mirror(s, [Call(cur, l, arg, s.depth + 1)] + rest, Serial(p, [Call(cur, l, arg, s.depth + 1)] + rest, strat, st))
  {
    var c := Call(cur, l, arg, s.depth + 1);
    PureSlot(p, s, l, arg, fuel);
    SerialStep(p, c, rest, strat, st);
    MirrorCons(s, c, rest, Serial(p, rest, strat, Invoke(strat, st, p(l, arg).ending.value).1));
    assert [c] + [] == [c];
  }

  /** The successor of the node at position `i` is the cursor at `i + 1`. */
  lemma ReadyNext(p: Program, s: Signal, o: seq<nat>, i: nat, arg: int, fuel: nat)
    requires Ready(p, s, o, i + 1, arg, fuel) && i < |o|
    ensures o[i] in s.nodes && Get(s.nodes, o[i]).next == Cursor(o, i + 1)
  {
    NextAt(s, o, i);
  }

  /** The walk at a node without a slot is the walk from its successor.
      Only one unfolding step, stated apart to keep it out of the larger
      proofs' context; it says nothing beyond the definition. */
  lemma SkipTo(p: Program, s: Signal, cur: nat, arg: int, strat: Strategy, st: AggState, fuel: nat, r: Run)
    requires cur != Head && cur in s.nodes && fuel > 0 && s.nodes[cur].slot.None?
    requires Walk(p, s, s.nodes[cur].next, arg, strat, st, fuel - 1) == r
    ensures Walk(p, s, cur, arg, strat, st, fuel) == r
  {
  }

  /** The walk at a node with a slot is the call step there.
      Only one unfolding step, stated apart to keep it out of the larger
      proofs' context; it says nothing beyond the definition. */
  lemma StepTo(p: Program, s: Signal, cur: nat, arg: int, strat: Strategy, st: AggState, fuel: nat, r: Run)
    requires cur != Head && cur in s.nodes && fuel > 0 && s.nodes[cur].slot.Some?
    requires CallStep(p, s, cur, s.nodes[cur].slot.value, arg, strat, st, fuel - 1) == r
    ensures Walk(p, s, cur, arg, strat, st, fuel) == r
  {
  }

  /** At the sentinel the walk makes no call, as the loop over nothing. */
  lemma PureEnd(p: Program, s: Signal, o: seq<nat>, arg: int, strat: Strategy, st: AggState, fuel: nat)
    ensures Walk(p, s, Cursor(o, |o|), arg, strat, st, fuel)
      == Mirror(s, Calls(s.nodes, o, |o|, arg, s.depth), Serial(p, Calls(s.nodes, o, |o|, arg, s.depth), strat, st))
  {
    assert Mirror(s, [], (0, Finished, st)) == Run(s, [], Finished, st);
  }

  /** A loop that stopped at its first call. */
  lemma MirrorOne(s: Signal, c: Call, rest: seq<Call>, status: Status, st: AggState)
    ensures Mirror(s, [c] + rest, (1, status, st)) == Run(s, [c], status, st)
  {
    assert ([c] + rest)[..1] == [c];
  }

  /** A loop that went on after its first call. */
  lemma MirrorCons(s: Signal, c: Call, rest: seq<Call>, r: (nat, Status, AggState))
    requires r.0 <= |rest|
    ensures Mirror(s, [c] + rest, (r.0 + 1, r.1, r.2))
      == Run(s, [c] + Mirror(s, rest, r).trace, r.1, r.2)
  {
    assert ([c] + rest)[..r.0 + 1] == [c] + rest[..r.0];
  }

  /** One step of the plain loop. */
  lemma SerialStep(p: Program, c: Call, rest: seq<Call>, strat: Strategy, st: AggState)
    ensures var r := Serial(p, [c] + rest, strat, st);
      match p(c.slot, c.arg).ending
      case Raise => r == (1, Raised, st)
      case Return(v) =>
        if !Invoke(strat, st, v).0 then r == (1, Finished, Invoke(strat, st, v).1)
        else
          var r' := Serial(p, rest, strat, Invoke(strat, st, v).1);
          r == (r'.0 + 1, r'.1, r'.2)
  {
    assert ([c] + rest)[0] == c && ([c] + rest)[1..] == rest;
  }

  /** A slot call that changes nothing hands the signal back unchanged. */
  lemma PureSlot(p: Program, s: Signal, l: Label, arg: int, fuel: nat)
    requires p(l, arg).effects == []
    ensures SlotCall(p, s, l, arg, fuel) == Outcome(s, [], Finished)
  {
  }

  /** The whole emission with slots that change nothing: the calls of the
      plain loop over the active connections, in registration order; the
      signal is unchanged except that an outermost emission that finished
      sweeps when a deactivation is pending. */
  lemma PureEmit(p: Program, s: Signal, o: seq<nat>, arg: int, strat: Strategy, fuel: nat)
    requires Valid(s, o) && Pure(p, arg) && fuel >= |o|
    ensures var e := Emit(p, s, arg, strat, fuel);
      var cs := Calls(s.nodes, o, 0, arg, s.depth);
      var r := Serial(p, cs, strat, Init(strat));
      && e.trace == cs[..r.0] && e.status == r.1 && e.result == r.2
      && e.signal == (if Head in s.nodes && r.1 == Finished && s.depth == 0 && s.deactivations then Sweep(s) else s)
  {
    if Head in s.nodes {
      assert Cursor(o, 0) == s.nodes[Head].next;
      assert Ready(p, s, o, 0, arg, fuel);
      PureWalk(p, s, o, 0, arg, strat, Init(strat), fuel);
    } else {
      assert o == [];
    }
  }

  /** When no call raises, the plain loop is the dispatch of the results:
      it makes as many calls as the dispatch consumes, finishes, and ends in
      the dispatch's state. */
  lemma {:induction false} SerialDispatch(p: Program, cs: seq<Call>, strat: Strategy, st: AggState)
    requires forall k :: 0 <= k < |cs| ==> p(cs[k].slot, cs[k].arg).ending.Return?
    ensures var d := Dispatch(strat, st, Values(p, cs));
      Serial(p, cs, strat, st) == (d.0, Finished, d.1)
    decreases |cs|
  {
    if |cs| > 0 {
      var vs := Values(p, cs);
      assert Values(p, cs[1..]) == vs[1..];
      SerialDispatch(p, cs[1..], strat, Invoke(strat, st, vs[0]).1);
    }
  }

  /** A signal with no deactivation pending, emitted with slots that change
      nothing and all return: the calls go to the active connections in
      order until the controller first rejects a result, that result
      included; the emission's result is the aggregation of exactly the
      results returned; and the signal is unchanged. */
  lemma PureEmitReduces(p: Program, s: Signal, o: seq<nat>, arg: int, strat: Strategy, fuel: nat)
    requires Valid(s, o) && !s.deactivations && Pure(p, arg) && fuel >= |o|
    requires forall l: Label {:trigger p(l, arg)} :: p(l, arg).ending.Return?
    ensures var e := Emit(p, s, arg, strat, fuel);
      var cs := Calls(s.nodes, o, 0, arg, s.depth);
      var vs := Values(p, cs);
      var k := |e.trace|;
      && e.signal == s && e.status == Finished
      && (0 < k <= |cs| || (k == 0 && cs == []))
      && e.trace == cs[..k]
      && (forall j :: 0 <= j < k - 1 ==> Goes(strat, vs[j]))
      && (k < |cs| ==> !Goes(strat, vs[k - 1]))
      && e.result == Reduce(strat, vs[..k])
  {
    var cs := Calls(s.nodes, o, 0, arg, s.depth);
    PureEmit(p, s, o, arg, strat, fuel);
    SerialDispatch(p, cs, strat, Init(strat));
    InitIsEmptyReduce(strat);
    DispatchReduces(strat, [], Values(p, cs));
    assert [] + Values(p, cs)[..Serial(p, cs, strat, Init(strat)).0] == Values(p, cs)[..Serial(p, cs, strat, Init(strat)).0];
  }

  /** Under a strategy that never stops early, the same emission calls
      every active connection and aggregates all of their results. */
  lemma PureEmitAll(p: Program, s: Signal, o: seq<nat>, arg: int, strat: Strategy, fuel: nat)
    requires Valid(s, o) && !s.deactivations && Pure(p, arg) && fuel >= |o|
    requires forall l: Label {:trigger p(l, arg)} :: p(l, arg).ending.Return?
    requires strat.VoidStrategy? || strat.ctl == All
    ensures var e := Emit(p, s, arg, strat, fuel);
      var cs := Calls(s.nodes, o, 0, arg, s.depth);
      && e.signal == s && e.status == Finished
      && e.trace == cs
      && e.result == Reduce(strat, Values(p, cs))
  {
    var cs := Calls(s.nodes, o, 0, arg, s.depth);
    PureEmitReduces(p, s, o, arg, strat, fuel);
    forall v: int ensures Goes(strat, v) { }
    assert |Emit(p, s, arg, strat, fuel).trace| == |cs|;
    assert cs[..|cs|] == cs;
    assert Values(p, cs)[..|cs|] == Values(p, cs);
  }
}
